=== FILE: README.md ===
# JRecord core, modelled in Dafny

JRecord reads and writes COBOL-style record files from Java. This project
models four parts of it as pure Dafny functions, and proves what they do:

- **The schema model.** `RecordDetail` is one record: an ordered array of
  fields with a delimiter, a quote and a derived length.
  `LayoutDetail` is a file's layout: an ordered array of records. From its
  records it derives a shared delimiter, the binary, CSV and tree flags, the
  file structure, and a lazily built, case-insensitive field-name index. In
  that index every field gets a unique lookup name.
- **The CSV line parser** (`BasicCsvLineParser`). The line is split into
  `java.util.StringTokenizer` tokens, delimiters included (module
  `CsvTokens`). The tokens are then folded into fields, and an optional quote
  lets one field span delimiters. The model also covers the field read and
  count built on the split, and the quoting of values written back.
- **The sign-separate numeric codec** (`TypeSignSeparate`). COBOL
  `SIGN SEPARATE` display numbers are digits zero-padded to the field
  length, with a sign character in front of them or behind them.
- **The Fujitsu variable-length record reader** (`FujitsuVbByteReader`).
  Each record is framed by a 4-byte record descriptor word (RDW) in front
  and another one behind.

Files:
- `wrappers.dfy`: `Option`, `Result`, and Java arrays whose slots may be null.
- `java_strings.dfy`: the `String` methods the core calls: case mapping,
  `equalsIgnoreCase`, `startsWith`, `indexOf`, `trim`, `Integer.toString`.
- `constants.dfy`: the integer codes of `Constants`, passed as a parameter.
- `record_detail.dfy`, `layout_detail.dfy`: the schema model.
- `field_name_index.dfy`: the field-name index.
- `csv_tokens.dfy`, `csv_line_parser.dfy`: the CSV parser.
- `type_sign_separate.dfy`: the sign-separate codec.
- `fujitsu_vb_byte_reader.dfy`: the RDW reader.

Modelling conventions:
- A Java array that may hold nulls is a `seq<Option<T>>` plus a count.
  This keeps the `+5` growth of `addField`/`addRecord` and the null slots
  past the count visible.
- An exception is the `Err` case of a `Result`.
- A Java object reference between fields and records is a position: the
  field's owning record name, or a `FieldRef(record, field)` in the index.
- Mutating methods become functions that return the new state. A reader is
  a value that holds the bytes still to come.

Where the code and the format's written description differ, the model
follows the code:
- **RDW length byte order.** The reader takes RDW byte 0 as the LOW byte of
  the length and byte 1 as the high byte (`FujitsuVbByteReader.java:91-93`).
- **Partial header.** A header of 1 to 3 bytes at the end of the input is
  not refused. The missing bytes are the ones the previous RDW left in the
  buffer (`PartialHeader`).
- **Short payload.** A payload shorter than its length is not reported by
  itself. The error that follows is the missing trailer
  (`ShortPayloadMissesTrailer`).
- **Zero length.** A zero length reads as the end of the data
  (`ZeroLengthEndsData`).
- **Trailing delimiter, no quote.** Without a quote, a trailing delimiter
  adds no field. `split("a,")` with min 0 is `["a"]`, and `getFieldCount`
  is 1. The `""` the loop writes after the fields survives only when the
  first array is kept, as with min 1, so `getField(1)` reads `""`
  (`TrailingDelimiterNoQuote`, `NoQuoteGetField`, `TrailingEmptyField`).
- **Trailing delimiter, with a quote.** With a quote, field 1 of `"a,"` is
  null (`TrailingEmptyField`).
- **Quoting on write.** `formatField` quotes a value that starts with the
  quote, not one that merely contains it; the test for a quote anywhere in
  the value is commented out (`BasicCsvLineParser.java:150-153`,
  `FormatField`).
- **Multi-character delimiters.** `StringTokenizer` treats a delimiter
  string as a set of characters. With a delimiter of two or more characters,
  every delimiter character therefore becomes a field of its own
  (`MultiCharDelimiter`).
- **Conflicting delimiters.** The layout constructor refuses any later
  delimited record whose delimiter differs from the first non-empty one.
  This includes a later record whose delimiter is `""`
  (`ConflictingDelimitersFail`, `ScanRecords`).
- **Stale record length.** `addField` does not update the record length
  (`AddFieldLeavesLengthStale`).
- **File-structure ordering.** `getFileStructure` compares the declared
  structure with `IO_TEXT_LINE` by integer value, so the result depends on
  how the codes are ordered (`FileStructureKeepsHigherDeclared`).

## Model

| member | source | states |
|---|---|---|
| `RecordDetail.LengthOfFields` | src/main/java/net/sf/JRecord/Details/RecordDetail.java:193-199 | the constructor's length is the largest end position over the fields of non-negative length, or 0: it is at least every such end and equals one of them |
| `RecordDetail.NewRecord` | src/main/java/net/sf/JRecord/Details/RecordDetail.java:167-201 | construction fails (NullPointerException) exactly when a null field lies before the trailing nulls; the count leaves out the trailing nulls; every counted field is owned by the record; the slots past the count are null; the delimiter is converted; the length is derived; the font name and record style are the ones given; the parent index is NULL_INTEGER |
| `RecordDetail.ConvertFieldDelim` | src/main/java/net/sf/JRecord/Details/RecordDetail.java:520-528 | a null delimiter or a trimmed `<tab>` in any letter case becomes a tab; otherwise a trimmed `<space>` in any letter case becomes a space; any other delimiter is returned unchanged |
| `RecordDetail.ConvertFieldDelimIdempotent` | src/main/java/net/sf/JRecord/Details/RecordDetail.java:520-528 | converting an already converted delimiter changes nothing |
| `RecordDetail.SetParentRecordIndex` | src/main/java/net/sf/JRecord/Details/RecordDetail.java:547-549 | only the parent index changes: a valid record stays valid with the same fields |
| `RecordDetail.AddField` | src/main/java/net/sf/JRecord/Details/RecordDetail.java:222-234 | the field, now owned by the record, is appended; count and added-field counter go up by one; earlier fields are unchanged; the slots past the new count are null; the array grows by 5 only when full; nothing else changes |
| `RecordDetail.AddFieldLeavesLengthStale` | src/main/java/net/sf/JRecord/Details/RecordDetail.java:222-234 | after adding a field that ends past the record, the stored length is no longer the derived length |
| `RecordDetail.GetFieldIndex` | src/main/java/net/sf/JRecord/Details/RecordDetail.java:365-378 | NULL_INTEGER for a null name; otherwise the first field whose name equals the name ignoring case, found whenever one exists, else NULL_INTEGER |
| `RecordDetail.GetFieldByName` | src/main/java/net/sf/JRecord/Details/RecordDetail.java:408-417 | a field is returned exactly when the name is non-null and some field matches it ignoring case, and it is the one at getFieldIndex |
| `RecordDetail.LevelNamesInOrder` | src/main/java/net/sf/JRecord/Details/RecordDetail.java:584-591 | the level names are, in group order and one for each, `.G.` upper-cased for exactly the non-null non-empty group names G: each sits at a strictly later group position than the one before, and every non-empty group has one |
| `RecordDetail.LevelNamesMembers` | src/main/java/net/sf/JRecord/Details/RecordDetail.java:584-591 | a string is a level name exactly when it is `.G.`, upper-cased, for some non-null non-empty group name G |
| `RecordDetail.GetFields` | src/main/java/net/sf/JRecord/Details/RecordDetail.java:579-611 | a null slot anywhere in the array throws; otherwise the result keeps array order and holds each field as many times as the array does when its name equals the name and its upper-cased group path contains every level name, and no other field |
| `RecordDetail.GetFieldsGroupsInSequence` | src/main/java/net/sf/JRecord/Details/RecordDetail.java:642-676 | as getFields, with the same multiplicities, but the level names must be found in the order given, each search starting where the previous one matched; the result is a subsequence of the array |
| `RecordDetail.InSequenceImpliesInAll` | src/main/java/net/sf/JRecord/Details/RecordDetail.java:657-666 | level names found in sequence are all contained in the group path |
| `RecordDetail.GroupsInSequenceRefinesGetFields` | src/main/java/net/sf/JRecord/Details/RecordDetail.java:642-676 | getFieldsGroupsInSequence fails exactly when getFields fails, and otherwise returns an order-preserving subsequence of its result |
| `RecordDetail.InSequenceReusesOccurrence` | src/main/java/net/sf/JRecord/Details/RecordDetail.java:657-666 | for any group path containing a level name, that name given twice is satisfied by its one occurrence, because each search restarts at the previous match |
| `RecordDetail.Unique` | src/main/java/net/sf/JRecord/Details/RecordDetail.java:709-718 | no match throws "No Field Found"; one match is returned; several throw with their count |
| `RecordDetail.GetUniqueField` | src/main/java/net/sf/JRecord/Details/RecordDetail.java:709-718 | NullPointerException exactly when getFields throws; "No Field Found" exactly when no field matches; a field is returned exactly when getFields finds one field, and it is that field; too many exactly when getFields finds several, with their count |
| `RecordDetail.GetUniqueFieldGroupsInSequence` | src/main/java/net/sf/JRecord/Details/RecordDetail.java:801-810 | as getUniqueField, over getFieldsGroupsInSequence: the null, none, one and many cases each hold exactly when that list throws, is empty, has one field or has several, with their count |
| `RecordDetail.UniqueFieldIff` | src/main/java/net/sf/JRecord/Details/RecordDetail.java:709-718 | getUniqueField returns f exactly when getFields returns the single field f |
| `LayoutDetail.ScanBinary` | src/main/java/net/sf/JRecord/Details/LayoutDetail.java:180-189 | with no null record in reach, the loop reports whether some record from j on has a binary field |
| `LayoutDetail.BinaryFlag` | src/main/java/net/sf/JRecord/Details/LayoutDetail.java:174-193 | binary layout types are binary; group and record layouts are binary exactly when some record has a binary field; other types are not |
| `LayoutDetail.ConsistentAppend` | src/main/java/net/sf/JRecord/Details/LayoutDetail.java:212-224 | one more delimiter keeps the list consistent exactly when no non-empty delimiter came before or it equals the first one |
| `LayoutDetail.ScanRecords` | src/main/java/net/sf/JRecord/Details/LayoutDetail.java:195-230 | the delimiter loop fails on a null record, and otherwise fails exactly when the delimiters of delimited records with fields are inconsistent; the layout delimiter is the first non-empty one |
| `LayoutDetail.ScanRecordsCsvFlag` | src/main/java/net/sf/JRecord/Details/LayoutDetail.java:197-202 | the CSV flag is set exactly when some record is delimited |
| `LayoutDetail.ScanRecordsTreeFlag` | src/main/java/net/sf/JRecord/Details/LayoutDetail.java:203-210 | the tree flag is set exactly when some record with fields has a parent record |
| `LayoutDetail.ParentMakesTree` | src/main/java/net/sf/JRecord/Details/LayoutDetail.java:203-210 | giving a record with fields a parent record index makes the constructed layout a tree |
| `LayoutDetail.NewLayout` | src/main/java/net/sf/JRecord/Details/LayoutDetail.java:119-232 | construction succeeds exactly when the counted records are non-null and their delimiters are consistent; the count leaves out trailing nulls; name and layout type are the ones given; a null font becomes ""; the multi-byte flag is the charset's; the delimiter, binary, tree and CSV flags are as derived above; no index exists yet |
| `LayoutDetail.FixedLengthLayoutIsBinary` | src/main/java/net/sf/JRecord/Details/LayoutDetail.java:175-180 | a fixed-length layout is binary whatever its fields |
| `LayoutDetail.ConflictingDelimitersFail` | src/main/java/net/sf/JRecord/Details/LayoutDetail.java:212-224 | two delimited records with fields, the first with a non-empty delimiter and the second with a different one, always make construction fail |
| `LayoutDetail.DelimiterListPosition` | src/main/java/net/sf/JRecord/Details/LayoutDetail.java:212-217 | every delimited record with fields contributes its delimiter, at the position given by the records before it |
| `LayoutDetail.AddRecord` | src/main/java/net/sf/JRecord/Details/LayoutDetail.java:304-313 | the record is appended; earlier records are unchanged; the slots past the new count are null; the array grows by 5 only when full; nothing else changes |
| `LayoutDetail.GetRecord` | src/main/java/net/sf/JRecord/Details/LayoutDetail.java:324-329 | null for a negative index or an empty array; an index past the array throws; otherwise the slot, which may be null |
| `LayoutDetail.GetRecordIndex` | src/main/java/net/sf/JRecord/Details/LayoutDetail.java:468-481 | NULL_INTEGER for a null name; otherwise the first record whose name equals the name ignoring case, found whenever one exists |
| `LayoutDetail.GetMaximumRecordLength` | src/main/java/net/sf/JRecord/Details/LayoutDetail.java:406-414 | the result is non-negative, at least every record's length, and is 0 or the length of some record |
| `LayoutDetail.IsBinCsvDelimiter` | src/main/java/net/sf/JRecord/Details/LayoutDetail.java:859-863 | a hex delimiter has more than 3 characters and starts with `x'` or `X'` |
| `LayoutDetail.CheckTextType` | src/main/java/net/sf/JRecord/Details/LayoutDetail.java:447-460 | a hex delimiter gives bin-text; otherwise a multi-byte charset gives unicode-text; otherwise a non-empty font gives text-line; otherwise bin-text |
| `LayoutDetail.GetFileStructure` | src/main/java/net/sf/JRecord/Details/LayoutDetail.java:422-445 | the result is the declared structure or one of the six structures the cascade can choose |
| `LayoutDetail.FileStructureOfBinName1stLine` | src/main/java/net/sf/JRecord/Details/LayoutDetail.java:425-426 | a name-in-first-line file with a hex delimiter reads as IO_BIN_NAME_1ST_LINE, however the codes are ordered |
| `LayoutDetail.FileStructureKeepsHigherDeclared` | src/main/java/net/sf/JRecord/Details/LayoutDetail.java:425-427 | a declared structure above IO_TEXT_LINE is kept, except that a name-in-first-line file with a hex delimiter becomes its binary variant |
| `LayoutDetail.FileStructureOfTextLine` | src/main/java/net/sf/JRecord/Details/LayoutDetail.java:428-429 | a declared IO_TEXT_LINE resolves through checkTextType to bin-text, unicode-text or text-line |
| `LayoutDetail.FileStructureOfBinaryLayout` | src/main/java/net/sf/JRecord/Details/LayoutDetail.java:430-434 | below IO_TEXT_LINE, and other than name-in-first-line, a binary layout is fixed length, or binary for a group of binary records with several records |
| `LayoutDetail.FileStructureOfBinaryGroup` | src/main/java/net/sf/JRecord/Details/LayoutDetail.java:430-432 | below IO_TEXT_LINE, a group of binary records with more than one record is IO_BINARY |
| `LayoutDetail.FileStructureOfHexDelimited` | src/main/java/net/sf/JRecord/Details/LayoutDetail.java:430-436 | below IO_TEXT_LINE, and not the binary-group case, a non-binary layout with a hex delimiter is IO_BIN_TEXT |
| `LayoutDetail.FileStructureOfTextLayout` | src/main/java/net/sf/JRecord/Details/LayoutDetail.java:430-441 | below IO_TEXT_LINE, and not the binary-group case, a non-binary layout without a hex delimiter is text-line when it has a font, else unicode-text for a multi-byte charset, else bin-text |
| `LayoutDetail.FileStructureIsXmlBuildIff` | src/main/java/net/sf/JRecord/Details/LayoutDetail.java:422-445 | with IO_XML_BUILD_LAYOUT above IO_TEXT_LINE, the structure resolves to it exactly when it is the declared one |
| `LayoutDetail.GetAdjFieldNumber` | src/main/java/net/sf/JRecord/Details/LayoutDetail.java:764-781 | fails exactly when an XML-build layout is asked for a positive column and getRecord cannot supply the record (an index past the array, or a null record), with that error; outside XML-build layouts and for columns 0 and below it is the identity; for 0 < col < n fields with n >= 3 it stays in 1..n-1 |
| `LayoutDetail.GetUnAdjFieldNumber` | src/main/java/net/sf/JRecord/Details/LayoutDetail.java:783-797 | the same failure, identity and range facts as getAdjFieldNumber, for the inverse adjustment |
| `LayoutDetail.AdjustersIdentity` | src/main/java/net/sf/JRecord/Details/LayoutDetail.java:764-797 | outside XML-build layouts, and for columns 0 and below, both column adjusters are the identity |
| `LayoutDetail.AdjustersRoundTrip` | src/main/java/net/sf/JRecord/Details/LayoutDetail.java:764-797 | in an XML-build layout with at least 3 fields, getAdjFieldNumber and getUnAdjFieldNumber are inverse permutations of the columns |
| `FieldNames.FreeSuffixFrom` | src/main/java/net/sf/JRecord/Details/LayoutDetail.java:659-662 | the suffix loop ends at the first k whose candidate `name~k` is not yet a key, and every candidate it skipped is a key |
| `FieldNames.FreeSuffix` | src/main/java/net/sf/JRecord/Details/LayoutDetail.java:656-662 | the chosen candidate (the plain name, or `name~k`) is free, and every earlier candidate was taken |
| `FieldNames.CandidatesDistinct` | src/main/java/net/sf/JRecord/Details/LayoutDetail.java:660-662 | different suffixes give different keys, so every turn of the loop tries a new key |
| `FieldNames.Insert` | src/main/java/net/sf/JRecord/Details/LayoutDetail.java:655-667 | one field is entered under an upper-cased key that was free, in the plain map and in the record-qualified map, and its lookup name is recorded |
| `FieldNames.BuildIndexBuilt` | src/main/java/net/sf/JRecord/Details/LayoutDetail.java:652-670 | after the first build every field resolves to itself under its upper-cased lookup name, there is one key per field, and each field has a qualified entry |
| `FieldNames.FirstBuild` | src/main/java/net/sf/JRecord/Details/LayoutDetail.java:638-670 | the first build creates the index over every field of every record and resets every record's added-field counter |
| `FieldNames.FirstWithKey` | src/main/java/net/sf/JRecord/Details/LayoutDetail.java:677-684 | the first field from j on whose upper-cased name is the key, or -1 when none is |
| `FieldNames.RefreshFieldsEntry` | src/main/java/net/sf/JRecord/Details/LayoutDetail.java:677-686 | re-entering a record's fields last to first leaves a name the record uses mapped to its first field of that name |
| `FieldNames.RefreshFieldsKeeps` | src/main/java/net/sf/JRecord/Details/LayoutDetail.java:677-686 | a name the record does not use keeps its entry |
| `FieldNames.RefreshKeepsUntouched` | src/main/java/net/sf/JRecord/Details/LayoutDetail.java:675-689 | a name no refreshed record uses keeps its entry through the refresh |
| `FieldNames.RefreshWinner` | src/main/java/net/sf/JRecord/Details/LayoutDetail.java:675-689 | a name some refreshed record uses maps to the LAST such record, at its first field of that name |
| `FieldNames.RefreshIndex` | src/main/java/net/sf/JRecord/Details/LayoutDetail.java:671-689 | the refresh resets exactly the positive added-field counters and leaves the lookup names unchanged |
| `FieldNames.BuildFieldNameMap` | src/main/java/net/sf/JRecord/Details/LayoutDetail.java:636-692 | without an index the first build runs; with one, only build layouts refresh it and other layouts are left unchanged |
| `FieldNames.BuildLayoutIsDeclared` | src/main/java/net/sf/JRecord/Details/LayoutDetail.java:844-847 | a build layout is one declared XML-build or name-in-first-line; a name-in-first-line layout with a hex delimiter is a build layout even though its file structure reads as the binary variant |
| `FieldNames.GetFieldFromName` | src/main/java/net/sf/JRecord/Details/LayoutDetail.java:623-634 | the index is built first; a field is returned exactly when the upper-cased name is a key, and it is the field stored there |
| `FieldNames.LookupNameRoundTrip` | src/main/java/net/sf/JRecord/Details/LayoutDetail.java:623-670 | after the first build, asking for a field's lookup name in any letter case returns that field |
| `FieldNames.LookupNamesDistinct` | src/main/java/net/sf/JRecord/Details/LayoutDetail.java:656-664 | the first build gives different fields lookup names that differ even ignoring case |
| `FieldNames.IndexSizeIsFieldCount` | src/main/java/net/sf/JRecord/Details/LayoutDetail.java:643-670 | the index holds exactly one key per field of the layout |
| `FieldNames.RefreshedNameFound` | src/main/java/net/sf/JRecord/Details/LayoutDetail.java:671-689 | on a build layout, a name used by a record with added fields is found in the last such record, at its first field of that name, and that record's counter is reset |
| `FieldNames.RefreshKeepsOtherNames` | src/main/java/net/sf/JRecord/Details/LayoutDetail.java:671-689 | on a build layout, a name no record with added fields uses resolves as it did before |
| `CsvTokens.TokensConcat` | src/main/java/net/sf/JRecord/CsvParser/BasicCsvLineParser.java:197-198 | the tokens, concatenated, give back the line |
| `CsvTokens.TokensKinds` | src/main/java/net/sf/JRecord/CsvParser/BasicCsvLineParser.java:197-198 | every token is a single delimiter character or a non-empty run free of delimiters |
| `CsvTokens.TokensMaximal` | src/main/java/net/sf/JRecord/CsvParser/BasicCsvLineParser.java:197-198 | no two runs are adjacent: each run is maximal |
| `CsvTokens.TokensOfRun` | src/main/java/net/sf/JRecord/CsvParser/BasicCsvLineParser.java:197-198 | a non-empty delimiter-free string is one token, and the empty string none |
| `CsvTokens.TokensSplitAtDelimiter` | src/main/java/net/sf/JRecord/CsvParser/BasicCsvLineParser.java:197-198 | the tokens of `a + c + b`, for a delimiter c, are those of a, then c, then those of b |
| `CsvTokens.Pieces` | src/main/java/net/sf/JRecord/CsvParser/BasicCsvLineParser.java:204-223 | the pieces between delimiter characters are delimiter-free and join back to the line |
| `CsvTokens.PiecesOfJoin` | src/main/java/net/sf/JRecord/CsvParser/BasicCsvLineParser.java:204-223 | splitting delimiter-free pieces joined by the delimiter gives the pieces back |
| `BasicCsvLineParser.Scan` | src/main/java/net/sf/JRecord/CsvParser/BasicCsvLineParser.java:205-261 | each token fills at most one slot, so the array of max(tokens, min) slots is never overrun; without a quote no span is ever open |
| `BasicCsvLineParser.Fields` | src/main/java/net/sf/JRecord/CsvParser/BasicCsvLineParser.java:204-261 | there are no more fields than tokens |
| `BasicCsvLineParser.SpanStaysOpen` | src/main/java/net/sf/JRecord/CsvParser/BasicCsvLineParser.java:230-232 | while a span is open, tokens without the quote are appended to it and no field is written |
| `BasicCsvLineParser.OpenUnterminated` | src/main/java/net/sf/JRecord/CsvParser/BasicCsvLineParser.java:228-255 | a span opened by the quote and never closed swallows the rest of the line, delimiters included, and is still open at the end of the loop |
| `BasicCsvLineParser.UnterminatedSpanFlushed` | src/main/java/net/sf/JRecord/CsvParser/BasicCsvLineParser.java:256-261 | a span still open at the end of the line is written as one last field, opening quote included |
| `BasicCsvLineParser.Split` | src/main/java/net/sf/JRecord/CsvParser/BasicCsvLineParser.java:185-277 | null exactly for a null line or a null or empty delimiter; otherwise max(fields, min+1) slots holding the fields first; when the array keeps its first size, past the fields the slot right after them is "" without a quote and every other slot is null; when it was resized, the rest is "" |
| `BasicCsvLineParser.Update4Quote` | src/main/java/net/sf/JRecord/CsvParser/BasicCsvLineParser.java:112-127 | a value wrapped in the quote and at least two quotes long loses exactly one quote at each end; a wrapped value shorter than that becomes ""; any other value is unchanged |
| `BasicCsvLineParser.GetField` | src/main/java/net/sf/JRecord/CsvParser/BasicCsvLineParser.java:67-91 | null without a split; field n unquoted when it exists; past the fields, "" when the split array was resized or when n is the slot right after the fields and there is no quote, and null otherwise |
| `BasicCsvLineParser.GetFieldCount` | src/main/java/net/sf/JRecord/CsvParser/BasicCsvLineParser.java:52-60 | 0 exactly when there is no split; otherwise the number of fields found, but at least 1 |
| `BasicCsvLineParser.FormatField` | src/main/java/net/sf/JRecord/CsvParser/BasicCsvLineParser.java:146-158 | null becomes ""; with a quote in use, a value holding the delimiter or a line break, or starting with the quote, is wrapped in quotes and other values are unchanged; a null delimiter fails exactly when a non-null value meets a quote in use |
| `BasicCsvLineParser.InitArray` | src/main/java/net/sf/JRecord/CsvParser/BasicCsvLineParser.java:164-172 | `count` slots, each "" |
| `BasicCsvLineParser.SetFieldArray` | src/main/java/net/sf/JRecord/CsvParser/BasicCsvLineParser.java:132-144 | fails exactly when formatField does; slot n holds the formatted value; every other slot is as split left it, or "" when there was no split |
| `BasicCsvLineParser.NoQuoteFields` | src/main/java/net/sf/JRecord/CsvParser/BasicCsvLineParser.java:204-223 | without a quote and with a one-character delimiter, the fields are the pieces between delimiters less an empty last one |
| `BasicCsvLineParser.NoQuoteGetField` | src/main/java/net/sf/JRecord/CsvParser/BasicCsvLineParser.java:67-91 | plain values joined with a one-character delimiter are read back one by one, an empty last one included |
| `BasicCsvLineParser.NoQuoteFieldCount` | src/main/java/net/sf/JRecord/CsvParser/BasicCsvLineParser.java:52-60 | the count of plain values joined with a one-character delimiter is their number, less an empty last one, but at least 1 |
| `BasicCsvLineParser.MultiCharDelimiter` | src/main/java/net/sf/JRecord/CsvParser/BasicCsvLineParser.java:204-223 | with a delimiter of two or more characters and no quote, every token, delimiter characters included, is a field |
| `BasicCsvLineParser.QuotedCell` | src/main/java/net/sf/JRecord/CsvParser/BasicCsvLineParser.java:224-261 | a value free of a one-character quote, once formatted, is read by the quoted loop as exactly one field, whatever the delimiters inside it |
| `BasicCsvLineParser.FormatThenUnquote` | src/main/java/net/sf/JRecord/CsvParser/BasicCsvLineParser.java:112-158 | update4quote undoes formatField for every value |
| `BasicCsvLineParser.QuotedGetField` | src/main/java/net/sf/JRecord/CsvParser/BasicCsvLineParser.java:67-91 | values free of a one-character quote, formatted and joined with a different one-character delimiter, are read back one by one, except an empty last value |
| `BasicCsvLineParser.TrailingEmptyField` | src/main/java/net/sf/JRecord/CsvParser/BasicCsvLineParser.java:185-277 | field 1 of `a,` is null with a quote in use and "" without one |
| `BasicCsvLineParser.TrailingDelimiterNoQuote` | src/main/java/net/sf/JRecord/CsvParser/BasicCsvLineParser.java:185-277 | without a quote, `a,` splits with min 0 into the single field `a` and counts 1 field; with min 1 the first array is kept and slot 1 holds `""` |
| `BasicCsvLineParser.SetFieldStoresValue` | src/main/java/net/sf/JRecord/CsvParser/BasicCsvLineParser.java:132-144 | the slot setField writes reads back, through update4quote, as the value given |
| `TypeSignSeparate.NewSignSeparate` | src/main/java/net/sf/JRecord/Types/TypeSignSeparate.java:37-42 | the sign leads exactly for the leading-sign type code |
| `TypeSignSeparate.PadTo` | src/main/java/net/sf/JRecord/Types/TypeSignSeparate.java:177-194 | when n is positive and exceeds the length, the result has length n, holds the string at the chosen end and the pad character elsewhere; otherwise it is the string |
| `TypeSignSeparate.PaddingString` | src/main/java/net/sf/JRecord/Types/TypeSignSeparate.java:177-194 | the insert/append loop computes exactly that padding |
| `TypeSignSeparate.ToSignSeparate` | src/main/java/net/sf/JRecord/Types/TypeSignSeparate.java:90-126 | null, "", "-" and "+" encode as "+" zero-padded to the length; otherwise fails exactly for a fixed-format field when the unsigned digits are not shorter than the field; the sign taken from the untrimmed value stands first or last, and the rest is the digits zero-padded to len-1; a fixed-format result fills the field |
| `TypeSignSeparate.FromSignSeparate` | src/main/java/net/sf/JRecord/Types/TypeSignSeparate.java:135-164 | null, "" and "-" decode to ""; otherwise the text is trimmed; for a leading-sign type a leading '+' is dropped; for a trailing-sign type a trailing '-' moves to the front and a trailing '+' is dropped; any other text is returned trimmed |
| `TypeSignSeparate.EncodeThenDecode` | src/main/java/net/sf/JRecord/Types/TypeSignSeparate.java:90-164 | encoding then decoding signed digits gives the digits zero-padded to len-1, with "-" in front for a negative non-empty value |
| `TypeSignSeparate.DecodeThenEncode` | src/main/java/net/sf/JRecord/Types/TypeSignSeparate.java:90-164 | decoding then encoding a well-formed encoding that fills its field gives it back |
| `TypeSignSeparate.BlankIsPositiveZero` | src/main/java/net/sf/JRecord/Types/TypeSignSeparate.java:95-98 | a blank value encodes as zeros with a '+' in the sign position |
| `FujitsuVbByteReader.NewReader` | src/main/java/net/sf/JRecord/ByteIO/FujitsuVbByteReader.java:33-53 | a new reader is not open, at line 0, with a 4-byte RDW buffer |
| `FujitsuVbByteReader.Open` | src/main/java/net/sf/JRecord/ByteIO/FujitsuVbByteReader.java:59-68 | open sets the input and keeps the RDW buffer and the line count |
| `FujitsuVbByteReader.RecordLength` | src/main/java/net/sf/JRecord/ByteIO/FujitsuVbByteReader.java:91-93 | the announced length is an unsigned 16-bit value |
| `FujitsuVbByteReader.Read` | src/main/java/net/sf/JRecord/ByteIO/FujitsuVbByteReader.java:75-107 | before open it throws and changes nothing; otherwise the line count goes up by one, the input left is a suffix of the input, a bad RDW names the new line number, and reading a record consumes input |
| `FujitsuVbByteReader.ReadRecordIsFramed` | src/main/java/net/sf/JRecord/ByteIO/FujitsuVbByteReader.java:83-106 | a record is read only from a whole frame: a header with two zero upper bytes announcing the record's non-zero length, the record, and four more bytes |
| `FujitsuVbByteReader.ReadFrame` | src/main/java/net/sf/JRecord/ByteIO/FujitsuVbByteReader.java:75-107 | a framed non-empty record reads back as itself and the reader moves past the frame |
| `FujitsuVbByteReader.ReadAllFrames` | src/main/java/net/sf/JRecord/ByteIO/FujitsuVbByteReader.java:75-107 | a file of framed non-empty records reads back as exactly those records |
| `FujitsuVbByteReader.BadRdwRejected` | src/main/java/net/sf/JRecord/ByteIO/FujitsuVbByteReader.java:84-89 | an RDW whose upper two bytes are not zero is refused, naming the line |
| `FujitsuVbByteReader.ZeroLengthEndsData` | src/main/java/net/sf/JRecord/ByteIO/FujitsuVbByteReader.java:95-98 | a zero length reads as the end of the data, and the trailer is not consumed |
| `FujitsuVbByteReader.ShortPayloadMissesTrailer` | src/main/java/net/sf/JRecord/ByteIO/FujitsuVbByteReader.java:95-102 | a payload cut short is reported as a missing trailer |
| `FujitsuVbByteReader.AnyTrailerAccepted` | src/main/java/net/sf/JRecord/ByteIO/FujitsuVbByteReader.java:97-103 | the four bytes after a full payload are consumed without being inspected: whatever they hold, the record is returned and the reader moves past them |
| `FujitsuVbByteReader.ShortTrailerRefused` | src/main/java/net/sf/JRecord/ByteIO/FujitsuVbByteReader.java:99-102 | a full payload followed by fewer than four bytes is refused as a missing trailer |
| `FujitsuVbByteReader.PartialHeader` | src/main/java/net/sf/JRecord/ByteIO/FujitsuVbByteReader.java:83-89 | a header of 1 to 3 bytes is completed with the previous RDW's bytes and never yields a record |

## Left out

- The integer values of `Constants` are not part of this model. The codes
  are a parameter with the facts the code relies on: the codes are
  distinct and NULL_INTEGER is negative.
- `TypeManager` binary-ness and `Conversion.isMultiByte` are not part of
  this model. They are passed in as function parameters.
- Case mapping (`toUpperCase`, `toLowerCase`, `equalsIgnoreCase`) is
  modelled for ASCII letters only. The Java locale rules are not modelled.
- `trim` removes characters up to `' '`, as Java does. Unicode is not
  modelled beyond that.
- Java `int` overflow is not modelled: field positions, lengths, counts and
  the suffix counter are unbounded.
- Line separators, `recordSep`/`eolString`, `CommonBits.getEolBytes`,
  `getDelimiterBytes`, the `RecordDecider` and `RecordSelection` are left
  out. They are I/O configuration that the modelled operations do not read.
- `LayoutDetail.getField`, `setField`, `formatField` and `formatCsvField`
  are left out. They dispatch to the type system, which is not part of this
  model. `getParser` and `getDelimiterOrganisation` are left out for the
  same reason.
- `getFieldList` is left out. It is `getField`'s `update4quote` applied to
  every slot of the split.
- `formatFieldArray`, the re-joining of fields in `setField`, lives in the
  parser base class, which is not part of this model.
  `BasicCsvLineParser.SetFieldArray` stops at the array it would join.
- The `fieldType` parameter of `setField`/`formatField` is unused by the
  code and is left out.
- A negative CSV field number is left out. Java would index the array with
  it; the model takes a `nat`.
- A null quote is treated as `""`. Both are "no quote" in every test the
  parser makes.
- A null field name in `getFieldFromName` is left out. Java throws there,
  and the model takes a `string`.
- A null `groupNames` array is left out. The level names come from a
  sequence of possibly null strings.
- `TypeSignSeparate.getField`, `setField` and `formatValueForRecord` are
  left out. They go through `TypeNum` (`checkValue`, `toNumberString`,
  `addDecimalPoint`, `copyRightJust`), which is not part of this model.
  The codec itself is modelled.
- RecordDetail.AddField: takes a non-null field. In Java `addField(null)`
  throws a NullPointerException at `setRecord`, after the array may already
  have grown; that path is not modelled.
- LayoutDetail.AddRecord: takes a non-null record. In Java `addRecord(null)`
  stores the null and counts it; that path is not modelled.
- BasicCsvLineParser.SpanStaysOpen, BasicCsvLineParser.OpenUnterminated,
  BasicCsvLineParser.UnterminatedSpanFlushed, BasicCsvLineParser.QuotedCell,
  BasicCsvLineParser.QuotedGetField: stated for a one-character quote and a
  one-character delimiter only. `split` itself is modelled for quotes and
  delimiters of any length, but for longer ones these lemmas promise nothing.
- `FujitsuVbByteReader`: the stream is the list of bytes still to come.
  `readBuffer` comes from `AbstractByteReader`, which is not part of this
  model. It is modelled as copying `min(buffer size, bytes left)` bytes
  over the front of the buffer. `open(String)`, `close` and buffering are
  left out.
- `FujitsuVbByteReader.Read`: its `ensures` only bound the reader state.
  What a read record is, is stated by `ReadRecordIsFramed`.
- Hadoop input format and mapper classes, the SableCC node classes,
  `CommonBits` and the conversion tests are outside the modelled core.

=== FILE: constants.dfy ===
/** The integer codes of net.sf.JRecord.Common.Constants that the schema model
    compares against. Their values are not part of this model, so they travel
    as one parameter; `Valid` states the only facts the code relies on. */
module Constants {

  datatype Codes = Codes(
    // layout / record types
    rtBinaryRecord: int,
    rtRecordLayout: int,
    rtDelimited: int,
    rtDelimitedAndQuote: int,
    rtGroupOfRecords: int,
    rtGroupOfBinaryRecords: int,
    rtFixedLengthRecords: int,
    // file structures
    ioTextLine: int,
    ioFixedLength: int,
    ioBinary: int,
    ioBinText: int,
    ioUnicodeText: int,
    ioName1stLine: int,
    ioBinName1stLine: int,
    ioXmlUseLayout: int,
    ioXmlBuildLayout: int,
    // "no value" marker returned by index lookups
    nullInteger: int)
  {
    function RecordTypes(): seq<int> {
      [rtBinaryRecord, rtRecordLayout, rtDelimited, rtDelimitedAndQuote,
       rtGroupOfRecords, rtGroupOfBinaryRecords, rtFixedLengthRecords]
    }

    function FileStructures(): seq<int> {
      [ioTextLine, ioFixedLength, ioBinary, ioBinText, ioUnicodeText,
       ioName1stLine, ioBinName1stLine, ioXmlUseLayout, ioXmlBuildLayout]
    }

    /** The record-type codes are distinct (they are labels of one switch), so
        are the file-structure codes, and the "no value" marker is negative
        (callers test a returned index with `>= 0`). */
    predicate Valid() {
      && Distinct(RecordTypes())
      && Distinct(FileStructures())
      && nullInteger < 0
    }

    predicate IsDelimitedType(recordType: int) {
      recordType == rtDelimited || recordType == rtDelimitedAndQuote
    }
  }

  predicate Distinct(s: seq<int>) {
    forall i, j :: 0 <= i < j < |s| ==> s[i] != s[j]
  }
}

=== FILE: csv_line_parser.dfy ===
/** The basic CSV line parser: the tokens of java.util.StringTokenizer (see
    CsvTokens) folded into fields, with an optional quote that lets a field
    span delimiters. Java arrays whose slots may stay null are sequences of
    `Option<string>`. */
module BasicCsvLineParser {
  import opened Wrappers
  import opened NullableArrays
  import opened JavaStrings
  import opened CsvTokens

  /** What the parser reads from its CSV definition. A null quote behaves
      like "" wherever the parser reads it, so the two are not kept apart;
      a null delimiter and "" differ in formatField. */
  datatype CsvDefinition = CsvDefinition(delimiter: Option<string>, quote: string)

  /** formatField calls indexOf with a null delimiter. */
  datatype CsvError = NullDelimiter

  function Max(a: int, b: int): int {
    if a < b then b else a
  }

  /** isQuote: a quote string is in use. */
  predicate IsQuote(quote: string) {
    |quote| > 0
  }

  // ---------------------------------------------------------------------
  // The split loop

  /** The loop state of split: the fields found so far, whether a delimiter
      token now stands for an empty field, and the quoted span being built. */
  datatype ScanState = ScanState(found: seq<string>, keep: bool, building: Option<string>)

  const Start: ScanState := ScanState([], true, None)

  /** One token of split's loop; without a quote only the delimiter test
      and the plain value case apply. */
  function Step(st: ScanState, t: string, delim: string, quote: string): ScanState {
    if IsQuote(quote) && st.building.Some? then
      var buf := st.building.value + t;
      if EndsWith(t, quote) then ScanState(st.found + [buf], false, None)
      else st.(building := Some(buf))
    else if t == delim then
      ScanState(if st.keep then st.found + [""] else st.found, true, st.building)
    else if IsQuote(quote) && StartsWith(t, quote) && (!EndsWith(t, quote) || |t| == |quote|) then
      st.(building := Some(t))
    else
      ScanState(st.found + [t], false, st.building)
  }

  /** The fields found plus an open span: what the array slots hold. */
  function Weight(st: ScanState): nat {
    |st.found| + if st.building.Some? then 1 else 0
  }

  /** The loop over the tokens `ts`. Each token fills at most one slot,
      which is why the Java array of max(tokens, min) slots never overflows. */
  function Scan(ts: seq<string>, st: ScanState, delim: string, quote: string): (r: ScanState)
    ensures Weight(r) <= Weight(st) + |ts|
    ensures !IsQuote(quote) ==> r.building == st.building
  {
    if ts == [] then st
    else Scan(ts[1..], Step(st, ts[0], delim, quote), delim, quote)
  }

  /** The fields split finds in `line`: the loop's fields plus an
      unterminated span, flushed as it is. */
  function Fields(line: string, delim: string, quote: string): (f: seq<string>)
    ensures |f| <= |Tokens(line, delim)|
  {
    var st := Scan(Tokens(line, delim), Start, delim, quote);
    if st.building.Some? then st.found + [st.building.value] else st.found
  }

  function Somes(f: seq<string>): (r: seq<Option<string>>)
    ensures |r| == |f| && forall k :: 0 <= k < |f| ==> r[k] == Some(f[k])
  {
    seq(|f|, k requires 0 <= k < |f| => Some(f[k]))
  }

  function Blanks(n: nat): (r: seq<Option<string>>)
    ensures |r| == n && forall k :: 0 <= k < n ==> r[k] == Some("")
  {
    seq(n, _ => Some(""))
  }

  /** split(line, definition, min): null without a line or a non-empty
      delimiter; otherwise at least min+1 slots, the found fields first.
      When the size differs from the first allocation the rest is "";
      otherwise the rest stays null, except that without a quote the slot
      right after the fields is "". */
  function Split(line: Option<string>, def: CsvDefinition, min: nat): (r: Option<seq<Option<string>>>)
    ensures r.None? <==> line.None? || def.delimiter.None? || def.delimiter == Some("")
    ensures r.Some? ==>
      var f := Fields(line.value, def.delimiter.value, def.quote);
      && |r.value| == Max(|f|, min + 1)
      && (forall k :: 0 <= k < |f| ==> r.value[k] == Some(f[k]))
      && (forall k :: |f| <= k < |r.value| ==> r.value[k] == Some("") || r.value[k].None?)
      && (!IsQuote(def.quote) && |f| < |r.value| ==> r.value[|f|] == Some(""))
      && (|r.value| != Max(|Tokens(line.value, def.delimiter.value)|, min) ==>
            forall k :: |f| <= k < |r.value| ==> r.value[k] == Some(""))
      && (|r.value| == Max(|Tokens(line.value, def.delimiter.value)|, min) ==>
            forall k :: |f| <= k < |r.value| ==>
              r.value[k] == if !IsQuote(def.quote) && k == |f| then Some("") else None)
  {
    if line.None? || def.delimiter.None? || def.delimiter.value == "" then None
    else
      var delim := def.delimiter.value;
      var f := Fields(line.value, delim, def.quote);
      var firstSize := Max(|Tokens(line.value, delim)|, min);
      var newLength := Max(|f|, min + 1);
      if newLength != firstSize then Some(Somes(f) + Blanks(newLength - |f|))
      else if !IsQuote(def.quote) && |f| < firstSize then
        Some(Somes(f) + [Some("")] + Nulls(firstSize - |f| - 1))
      else Some(Somes(f) + Nulls(firstSize - |f|))
  }

  // ---------------------------------------------------------------------
  // Reading fields

  /** update4quote: a value that starts and ends with the quote loses one
      quote at each end ("" when the two overlap); others are unchanged. */
  function Update4Quote(v: string, quote: string): (r: string)
    ensures !(IsQuote(quote) && StartsWith(v, quote) && EndsWith(v, quote)) ==> r == v
    ensures IsQuote(quote) && StartsWith(v, quote) && EndsWith(v, quote) && |v| >= 2 * |quote| ==> quote + r + quote == v
    ensures IsQuote(quote) && StartsWith(v, quote) && EndsWith(v, quote) && |v| < 2 * |quote| ==> r == ""
    ensures |r| <= |v|
  {
    if IsQuote(quote) && StartsWith(v, quote) && EndsWith(v, quote) then
      if |v| >= 2 * |quote| then
        var inner := v[|quote|..|v| - |quote|];
        assert v == v[..|quote|] + inner + v[|v| - |quote|..];
        inner
      else ""
    else v
  }

  /** getField: field n with its quotes removed, or null. */
  function GetField(n: nat, line: Option<string>, def: CsvDefinition): (r: Option<string>)
    ensures Split(line, def, n).None? ==> r.None?
    ensures Split(line, def, n).Some? ==>
      var f := Fields(line.value, def.delimiter.value, def.quote);
      && (n < |f| ==> r == Some(Update4Quote(f[n], def.quote)))
      && (n >= |f| ==> r == None || r == Some(""))
      && (!IsQuote(def.quote) && n == |f| ==> r == Some(""))
      && (n >= |f| ==>
            r == if Max(|f|, n + 1) != Max(|Tokens(line.value, def.delimiter.value)|, n) || (!IsQuote(def.quote) && n == |f|)
                 then Some("") else None)
  {
    var fs := Split(line, def, n);
    if fs.None? || |fs.value| <= n || fs.value[n].None? then None
    else Some(Update4Quote(fs.value[n].value, def.quote))
  }

  /** getFieldCount: 0 without a split, otherwise the fields found but at
      least one. */
  function GetFieldCount(line: Option<string>, def: CsvDefinition): (r: nat)
    ensures r == 0 <==> Split(line, def, 0).None?
    ensures Split(line, def, 0).Some? ==> r == Max(|Fields(line.value, def.delimiter.value, def.quote)|, 1)
  {
    var fs := Split(line, def, 0);
    if fs.None? then 0 else |fs.value|
  }

  // ---------------------------------------------------------------------
  // Writing fields

  /** The values formatField puts between quotes. */
  predicate NeedsQuotes(s: string, delim: string, quote: string) {
    Contains(s, delim) || StartsWith(s, quote) || '\n' in s || '\r' in s
  }

  /** formatField: null becomes ""; with a quote in use a value that holds
      the delimiter, starts with the quote or holds a line break is wrapped
      in quotes. The delimiter is searched before anything else is looked
      at, so a null one fails whenever a quote is in use. */
  function FormatField(s: Option<string>, def: CsvDefinition): (r: Result<string, CsvError>)
    ensures r.Err? <==> s.Some? && IsQuote(def.quote) && def.delimiter.None?
    ensures s.None? ==> r == Ok("")
    ensures r.Ok? && s.Some? ==>
      if IsQuote(def.quote) && NeedsQuotes(s.value, def.delimiter.value, def.quote)
      then r.value == def.quote + s.value + def.quote
      else r.value == s.value
  {
    if s.None? then Ok("")
    else if !IsQuote(def.quote) then Ok(s.value)
    else if def.delimiter.None? then Err(NullDelimiter)
    else if NeedsQuotes(s.value, def.delimiter.value, def.quote) then Ok(def.quote + s.value + def.quote)
    else Ok(s.value)
  }

  /** initArray: `count` empty strings. */
  function InitArray(count: nat): (r: seq<string>)
    ensures |r| == count && forall k :: 0 <= k < count ==> r[k] == ""
  {
    seq(count, _ => "")
  }

  /** setField before the fields are joined again: the split line (or n+1
      empty fields when there is none) with field n replaced by the
      formatted value; every other slot is as split left it. */
  function SetFieldArray(n: nat, line: Option<string>, def: CsvDefinition, v: Option<string>)
    : (r: Result<seq<Option<string>>, CsvError>)
    ensures r.Err? <==> FormatField(v, def).Err?
    ensures r.Ok? ==>
      var fs := Split(line, def, n);
      && (fs.None? ==> |r.value| == n + 1 && forall k :: 0 <= k < n ==> r.value[k] == Some(""))
      && (fs.Some? ==> |r.value| == |fs.value| && forall k :: 0 <= k < |r.value| && k != n ==> r.value[k] == fs.value[k])
      && n < |r.value| && r.value[n] == Some(FormatField(v, def).value)
  {
    var fs := Split(line, def, n);
    var slots := if fs.None? || |fs.value| == 0 then Somes(InitArray(n + 1)) else fs.value;
    var formatted := FormatField(v, def);
    if formatted.Err? then Err(formatted.error)
    else Ok(slots[n := Some(formatted.value)])
  }

  // ---------------------------------------------------------------------
  // The loop, piece by piece

  lemma {:induction false} ScanAppend(a: seq<string>, b: seq<string>, st: ScanState, delim: string, quote: string)
    ensures Scan(a + b, st, delim, quote) == Scan(b, Scan(a, st, delim, quote), delim, quote)
  {
    if a != [] {
      assert (a + b)[0] == a[0] && (a + b)[1..] == a[1..] + b;
      ScanAppend(a[1..], b, Step(st, a[0], delim, quote), delim, quote);
    } else {
      assert a + b == b;
    }
  }

  lemma ScanOne(t: string, st: ScanState, delim: string, quote: string)
    ensures Scan([t], st, delim, quote) == Step(st, t, delim, quote)
  {
    assert [t][1..] == [];
  }

  /** The delimiter token outside a span. */
  lemma StepDelimiter(st: ScanState, delim: string, quote: string)
    requires st.building.None?
    ensures Step(st, delim, delim, quote) == ScanState(if st.keep then st.found + [""] else st.found, true, None)
  {
  }

  /** Without a quote no span is ever opened. */
  lemma PlainScanNeverBuilds(line: string, delim: string)
    ensures Scan(Tokens(line, delim), Start, delim, "").building.None?
    ensures Fields(line, delim, "") == Scan(Tokens(line, delim), Start, delim, "").found
  {
  }

  /** A stretch of line that, scanned from any state outside a span, adds
      itself as one field, or nothing when it is empty. */
  ghost predicate Cell(c: string, delim: string, quote: string) {
    forall found: seq<string>, keep: bool ::
      Scan(Tokens(c, delim), ScanState(found, keep, None), delim, quote)
        == if c == "" then ScanState(found, keep, None) else ScanState(found + [c], false, None)
  }

  /** A trailing empty field is not counted. */
  function DropLastEmpty(cs: seq<string>): (r: seq<string>)
    ensures |cs| > 0 && cs[|cs| - 1] == "" ==> r == cs[..|cs| - 1]
    ensures !(|cs| > 0 && cs[|cs| - 1] == "") ==> r == cs
  {
    if |cs| > 0 && cs[|cs| - 1] == "" then cs[..|cs| - 1] else cs
  }

  lemma DropLastEmptyCons(cs: seq<string>)
    requires |cs| > 1
    ensures DropLastEmpty(cs) == [cs[0]] + DropLastEmpty(cs[1..])
  {
    if cs[|cs| - 1] == "" {
      assert cs[..|cs| - 1] == [cs[0]] + cs[1..][..|cs| - 2];
    } else {
      assert cs == [cs[0]] + cs[1..];
    }
  }

  /** Scanning cells joined by a one-character delimiter: every cell but an
      empty last one becomes a field; a delimiter after a value only ends
      it, one after a delimiter stands for an empty field. */
  lemma {:induction false} ScanJoin(cs: seq<string>, d: char, quote: string, found: seq<string>)
    requires |cs| >= 1 && forall i :: 0 <= i < |cs| ==> Cell(cs[i], [d], quote)
    ensures Scan(Tokens(Join(cs, d), [d]), ScanState(found, true, None), [d], quote)
      == ScanState(found + DropLastEmpty(cs), cs[|cs| - 1] == "", None)
  {
    assert Cell(cs[0], [d], quote);
    if |cs| == 1 {
      assert found + [] == found;
    } else {
      ScanJoin(cs[1..], d, quote, found + [cs[0]]);
      ScanJoinStep(cs, d, quote, found);
    }
  }

  /** One step of ScanJoin: the first cell and its delimiter, then the rest. */
  lemma ScanJoinStep(cs: seq<string>, d: char, quote: string, found: seq<string>)
    requires |cs| > 1 && Cell(cs[0], [d], quote)
    requires Scan(Tokens(Join(cs[1..], d), [d]), ScanState(found + [cs[0]], true, None), [d], quote)
      == ScanState(found + [cs[0]] + DropLastEmpty(cs[1..]), cs[|cs| - 1] == "", None)
    ensures Scan(Tokens(Join(cs, d), [d]), ScanState(found, true, None), [d], quote)
      == ScanState(found + DropLastEmpty(cs), cs[|cs| - 1] == "", None)
  {
    var c, rest := cs[0], Join(cs[1..], d);
    TokensOfJoin(cs, d);
    var st := ScanState(found, true, None);
    ScanAppend(Tokens(c, [d]) + [[d]], Tokens(rest, [d]), st, [d], quote);
    CellThenDelimiter(c, d, quote, found);
    DropLastEmptyCons(cs);
    assert found + [c] + DropLastEmpty(cs[1..]) == found + DropLastEmpty(cs);
  }

  /** The tokens of joined cells: those of the first cell, the delimiter,
      and those of the rest. */
  lemma TokensOfJoin(cs: seq<string>, d: char)
    requires |cs| > 1
    ensures Tokens(Join(cs, d), [d]) == Tokens(cs[0], [d]) + [[d]] + Tokens(Join(cs[1..], d), [d])
  {
    TokensSplitAtDelimiter(cs[0], d, Join(cs[1..], d), [d]);
  }

  /** A cell and the delimiter after it add the cell as a field. */
  lemma CellThenDelimiter(c: string, d: char, quote: string, found: seq<string>)
    requires Cell(c, [d], quote)
    ensures Scan(Tokens(c, [d]) + [[d]], ScanState(found, true, None), [d], quote)
      == ScanState(found + [c], true, None)
  {
    var st := ScanState(found, true, None);
    ScanAppend(Tokens(c, [d]), [[d]], st, [d], quote);
    var afterCell := Scan(Tokens(c, [d]), st, [d], quote);
    assert afterCell == if c == "" then st else ScanState(found + [c], false, None);
    ScanOne([d], afterCell, [d], quote);
    StepDelimiter(afterCell, [d], quote);
    if c == "" {
      assert found + [""] == found + [c];
    }
  }

  lemma DelimiterFreeSingle(a: string, d: char)
    ensures DelimiterFree(a, [d]) <==> d !in a
  {
  }

  /** Without a quote, a stretch free of the delimiter is a cell. */
  lemma PlainCell(c: string, d: char)
    requires d !in c
    ensures Cell(c, [d], "")
  {
    DelimiterFreeSingle(c, d);
    TokensOfRun(c, [d]);
  }

  /** Without a quote and with a one-character delimiter, split finds the
      pieces between delimiters, less an empty last one. */
  lemma NoQuoteFields(s: string, d: char)
    ensures Fields(s, [d], "") == DropLastEmpty(Pieces(s, d))
  {
    var ps := Pieces(s, d);
    forall i | 0 <= i < |ps|
      ensures Cell(ps[i], [d], "")
    {
      PlainCell(ps[i], d);
    }
    ScanJoin(ps, d, "", []);
    assert [] + DropLastEmpty(ps) == DropLastEmpty(ps);
  }

  /** The plain-text partner of getField: values free of the delimiter,
      joined with it, are read back one by one, a trailing empty one
      included. */
  lemma NoQuoteGetField(vs: seq<string>, d: char, k: nat)
    requires |vs| >= 1 && forall i :: 0 <= i < |vs| ==> d !in vs[i]
    requires k < |vs|
    ensures GetField(k, Some(Join(vs, d)), CsvDefinition(Some([d]), "")) == Some(vs[k])
  {
    var line := Join(vs, d);
    var f := DropLastEmpty(vs);
    NoQuoteFieldsOfJoin(vs, d);
    GetFieldOfFields(k, line, CsvDefinition(Some([d]), ""), f);
    if k < |f| {
      assert f[k] == vs[k];
    } else {
      assert vs[k] == "";
    }
  }

  /** The fields of plain values joined with the delimiter: the values,
      less an empty last one. */
  lemma NoQuoteFieldsOfJoin(vs: seq<string>, d: char)
    requires |vs| >= 1 && forall i :: 0 <= i < |vs| ==> d !in vs[i]
    ensures Fields(Join(vs, d), [d], "") == DropLastEmpty(vs)
  {
    PiecesOfJoin(vs, d);
    NoQuoteFields(Join(vs, d), d);
  }

  /** getField on a line whose fields are known. */
  lemma GetFieldOfFields(k: nat, line: string, def: CsvDefinition, f: seq<string>)
    requires def.delimiter.Some? && def.delimiter.value != ""
    requires Fields(line, def.delimiter.value, def.quote) == f
    ensures k < |f| ==> GetField(k, Some(line), def) == Some(Update4Quote(f[k], def.quote))
    ensures !IsQuote(def.quote) && k == |f| ==> GetField(k, Some(line), def) == Some("")
  {
  }

  /** getFieldCount on joined plain values: all of them, less an empty last
      one, but at least one. */
  lemma NoQuoteFieldCount(vs: seq<string>, d: char)
    requires |vs| >= 1 && forall i :: 0 <= i < |vs| ==> d !in vs[i]
    ensures GetFieldCount(Some(Join(vs, d)), CsvDefinition(Some([d]), "")) == Max(|DropLastEmpty(vs)|, 1)
  {
    NoQuoteFieldsOfJoin(vs, d);
  }

  /** A delimiter of two or more characters never equals a token, so
      without a quote every token, delimiter characters included, is a
      field of its own. */
  lemma {:induction false} MultiCharDelimiterScan(ts: seq<string>, st: ScanState, delim: string)
    requires |delim| >= 2 && forall i :: 0 <= i < |ts| ==> |ts[i]| == 1 || IsRunToken(ts[i], delim)
    ensures Scan(ts, st, delim, "").found == st.found + ts
  {
    if ts != [] {
      assert ts[0] != delim by {
        if |ts[0]| != 1 {
          assert delim[0] in delim;
        }
      }
      MultiCharDelimiterScan(ts[1..], Step(st, ts[0], delim, ""), delim);
      assert st.found + [ts[0]] + ts[1..] == st.found + ts;
    } else {
      assert st.found + ts == st.found;
    }
  }

  lemma MultiCharDelimiter(s: string, delim: string)
    requires |delim| >= 2
    ensures Fields(s, delim, "") == Tokens(s, delim)
  {
    TokensKinds(s, delim);
    MultiCharDelimiterScan(Tokens(s, delim), Start, delim);
  }

  // ---------------------------------------------------------------------
  // Quoted values

  /** The value formatField writes for `v`. */
  function Formatted(v: string, d: char, q: char): string {
    FormatField(Some(v), CsvDefinition(Some([d]), [q])).value
  }

  lemma TokensFromDelimiter(c: char, rest: string, run: string, delims: string)
    requires c in delims
    ensures TokensFrom([c] + rest, run, delims) == Run(run) + [[c]] + TokensFrom(rest, "", delims)
  {
    assert ([c] + rest)[1..] == rest;
  }

  lemma TokensFromOther(c: char, rest: string, run: string, delims: string)
    requires c !in delims
    ensures TokensFrom([c] + rest, run, delims) == TokensFrom(rest, run + [c], delims)
  {
    assert ([c] + rest)[1..] == rest;
  }

  /** A token that does not end with the quote only grows the span. */
  lemma StepInSpan(st: ScanState, t: string, delim: string, q: char)
    requires st.building.Some? && (t == [] || t[|t| - 1] != q)
    ensures Step(st, t, delim, [q]) == st.(building := Some(st.building.value + t))
  {
  }

  lemma ScanRunInSpan(run: string, found: seq<string>, keep: bool, b: string, d: char, q: char)
    requires q !in run
    ensures Scan(Run(run), ScanState(found, keep, Some(b)), [d], [q]) == ScanState(found, keep, Some(b + run))
  {
    if run == [] {
      assert b + run == b;
    } else {
      assert run[|run| - 1] in run;
      ScanOne(run, ScanState(found, keep, Some(b)), [d], [q]);
      StepInSpan(ScanState(found, keep, Some(b)), run, [d], q);
    }
  }

  /** The last token of a span: the pending run with the closing quote. */
  lemma SpanEnd(run: string, b: string, found: seq<string>, keep: bool, d: char, q: char)
    requires q != d
    ensures Scan(TokensFrom([q], run, [d]), ScanState(found, keep, Some(b)), [d], [q])
      == ScanState(found + [b + run + [q]], false, None)
  {
    TokensFromOther(q, [], run, [d]);
    assert [q] == [q] + [];
    var t := run + [q];
    assert TokensFrom([q], run, [d]) == [t];
    ScanOne(t, ScanState(found, keep, Some(b)), [d], [q]);
    assert EndsWith(t, [q]) by {
      assert t[|t| - 1..] == [q];
    }
    assert b + t == b + run + [q];
  }

  /** A delimiter inside a span is appended to it. */
  lemma SpanDelimiter(tail: string, run: string, b: string, found: seq<string>, keep: bool, d: char, q: char)
    requires q != d && q !in run
    ensures Scan(TokensFrom([d] + tail, run, [d]), ScanState(found, keep, Some(b)), [d], [q])
      == Scan(TokensFrom(tail, "", [d]), ScanState(found, keep, Some(b + run + [d])), [d], [q])
  {
    var st := ScanState(found, keep, Some(b));
    TokensFromDelimiter(d, tail, run, [d]);
    var rest := TokensFrom(tail, "", [d]);
    ScanAppend(Run(run) + [[d]], rest, st, [d], [q]);
    ScanAppend(Run(run), [[d]], st, [d], [q]);
    ScanRunInSpan(run, found, keep, b, d, q);
    var st1 := ScanState(found, keep, Some(b + run));
    ScanOne([d], st1, [d], [q]);
    StepInSpan(st1, [d], [d], q);
  }

  /** Inside a span, tokens are appended until one ends with the quote. */
  lemma {:induction false} BuildingRun(r: string, run: string, b: string, found: seq<string>, keep: bool, d: char, q: char)
    requires q != d && q !in r && q !in run
    ensures Scan(TokensFrom(r + [q], run, [d]), ScanState(found, keep, Some(b)), [d], [q])
      == ScanState(found + [b + run + r + [q]], false, None)
    decreases |r|, 1
  {
    if r == [] {
      SpanEnd(run, b, found, keep, d, q);
      assert r + [q] == [q] && b + run + r + [q] == b + run + [q];
    } else if r[0] == d {
      BuildingRunDelimiter(r, run, b, found, keep, d, q);
    } else {
      BuildingRunOther(r, run, b, found, keep, d, q);
    }
  }

  lemma {:induction false} BuildingRunDelimiter(r: string, run: string, b: string, found: seq<string>, keep: bool, d: char, q: char)
    requires q != d && q !in r && q !in run && r != [] && r[0] == d
    ensures Scan(TokensFrom(r + [q], run, [d]), ScanState(found, keep, Some(b)), [d], [q])
      == ScanState(found + [b + run + r + [q]], false, None)
    decreases |r|, 0
  {
    var tail := r[1..];
    assert r == [d] + tail;
    assert r + [q] == [d] + (tail + [q]);
    SpanDelimiter(tail + [q], run, b, found, keep, d, q);
    BuildingRun(tail, "", b + run + [d], found, keep, d, q);
    assert b + run + [d] + "" + tail + [q] == b + run + r + [q];
  }

  lemma {:induction false} BuildingRunOther(r: string, run: string, b: string, found: seq<string>, keep: bool, d: char, q: char)
    requires q != d && q !in r && q !in run && r != [] && r[0] != d
    ensures Scan(TokensFrom(r + [q], run, [d]), ScanState(found, keep, Some(b)), [d], [q])
      == ScanState(found + [b + run + r + [q]], false, None)
    decreases |r|, 0
  {
    var c, tail := r[0], r[1..];
    assert r == [c] + tail;
    assert r + [q] == [c] + (tail + [q]);
    TokensFromOther(c, tail + [q], run, [d]);
    BuildingRun(tail, run + [c], b, found, keep, d, q);
    assert b + (run + [c]) + tail + [q] == b + run + r + [q];
  }

  /** A token starting with the quote opens a span, unless it also closes
      it; either way the quoted stretch ends up as one field. */
  lemma {:induction false} OpenQuoted(r: string, x: string, found: seq<string>, keep: bool, d: char, q: char)
    requires q != d && q !in r && q !in x
    ensures Scan(TokensFrom(r + [q], [q] + x, [d]), ScanState(found, keep, None), [d], [q])
      == ScanState(found + [[q] + x + r + [q]], false, None)
    decreases |r|
  {
    if r == [] {
      SelfClosed(x, found, keep, d, q);
      assert r + [q] == [q] && [q] + x + r + [q] == [q] + x + [q];
    } else if r[0] == d {
      OpenAtDelimiter(r, x, found, keep, d, q);
    } else {
      var c, tail := r[0], r[1..];
      assert r == [c] + tail;
      assert r + [q] == [c] + (tail + [q]);
      TokensFromOther(c, tail + [q], [q] + x, [d]);
      OpenQuoted(tail, x + [c], found, keep, d, q);
      assert [q] + x + [c] == [q] + (x + [c]);
      assert [q] + (x + [c]) + tail + [q] == [q] + x + r + [q];
    }
  }

  /** A token that starts and ends with the quote and is longer than it is
      a field as it stands. */
  lemma SelfClosed(x: string, found: seq<string>, keep: bool, d: char, q: char)
    requires q != d && q !in x
    ensures Scan(TokensFrom([q], [q] + x, [d]), ScanState(found, keep, None), [d], [q])
      == ScanState(found + [[q] + x + [q]], false, None)
  {
    TokensFromOther(q, [], [q] + x, [d]);
    assert [q] == [q] + [];
    var t := [q] + x + [q];
    assert TokensFrom([q], [q] + x, [d]) == [t];
    ScanOne(t, ScanState(found, keep, None), [d], [q]);
    assert t != [d] by {
      assert |t| >= 2;
    }
    assert StartsWith(t, [q]) && EndsWith(t, [q]) by {
      assert t[..1] == [q] && t[|t| - 1..] == [q];
    }
  }

  /** Inside a span, a stretch without the quote is appended to it whole:
      the span stays open. Stated for a one-character quote and delimiter. */
  lemma {:induction false} SpanStaysOpen(r: string, run: string, b: string, found: seq<string>, keep: bool, d: char, q: char)
    requires q != d && q !in r && q !in run
    ensures Scan(TokensFrom(r, run, [d]), ScanState(found, keep, Some(b)), [d], [q])
      == ScanState(found, keep, Some(b + run + r))
    decreases |r|, 1
  {
    if r == [] {
      ScanRunInSpan(run, found, keep, b, d, q);
      assert b + run + r == b + run;
    } else if r[0] == d {
      SpanStaysOpenAtDelimiter(r, run, b, found, keep, d, q);
    } else {
      var c, tail := r[0], r[1..];
      assert r == [c] + tail;
      TokensFromOther(c, tail, run, [d]);
      SpanStaysOpen(tail, run + [c], b, found, keep, d, q);
      assert b + (run + [c]) + tail == b + run + r;
    }
  }

  /** SpanStaysOpen, at a delimiter: it is appended and the span goes on. */
  lemma {:induction false} SpanStaysOpenAtDelimiter(r: string, run: string, b: string, found: seq<string>, keep: bool, d: char, q: char)
    requires q != d && q !in r && q !in run && |r| > 0 && r[0] == d
    ensures Scan(TokensFrom(r, run, [d]), ScanState(found, keep, Some(b)), [d], [q])
      == ScanState(found, keep, Some(b + run + r))
    decreases |r|, 0
  {
    var tail := r[1..];
    assert r == [d] + tail;
    SpanDelimiter(tail, run, b, found, keep, d, q);
    SpanStaysOpen(tail, "", b + run + [d], found, keep, d, q);
    assert b + run + [d] + "" + tail == b + run + r;
  }

  /** A span opened by the quote and never closed is still open when the
      tokens run out, holding everything from the quote on. Stated for a
      one-character quote and delimiter. */
  lemma {:induction false} OpenUnterminated(r: string, x: string, found: seq<string>, keep: bool, d: char, q: char)
    requires q != d && q !in r && q !in x
    ensures Scan(TokensFrom(r, [q] + x, [d]), ScanState(found, keep, None), [d], [q])
      == ScanState(found, keep, Some([q] + x + r))
    decreases |r|
  {
    if r == [] {
      OpenAtEnd(x, found, keep, d, q);
      assert [q] + x + r == [q] + x;
    } else if r[0] == d {
      OpenUnterminatedAtDelimiter(r, x, found, keep, d, q);
    } else {
      var c, tail := r[0], r[1..];
      assert r == [c] + tail;
      TokensFromOther(c, tail, [q] + x, [d]);
      assert [q] + x + [c] == [q] + (x + [c]);
      OpenUnterminated(tail, x + [c], found, keep, d, q);
      assert [q] + (x + [c]) + tail == [q] + x + r;
    }
  }

  /** The opening token is the last one. */
  lemma OpenAtEnd(x: string, found: seq<string>, keep: bool, d: char, q: char)
    requires q != d && q !in x
    ensures Scan(TokensFrom([], [q] + x, [d]), ScanState(found, keep, None), [d], [q])
      == ScanState(found, keep, Some([q] + x))
  {
    OpenerShape(x, q);
    var st := ScanState(found, keep, None);
    assert TokensFrom([], [q] + x, [d]) == [[q] + x];
    ScanOne([q] + x, st, [d], [q]);
    OpenStep(st, [q] + x, d, q);
  }

  /** The opening token ends at a delimiter and no quote follows. */
  lemma OpenUnterminatedAtDelimiter(r: string, x: string, found: seq<string>, keep: bool, d: char, q: char)
    requires q != d && q !in r && q !in x && r != [] && r[0] == d
    ensures Scan(TokensFrom(r, [q] + x, [d]), ScanState(found, keep, None), [d], [q])
      == ScanState(found, keep, Some([q] + x + r))
  {
    var tail := r[1..];
    assert r == [d] + tail;
    OpenerShape(x, q);
    OpenThenDelimiter(tail, [q] + x, found, keep, d, q);
    SpanStaysOpen(tail, "", [q] + x + [d], found, keep, d, q);
    OpenShape(x, d, tail, q);
  }

  lemma OpenShape(x: string, d: char, tail: string, q: char)
    ensures [q] + x + [d] + "" + tail == [q] + x + ([d] + tail)
  {
  }

  /** A quote that is never closed makes the rest of the line one field,
      delimiters included, flushed as it stands. Stated for a one-character
      quote and delimiter; longer ones are not covered by this lemma. */
  lemma UnterminatedSpanFlushed(x: string, d: char, q: char)
    requires q != d && q !in x
    ensures Fields([q] + x, [d], [q]) == [[q] + x]
  {
    TokensFromOther(q, x, "", [d]);
    assert "" + [q] == [q] + [];
    OpenUnterminated(x, [], [], true, d, q);
    assert [q] + [] + x == [q] + x;
  }

  /** A token that starts with the quote and does not end with it (or is
      the quote alone) opens a span. */
  lemma OpenStep(st: ScanState, t: string, d: char, q: char)
    requires st.building.None? && q != d && |t| >= 1 && t[0] == q
    requires |t| == 1 || t[|t| - 1] != q
    ensures Step(st, t, [d], [q]) == st.(building := Some(t))
  {
    assert t != [d];
    assert StartsWith(t, [q]) by {
      assert t[..1] == [q];
    }
    assert !EndsWith(t, [q]) || |t| == 1 by {
      if |t| > 1 {
        assert t[|t| - 1..] != [q];
      }
    }
  }

  /** The opening token ends at a delimiter: the span is opened and the
      delimiter appended to it. */
  lemma OpenThenDelimiter(tail: string, t: string, found: seq<string>, keep: bool, d: char, q: char)
    requires q != d && |t| >= 1 && t[0] == q && (|t| == 1 || t[|t| - 1] != q)
    ensures Scan(TokensFrom([d] + tail, t, [d]), ScanState(found, keep, None), [d], [q])
      == Scan(TokensFrom(tail, "", [d]), ScanState(found, keep, Some(t + [d])), [d], [q])
  {
    var st := ScanState(found, keep, None);
    TokensFromDelimiter(d, tail, t, [d]);
    var rest := TokensFrom(tail, "", [d]);
    assert Run(t) == [t];
    ScanAppend([t] + [[d]], rest, st, [d], [q]);
    ScanAppend([t], [[d]], st, [d], [q]);
    ScanOne(t, st, [d], [q]);
    OpenStep(st, t, d, q);
    var st1 := ScanState(found, keep, Some(t));
    ScanOne([d], st1, [d], [q]);
    StepInSpan(st1, [d], [d], q);
  }

  lemma OpenerShape(x: string, q: char)
    requires q !in x
    ensures |[q] + x| == 1 || ([q] + x)[|x|] != q
  {
    if |x| > 0 {
      assert ([q] + x)[|x|] == x[|x| - 1];
      assert x[|x| - 1] in x;
    }
  }

  lemma SpanShape(x: string, d: char, tail: string, q: char)
    ensures [q] + x + [d] + "" + tail + [q] == [q] + x + ([d] + tail) + [q]
  {
  }

  lemma OpenAtDelimiter(r: string, x: string, found: seq<string>, keep: bool, d: char, q: char)
    requires q != d && q !in r && q !in x && r != [] && r[0] == d
    ensures Scan(TokensFrom(r + [q], [q] + x, [d]), ScanState(found, keep, None), [d], [q])
      == ScanState(found + [[q] + x + r + [q]], false, None)
  {
    var tail := r[1..];
    assert r == [d] + tail;
    assert r + [q] == [d] + (tail + [q]);
    OpenerShape(x, q);
    OpenThenDelimiter(tail + [q], [q] + x, found, keep, d, q);
    BuildingRun(tail, "", [q] + x + [d], found, keep, d, q);
    SpanShape(x, d, tail, q);
  }

  /** With a one-character quote that no value contains, every formatted
      value is a cell. */
  lemma QuotedCell(v: string, d: char, q: char)
    requires q != d && q !in v
    ensures Cell(Formatted(v, d, q), [d], [q])
  {
    var def := CsvDefinition(Some([d]), [q]);
    var c := Formatted(v, d, q);
    if NeedsQuotes(v, [d], [q]) {
      assert c == [q] + v + [q];
      assert c == [q] + (v + [q]);
      TokensFromOther(q, v + [q], "", [d]);
      assert "" + [q] == [q] + [];
      forall found: seq<string>, keep: bool
        ensures Scan(Tokens(c, [d]), ScanState(found, keep, None), [d], [q])
          == ScanState(found + [c], false, None)
      {
        OpenQuoted(v, [], found, keep, d, q);
        assert [q] + [] + v + [q] == c;
      }
    } else {
      assert c == v;
      ContainsChar(v, d);
      DelimiterFreeSingle(v, d);
      TokensOfRun(v, [d]);
      if v != [] {
        assert v != [d] by {
          assert v[0] in v;
        }
      }
    }
  }

  lemma FormattedEmpty(v: string, d: char, q: char)
    requires q !in v
    ensures Formatted(v, d, q) == "" <==> v == ""
  {
    if v == "" {
      ContainsChar(v, d);
    }
  }

  /** The partner of formatField: update4quote undoes it for every value. */
  lemma FormatThenUnquote(v: string, def: CsvDefinition)
    requires def.delimiter.Some? || !IsQuote(def.quote)
    ensures FormatField(Some(v), def).Ok?
    ensures Update4Quote(FormatField(Some(v), def).value, def.quote) == v
  {
    var q := def.quote;
    var c := FormatField(Some(v), def).value;
    if IsQuote(q) && NeedsQuotes(v, def.delimiter.value, q) {
      assert c[..|q|] == q;
      assert c[|c| - |q|..] == q;
      assert c[|q|..|c| - |q|] == v;
    }
  }

  /** The quoted partner of getField: values free of a one-character quote,
      formatted and joined with a different one-character delimiter, are
      read back one by one, except an empty last value. */
  lemma QuotedGetField(vs: seq<string>, d: char, q: char, k: nat)
    requires q != d && |vs| >= 1 && forall i :: 0 <= i < |vs| ==> q !in vs[i]
    requires k < |vs| && (k < |vs| - 1 || vs[k] != "")
    ensures var cs := seq(|vs|, i requires 0 <= i < |vs| => Formatted(vs[i], d, q));
      GetField(k, Some(Join(cs, d)), CsvDefinition(Some([d]), [q])) == Some(vs[k])
  {
    var def := CsvDefinition(Some([d]), [q]);
    var cs := seq(|vs|, i requires 0 <= i < |vs| => Formatted(vs[i], d, q));
    var line := Join(cs, d);
    forall i | 0 <= i < |cs|
      ensures Cell(cs[i], [d], [q])
    {
      QuotedCell(vs[i], d, q);
    }
    ScanJoin(cs, d, [q], []);
    assert [] + DropLastEmpty(cs) == DropLastEmpty(cs);
    FormattedEmpty(vs[|vs| - 1], d, q);
    GetFieldOfFields(k, line, def, DropLastEmpty(cs));
    FormatThenUnquote(vs[k], def);
  }

  /** With a quote, an empty last field behind a counted one reads as null
      when split kept its first array ("a," has two tokens and two slots);
      without a quote the same call reads "". */
  lemma TrailingEmptyField()
    ensures GetField(1, Some("a,"), CsvDefinition(Some(","), "\"")) == None
    ensures GetField(1, Some("a,"), CsvDefinition(Some(","), "")) == Some("")
  {
    TokensOfTrailingDelimiter();
    FieldsOfTrailingDelimiter("");
    FieldsOfTrailingDelimiter("\"");
  }

  /** Without a quote, a trailing delimiter adds no field: with min 0 the
      "" the loop writes after "a" is lost when the array is cut to size,
      and the count is 1; with min 1 the first array is kept and the ""
      survives. */
  lemma TrailingDelimiterNoQuote()
    ensures Split(Some("a,"), CsvDefinition(Some(","), ""), 0) == Some([Some("a")])
    ensures GetFieldCount(Some("a,"), CsvDefinition(Some(","), "")) == 1
    ensures Split(Some("a,"), CsvDefinition(Some(","), ""), 1) == Some([Some("a"), Some("")])
  {
    TokensOfTrailingDelimiter();
    FieldsOfTrailingDelimiter("");
    var def := CsvDefinition(Some(","), "");
    var r0 := Split(Some("a,"), def, 0).value;
    assert |r0| == 1 && r0[0] == Some("a");
    assert r0 == [Some("a")];
    var r1 := Split(Some("a,"), def, 1).value;
    assert |r1| == 2 && r1[0] == Some("a") && r1[1] == Some("");
    assert r1 == [Some("a"), Some("")];
  }

  lemma TokensOfTrailingDelimiter()
    ensures Tokens("a,", ",") == ["a", ","]
  {
    assert "a," == ['a'] + ",";
    TokensFromOther('a', ",", "", ",");
    assert "," == [','] + "";
    assert "" + ['a'] == "a";
    TokensFromDelimiter(',', "", "a", ",");
  }

  lemma FieldsOfTrailingDelimiter(quote: string)
    requires quote == "" || quote == "\""
    ensures Fields("a,", ",", quote) == ["a"]
  {
    TokensOfTrailingDelimiter();
    ScanAppend(["a"], [","], Start, ",", quote);
    ScanOne("a", Start, ",", quote);
    var st := ScanState(["a"], false, None);
    assert Step(Start, "a", ",", quote) == st;
    ScanOne(",", st, ",", quote);
    assert ["a", ","] == ["a"] + [","];
    assert Scan(["a", ","], Start, ",", quote) == ScanState(["a"], true, None);
  }

  /** The partner of setField: the slot it writes reads back as the value
      given. */
  lemma SetFieldStoresValue(n: nat, line: Option<string>, def: CsvDefinition, v: string)
    requires def.delimiter.Some? || !IsQuote(def.quote)
    ensures SetFieldArray(n, line, def, Some(v)).Ok?
    ensures var a := SetFieldArray(n, line, def, Some(v)).value;
      n < |a| && a[n].Some? && Update4Quote(a[n].value, def.quote) == v
  {
    FormatThenUnquote(v, def);
  }
}

=== FILE: csv_tokens.dfy ===
/** java.util.StringTokenizer with returnDelims = true: every delimiter
    character is a token of its own, and every maximal run of other
    characters is one token. */
module CsvTokens {

  /** A token made of one delimiter character. */
  predicate IsDelimToken(t: string, delims: string) {
    |t| == 1 && t[0] in delims
  }

  /** A non-empty run free of delimiter characters. */
  predicate IsRunToken(t: string, delims: string) {
    |t| > 0 && forall i :: 0 <= i < |t| ==> t[i] !in delims
  }

  predicate DelimiterFree(s: string, delims: string) {
    forall i :: 0 <= i < |s| ==> s[i] !in delims
  }

  function Concat(ts: seq<string>): string {
    if ts == [] then "" else ts[0] + Concat(ts[1..])
  }

  lemma {:induction false} ConcatAppend(a: seq<string>, b: seq<string>)
    ensures Concat(a + b) == Concat(a) + Concat(b)
  {
    if a == [] {
      assert a + b == b;
    } else {
      assert (a + b)[1..] == a[1..] + b;
      ConcatAppend(a[1..], b);
    }
  }

  /** The pending run as a token list: nothing, or the run itself. */
  function Run(r: string): seq<string> {
    if r == [] then [] else [r]
  }

  /** Tokenizing with the run collected so far. */
  function TokensFrom(s: string, run: string, delims: string): seq<string> {
    if s == [] then Run(run)
    else if s[0] in delims then Run(run) + [[s[0]]] + TokensFrom(s[1..], "", delims)
    else TokensFrom(s[1..], run + [s[0]], delims)
  }

  /** The tokens of `s`, in order. */
  function Tokens(s: string, delims: string): seq<string> {
    TokensFrom(s, "", delims)
  }

  lemma ConcatRunThenDelim(run: string, c: char, rest: seq<string>)
    ensures Concat(Run(run) + [[c]] + rest) == run + [c] + Concat(rest)
  {
    ConcatAppend(Run(run) + [[c]], rest);
    ConcatAppend(Run(run), [[c]]);
    assert Concat([[c]]) == [c] + Concat([]);
  }

  lemma {:induction false} TokensFromConcat(s: string, run: string, delims: string)
    ensures Concat(TokensFrom(s, run, delims)) == run + s
  {
    if s == [] {
      assert run + s == run;
    } else {
      var c, t := s[0], s[1..];
      assert s == [c] + t;
      if c in delims {
        TokensFromConcat(t, "", delims);
        ConcatRunThenDelim(run, c, TokensFrom(t, "", delims));
        assert run + [c] + ("" + t) == run + s;
      } else {
        TokensFromConcat(t, run + [c], delims);
        assert run + [c] + t == run + s;
      }
    }
  }

  /** The tokens put together give back the string. */
  lemma TokensConcat(s: string, delims: string)
    ensures Concat(Tokens(s, delims)) == s
  {
    TokensFromConcat(s, "", delims);
  }

  /** Every token is a single delimiter character or a non-empty run. */
  predicate WellKinded(ts: seq<string>, delims: string) {
    forall i :: 0 <= i < |ts| ==> IsDelimToken(ts[i], delims) || IsRunToken(ts[i], delims)
  }

  lemma {:induction false} TokensFromKinds(s: string, run: string, delims: string)
    requires DelimiterFree(run, delims)
    ensures WellKinded(TokensFrom(s, run, delims), delims)
  {
    if s != [] {
      if s[0] in delims {
        TokensFromKinds(s[1..], "", delims);
        var rest := TokensFrom(s[1..], "", delims);
        var ts := Run(run) + [[s[0]]] + rest;
        assert forall i :: |Run(run)| + 1 <= i < |ts| ==> ts[i] == rest[i - |Run(run)| - 1];
      } else {
        assert DelimiterFree(run + [s[0]], delims);
        TokensFromKinds(s[1..], run + [s[0]], delims);
      }
    }
  }

  /** Each token is a single delimiter character or a non-empty run. */
  lemma TokensKinds(s: string, delims: string)
    ensures WellKinded(Tokens(s, delims), delims)
  {
    TokensFromKinds(s, "", delims);
  }

  /** Runs are maximal: two runs are never adjacent. */
  predicate Maximal(ts: seq<string>, delims: string) {
    forall i :: 0 <= i && i + 1 < |ts| ==> IsDelimToken(ts[i], delims) || IsDelimToken(ts[i + 1], delims)
  }

  lemma {:induction false} TokensFromMaximal(s: string, run: string, delims: string)
    ensures Maximal(TokensFrom(s, run, delims), delims)
    ensures var ts := TokensFrom(s, run, delims); ts != [] && run != [] ==> |ts[0]| >= |run| && ts[0][0] == run[0]
  {
    if s != [] {
      if s[0] in delims {
        TokensFromMaximal(s[1..], "", delims);
        var rest := TokensFrom(s[1..], "", delims);
        var ts := Run(run) + [[s[0]]] + rest;
        var m := |Run(run)|;
        forall i | 0 <= i && i + 1 < |ts|
          ensures IsDelimToken(ts[i], delims) || IsDelimToken(ts[i + 1], delims)
        {
          if i > m {
            assert ts[i] == rest[i - m - 1] && ts[i + 1] == rest[i - m];
          } else if i == m - 1 {
            assert ts[i + 1] == [s[0]];
          } else {
            assert ts[m] == [s[0]];
          }
        }
      } else {
        TokensFromMaximal(s[1..], run + [s[0]], delims);
      }
    }
  }

  lemma TokensMaximal(s: string, delims: string)
    ensures Maximal(Tokens(s, delims), delims)
  {
    TokensFromMaximal(s, "", delims);
  }

  /** A delimiter-free string is one run (or nothing). */
  lemma {:induction false} TokensFromOfRun(a: string, run: string, delims: string)
    requires DelimiterFree(a, delims)
    ensures TokensFrom(a, run, delims) == Run(run + a)
  {
    if a == [] {
      assert run + a == run;
    } else {
      TokensFromOfRun(a[1..], run + [a[0]], delims);
      assert run + [a[0]] + a[1..] == run + a;
    }
  }

  lemma TokensOfRun(a: string, delims: string)
    requires DelimiterFree(a, delims)
    ensures Tokens(a, delims) == Run(a)
  {
    TokensFromOfRun(a, "", delims);
    assert "" + a == a;
  }

  /** A delimiter character always ends the tokens before it. */
  lemma {:induction false} TokensFromSplit(a: string, c: char, b: string, run: string, delims: string)
    requires c in delims
    ensures TokensFrom(a + [c] + b, run, delims) == TokensFrom(a, run, delims) + [[c]] + Tokens(b, delims)
  {
    var s := a + [c] + b;
    if a == [] {
      assert s[0] == c && s[1..] == b;
    } else {
      assert s[0] == a[0] && s[1..] == a[1..] + [c] + b;
      if a[0] in delims {
        TokensFromSplit(a[1..], c, b, "", delims);
      } else {
        TokensFromSplit(a[1..], c, b, run + [a[0]], delims);
      }
    }
  }

  lemma TokensSplitAtDelimiter(a: string, c: char, b: string, delims: string)
    requires c in delims
    ensures Tokens(a + [c] + b, delims) == Tokens(a, delims) + [[c]] + Tokens(b, delims)
  {
    TokensFromSplit(a, c, b, "", delims);
  }

  /** A string ending in a non-delimiter character `q` that occurs nowhere
      else: every token but the last is free of `q`, and the last ends with it. */
  lemma {:induction false} TokensFromEndingIn(r: string, q: char, run: string, delims: string)
    requires q !in delims && q !in r && q !in run
    ensures var ts := TokensFrom(r + [q], run, delims);
      && |ts| > 0
      && (forall i :: 0 <= i < |ts| - 1 ==> q !in ts[i])
      && |ts[|ts| - 1]| > 0 && ts[|ts| - 1][|ts[|ts| - 1]| - 1] == q
  {
    var s := r + [q];
    if r == [] {
      assert s[0] == q && s[1..] == [];
    } else {
      assert s[0] == r[0] && s[1..] == r[1..] + [q];
      if r[0] in delims {
        TokensFromEndingIn(r[1..], q, "", delims);
        var rest := TokensFrom(r[1..] + [q], "", delims);
        var ts := Run(run) + [[r[0]]] + rest;
        assert forall i :: |Run(run)| + 1 <= i < |ts| ==> ts[i] == rest[i - |Run(run)| - 1];
      } else {
        TokensFromEndingIn(r[1..], q, run + [r[0]], delims);
      }
    }
  }

  lemma TokensEndingIn(r: string, q: char, delims: string)
    requires q !in delims && q !in r
    ensures var ts := Tokens(r + [q], delims);
      && |ts| > 0
      && (forall i :: 0 <= i < |ts| - 1 ==> q !in ts[i])
      && |ts[|ts| - 1]| > 0 && ts[|ts| - 1][|ts[|ts| - 1]| - 1] == q
  {
    TokensFromEndingIn(r, q, "", delims);
  }

  // ---------------------------------------------------------------------
  // Splitting at one delimiter character

  /** Join with a single separator character. */
  function Join(ps: seq<string>, d: char): string
    requires |ps| >= 1
  {
    if |ps| == 1 then ps[0] else ps[0] + [d] + Join(ps[1..], d)
  }

  function FirstIndex(s: string, c: char): (k: nat)
    requires c in s
    ensures k < |s| && s[k] == c && c !in s[..k]
  {
    if s[0] == c then 0 else 1 + FirstIndex(s[1..], c)
  }

  /** The pieces between the occurrences of `d`, empty ones included
      (String.split with a negative limit). */
  function Pieces(s: string, d: char): (ps: seq<string>)
    ensures |ps| >= 1
    ensures forall i :: 0 <= i < |ps| ==> d !in ps[i]
    ensures Join(ps, d) == s
    decreases |s|
  {
    if d !in s then [s]
    else
      var k := FirstIndex(s, d);
      assert s == s[..k] + [d] + s[k + 1..];
      [s[..k]] + Pieces(s[k + 1..], d)
  }

  lemma {:induction false} FirstIndexAfter(a: string, d: char, rest: string)
    requires d !in a
    ensures d in a + [d] + rest && FirstIndex(a + [d] + rest, d) == |a|
  {
    var s := a + [d] + rest;
    assert s[|a|] == d;
    if a != [] {
      assert s[1..] == a[1..] + [d] + rest;
      FirstIndexAfter(a[1..], d, rest);
    }
  }

  lemma JoinSlices(a: string, d: char, rest: string)
    ensures (a + [d] + rest)[..|a|] == a && (a + [d] + rest)[|a| + 1..] == rest
  {
  }

  /** Pieces inverts Join on pieces free of the separator. */
  lemma {:induction false} PiecesOfJoin(ps: seq<string>, d: char)
    requires |ps| >= 1 && forall i :: 0 <= i < |ps| ==> d !in ps[i]
    ensures Pieces(Join(ps, d), d) == ps
  {
    if |ps| > 1 {
      var p, tail := ps[0], ps[1..];
      var rest := Join(tail, d);
      var s := p + [d] + rest;
      assert Join(ps, d) == s;
      FirstIndexAfter(p, d, rest);
      JoinSlices(p, d, rest);
      PiecesOfJoin(tail, d);
      assert Pieces(s, d) == [p] + Pieces(rest, d);
      assert ps == [p] + tail;
    }
  }
}

=== FILE: field_name_index.dfy ===
/** The field-name index of a layout (buildFieldNameMap / getFieldFromName):
    every field gets a lookup name that is unique ignoring case. */
module FieldNames {
  import opened Wrappers
  import opened NullableArrays
  import opened JavaStrings
  import opened Constants
  import opened RecordDetail
  import opened LayoutDetail

  predicate IsRef(l: Layout, f: FieldRef) {
    l.Valid() && f.record < l.recordCount && f.field < l.RecordAt(f.record).fieldCount
  }

  function FieldOf(l: Layout, f: FieldRef): Field
    requires IsRef(l, f)
  {
    l.RecordAt(f.record).FieldAt(f.field)
  }

  /** The fields of the first `n` records, record by record, each in field order. */
  function FieldRefs(l: Layout, n: nat): (refs: seq<FieldRef>)
    requires l.Valid() && n <= l.recordCount
    ensures forall f :: f in refs ==> IsRef(l, f) && f.record < n
  {
    if n == 0 then []
    else FieldRefs(l, n - 1) + seq(l.RecordAt(n - 1).fieldCount, j requires 0 <= j => FieldRef(n - 1, j))
  }

  /** Every field of the first `n` records is listed. */
  lemma {:induction false} FieldRefsComplete(l: Layout, n: nat, f: FieldRef)
    requires l.Valid() && n <= l.recordCount && IsRef(l, f) && f.record < n
    ensures f in FieldRefs(l, n)
  {
    if f.record == n - 1 {
      var own := seq(l.RecordAt(n - 1).fieldCount, j requires 0 <= j => FieldRef(n - 1, j));
      assert own[f.field] == f;
      assert FieldRefs(l, n) == FieldRefs(l, n - 1) + own;
    } else {
      FieldRefsComplete(l, n - 1, f);
    }
  }

  // ---------------------------------------------------------------------
  // Unique lookup names

  /** The k-th candidate name: the name itself, then name~1, name~2, ... */
  function Candidate(name: string, k: nat): string {
    if k == 0 then name else name + "~" + Decimal(k)
  }

  ghost function MaxLength(keys: set<string>): (m: nat)
    ensures forall x :: x in keys ==> |x| <= m
    decreases |keys|
  {
    if keys == {} then 0
    else
      var x :| x in keys;
      var m := MaxLength(keys - {x});
      if |x| > m then |x| else m
  }

  /** The suffix search loop: the first k' >= k whose candidate is not yet a
      key. It ends because long enough candidates exceed every key. */
  function FreeSuffixFrom(keys: set<string>, name: string, k: nat): (r: nat)
    requires k >= 1
    ensures r >= k
    ensures ToUpper(Candidate(name, r)) !in keys
    ensures forall i :: k <= i < r ==> ToUpper(Candidate(name, i)) in keys
    decreases Pow10(MaxLength(keys)) - k
  {
    if ToUpper(Candidate(name, k)) !in keys then k
    else
      TakenSuffixBound(keys, name, k);
      FreeSuffixFrom(keys, name, k + 1)
  }

  /** A suffix whose candidate is taken is below the search bound. */
  lemma TakenSuffixBound(keys: set<string>, name: string, k: nat)
    requires k >= 1 && ToUpper(Candidate(name, k)) in keys
    ensures k < Pow10(MaxLength(keys))
  {
    DecimalBound(k);
    assert |Decimal(k)| <= |ToUpper(Candidate(name, k))| <= MaxLength(keys);
    Pow10Monotone(|Decimal(k)|, MaxLength(keys));
  }

  /** The suffix buildFieldNameMap settles on: 0 (the plain name) when it is
      free, else the smallest free k >= 1. */
  function FreeSuffix(keys: set<string>, name: string): (k: nat)
    ensures ToUpper(Candidate(name, k)) !in keys
    ensures forall i :: 0 <= i < k ==> ToUpper(Candidate(name, i)) in keys
  {
    if ToUpper(name) !in keys then 0 else FreeSuffixFrom(keys, name, 1)
  }

  /** Upper-casing a candidate upper-cases only the base name. */
  lemma CandidateUpper(name: string, k: nat)
    requires k >= 1
    ensures ToUpper(Candidate(name, k)) == ToUpper(name) + "~" + Decimal(k)
  {
    var d := Decimal(k);
    assert Candidate(name, k) == (name + "~") + d;
    ToUpperAppend(name + "~", d);
    ToUpperAppend(name, "~");
    assert ToUpper("~") == "~";
    ToUpperOfDigits(d);
  }

  /** Different suffixes give different keys, so the search sees a new
      candidate at every step. */
  lemma CandidatesDistinct(name: string, a: nat, b: nat)
    requires 1 <= a && 1 <= b && a != b
    ensures ToUpper(Candidate(name, a)) != ToUpper(Candidate(name, b))
  {
    CandidateUpper(name, a);
    CandidateUpper(name, b);
    var p := ToUpper(name) + "~";
    if ToUpper(Candidate(name, a)) == ToUpper(Candidate(name, b)) {
      assert p + Decimal(a) == p + Decimal(b);
      assert Decimal(a) == (p + Decimal(a))[|p|..];
      DecimalInjective(a, b);
    }
  }

  // ---------------------------------------------------------------------
  // First build

  function EmptyIndex(): FieldNameIndex {
    FieldNameIndex(map[], map[], map[])
  }

  /** One step of the first build: choose the lookup name and enter the
      field under it, plainly and qualified by the record name. */
  function Insert(l: Layout, idx: FieldNameIndex, f: FieldRef): (r: FieldNameIndex)
    requires l.Valid() && IsRef(l, f)
    ensures f in r.lookupNames
    ensures var nm := r.lookupNames[f]; var key := ToUpper(nm);
      && key !in idx.plain
      && nm == Candidate(FieldOf(l, f).name, FreeSuffix(idx.plain.Keys, FieldOf(l, f).name))
      && r.plain == idx.plain[key := f]
      && r.qualified == idx.qualified[l.RecordAt(f.record).name + "." + key := f]
      && r.lookupNames == idx.lookupNames[f := nm]
  {
    var name := FieldOf(l, f).name;
    var nm := Candidate(name, FreeSuffix(idx.plain.Keys, name));
    var key := ToUpper(nm);
    FieldNameIndex(idx.plain[key := f], idx.qualified[l.RecordAt(f.record).name + "." + key := f],
                   idx.lookupNames[f := nm])
  }

  /** Every field entered so far is found under the upper-cased form of its
      lookup name, and no two fields share a key. */
  ghost predicate Resolves(idx: FieldNameIndex, refs: seq<FieldRef>) {
    && (forall f :: f in refs ==> f in idx.lookupNames && ToUpper(idx.lookupNames[f]) in idx.plain
                                  && idx.plain[ToUpper(idx.lookupNames[f])] == f)
    && (forall key :: key in idx.plain ==> idx.plain[key] in refs)
    && (forall key :: key in idx.qualified ==> idx.qualified[key] in refs)
  }

  /** What the first build guarantees for the fields entered so far: they
      resolve, there is one key per field, and each has a qualified entry. */
  ghost predicate Built(l: Layout, idx: FieldNameIndex, refs: seq<FieldRef>) {
    && l.Valid()
    && Resolves(idx, refs)
    && |idx.plain| == |refs|
    && forall f :: f in refs && IsRef(l, f) ==> l.RecordAt(f.record).name + "." + ToUpper(idx.lookupNames[f]) in idx.qualified
  }

  /** The first build over `refs`, in order. */
  function BuildIndex(l: Layout, refs: seq<FieldRef>): FieldNameIndex
    requires l.Valid() && forall f :: f in refs ==> IsRef(l, f)
  {
    if refs == [] then EmptyIndex()
    else Insert(l, BuildIndex(l, refs[..|refs| - 1]), refs[|refs| - 1])
  }

  /** Every field entered by the first build resolves to itself, one key per field. */
  lemma {:induction false} BuildIndexBuilt(l: Layout, refs: seq<FieldRef>)
    requires l.Valid() && forall f :: f in refs ==> IsRef(l, f)
    ensures Built(l, BuildIndex(l, refs), refs)
  {
    if refs != [] {
      var init, f := refs[..|refs| - 1], refs[|refs| - 1];
      SplitLast(refs);
      BuildIndexBuilt(l, init);
      InsertKeepsResolving(l, BuildIndex(l, init), init, f);
    }
  }

  lemma SplitLast<T>(s: seq<T>)
    requires |s| > 0
    ensures s == s[..|s| - 1] + [s[|s| - 1]]
  {
  }

  lemma InsertKeepsResolving(l: Layout, prev: FieldNameIndex, refs: seq<FieldRef>, f: FieldRef)
    requires l.Valid() && IsRef(l, f) && forall g :: g in refs ==> IsRef(l, g)
    requires Built(l, prev, refs)
    ensures Built(l, Insert(l, prev, f), refs + [f])
  {
    InsertResolves(l, prev, refs, f);
    InsertAddsOneKey(l, prev, f);
    InsertKeepsQualified(l, prev, refs, f);
  }

  lemma InsertResolves(l: Layout, prev: FieldNameIndex, refs: seq<FieldRef>, f: FieldRef)
    requires l.Valid() && IsRef(l, f)
    requires Resolves(prev, refs)
    ensures Resolves(Insert(l, prev, f), refs + [f])
  {
    var r := Insert(l, prev, f);
    forall g | g in refs + [f]
      ensures g in r.lookupNames && ToUpper(r.lookupNames[g]) in r.plain && r.plain[ToUpper(r.lookupNames[g])] == g
    {
      if g != f {
        assert g in refs;
        assert ToUpper(prev.lookupNames[g]) in prev.plain;
      }
    }
  }

  lemma InsertAddsOneKey(l: Layout, prev: FieldNameIndex, f: FieldRef)
    requires l.Valid() && IsRef(l, f)
    ensures |Insert(l, prev, f).plain| == |prev.plain| + 1
  {
    var r := Insert(l, prev, f);
    assert r.plain.Keys == prev.plain.Keys + {ToUpper(r.lookupNames[f])};
  }

  lemma InsertKeepsQualified(l: Layout, prev: FieldNameIndex, refs: seq<FieldRef>, f: FieldRef)
    requires l.Valid() && IsRef(l, f)
    requires forall g :: g in refs ==> g in prev.lookupNames && ToUpper(prev.lookupNames[g]) in prev.plain
    requires forall g :: g in refs && IsRef(l, g) ==> l.RecordAt(g.record).name + "." + ToUpper(prev.lookupNames[g]) in prev.qualified
    ensures var r := Insert(l, prev, f);
      forall g :: g in refs + [f] && IsRef(l, g) ==> l.RecordAt(g.record).name + "." + ToUpper(r.lookupNames[g]) in r.qualified
  {
    var r := Insert(l, prev, f);
    forall g | g in refs + [f] && IsRef(l, g)
      ensures l.RecordAt(g.record).name + "." + ToUpper(r.lookupNames[g]) in r.qualified
    {
      if g != f {
        assert g in refs;
        assert ToUpper(prev.lookupNames[g]) in prev.plain;
        assert r.lookupNames[g] == prev.lookupNames[g];
      }
    }
  }

  /** Each record's counter of added fields set to 0 (for those with a
      positive counter when `onlyPositive`). */
  function ResetAdded(slots: seq<Option<Record>>, n: nat, onlyPositive: bool): (s: seq<Option<Record>>)
    requires NonNullPrefix(slots, n)
    ensures |s| == |slots| && NonNullPrefix(s, n)
    ensures forall i :: n <= i < |s| ==> s[i] == slots[i]
    ensures (forall i :: 0 <= i < n ==> slots[i].value.Valid()) ==> forall i :: 0 <= i < n ==> s[i].value.Valid()
    ensures forall i :: 0 <= i < n ==>
      s[i].value == if onlyPositive && slots[i].value.fieldsAdded <= 0 then slots[i].value else slots[i].value.(fieldsAdded := 0)
  {
    seq(|slots|, i requires 0 <= i < |slots| =>
      if i < n && (!onlyPositive || slots[i].value.fieldsAdded > 0) then Some(slots[i].value.(fieldsAdded := 0)) else slots[i])
  }

  function ResetCounters(l: Layout, onlyPositive: bool): (l': Layout)
    requires l.Valid()
    ensures l'.Valid()
    ensures l' == l.(slots := l'.slots)
    ensures forall i :: 0 <= i < l.recordCount ==>
      l'.RecordAt(i) == if onlyPositive && l.RecordAt(i).fieldsAdded <= 0 then l.RecordAt(i) else l.RecordAt(i).(fieldsAdded := 0)
  {
    l.(slots := ResetAdded(l.slots, l.recordCount, onlyPositive))
  }

  // ---------------------------------------------------------------------
  // Refresh of built layouts

  predicate IsBuildLayout(codes: Codes, l: Layout) {
    l.fileStructure == codes.ioXmlBuildLayout || l.fileStructure == codes.ioName1stLine
  }

  /** isBuildLayout reads the declared structure, not the resolved one: a
      name-in-first-line layout whose hex delimiter makes getFileStructure
      answer bin-name-in-first-line is still a build layout. */
  lemma BuildLayoutIsDeclared(codes: Codes, l: Layout)
    ensures IsBuildLayout(codes, l) <==> l.fileStructure in {codes.ioXmlBuildLayout, codes.ioName1stLine}
    ensures l.fileStructure == codes.ioName1stLine && IsBinCSV(l) ==>
      IsBuildLayout(codes, l) && GetFileStructure(codes, l) == codes.ioBinName1stLine
  {
  }

  /** The first field of record i whose name upper-cases to `key` among
      fields j .. fieldCount-1 (-1 if none). */
  function FirstWithKey(r: Record, key: string, j: nat): (k: int)
    requires r.Valid() && j <= r.fieldCount
    ensures k == -1 || (j <= k < r.fieldCount && ToUpper(r.FieldAt(k).name) == key)
    ensures forall i :: j <= i < r.fieldCount && (k == -1 || i < k) ==> ToUpper(r.FieldAt(i).name) != key
    decreases r.fieldCount - j
  {
    if j == r.fieldCount then -1
    else if ToUpper(r.FieldAt(j).name) == key then j
    else FirstWithKey(r, key, j + 1)
  }

  /** Re-enter fields j .. fieldCount-1 of record i in reverse order under
      their plain upper-cased names: of equal names the lowest index wins. */
  function RefreshFields(l: Layout, idx: FieldNameIndex, i: nat, j: nat): (r: FieldNameIndex)
    requires l.Valid() && i < l.recordCount && j <= l.RecordAt(i).fieldCount
    ensures r.lookupNames == idx.lookupNames
    decreases l.RecordAt(i).fieldCount - j
  {
    var rec := l.RecordAt(i);
    if j == rec.fieldCount then idx
    else
      var later := RefreshFields(l, idx, i, j + 1);
      var key := ToUpper(rec.FieldAt(j).name);
      FieldNameIndex(later.plain[key := FieldRef(i, j)],
                     later.qualified[rec.name + "." + key := FieldRef(i, j)],
                     later.lookupNames)
  }

  /** After re-entering record i from field j on, a name it uses is stored
      with the first of its fields carrying that name. */
  lemma {:induction false} RefreshFieldsEntry(l: Layout, idx: FieldNameIndex, i: nat, j: nat, key: string)
    requires l.Valid() && i < l.recordCount && j <= l.RecordAt(i).fieldCount
    requires FirstWithKey(l.RecordAt(i), key, j) != -1
    ensures key in RefreshFields(l, idx, i, j).plain
    ensures RefreshFields(l, idx, i, j).plain[key] == FieldRef(i, FirstWithKey(l.RecordAt(i), key, j))
    decreases l.RecordAt(i).fieldCount - j
  {
    var rec := l.RecordAt(i);
    if ToUpper(rec.FieldAt(j).name) != key {
      RefreshFieldsEntry(l, idx, i, j + 1, key);
    }
  }

  /** A name record i does not use from field j on keeps its entry. */
  lemma {:induction false} RefreshFieldsKeeps(l: Layout, idx: FieldNameIndex, i: nat, j: nat, key: string)
    requires l.Valid() && i < l.recordCount && j <= l.RecordAt(i).fieldCount
    requires FirstWithKey(l.RecordAt(i), key, j) == -1
    ensures key in RefreshFields(l, idx, i, j).plain <==> key in idx.plain
    ensures key in idx.plain ==> RefreshFields(l, idx, i, j).plain[key] == idx.plain[key]
    decreases l.RecordAt(i).fieldCount - j
  {
    if j < l.RecordAt(i).fieldCount {
      RefreshFieldsKeeps(l, idx, i, j + 1, key);
    }
  }

  /** Record i has added fields and one of them upper-cases to `key`. */
  predicate Refreshes(l: Layout, i: nat, key: string)
    requires l.Valid() && i < l.recordCount
  {
    l.RecordAt(i).fieldsAdded > 0 && FirstWithKey(l.RecordAt(i), key, 0) != -1
  }

  /** The refresh over records 0 .. n-1: records with added fields are
      re-entered, later records overwriting earlier ones. */
  function Refresh(l: Layout, idx: FieldNameIndex, n: nat): (r: FieldNameIndex)
    requires l.Valid() && n <= l.recordCount
    ensures r.lookupNames == idx.lookupNames
  {
    if n == 0 then idx
    else
      var prev := Refresh(l, idx, n - 1);
      if l.RecordAt(n - 1).fieldsAdded > 0 then RefreshFields(l, prev, n - 1, 0) else prev
  }

  /** A name no refreshed record uses keeps its entry. */
  lemma {:induction false} RefreshKeepsUntouched(l: Layout, idx: FieldNameIndex, n: nat, key: string)
    requires l.Valid() && n <= l.recordCount
    requires forall i :: 0 <= i < n ==> !Refreshes(l, i, key)
    ensures key in Refresh(l, idx, n).plain <==> key in idx.plain
    ensures key in idx.plain ==> Refresh(l, idx, n).plain[key] == idx.plain[key]
  {
    if n > 0 {
      RefreshKeepsUntouched(l, idx, n - 1, key);
      RefreshStepKeeps(l, idx, n, key);
    }
  }

  /** A name some refreshed record below n uses is stored with the LAST such
      record, at the first of its fields carrying the name. */
  lemma {:induction false} RefreshWinner(l: Layout, idx: FieldNameIndex, n: nat, i: nat, key: string)
    requires l.Valid() && n <= l.recordCount && i < n && Refreshes(l, i, key)
    ensures var r := Refresh(l, idx, n);
      && key in r.plain
      && i <= r.plain[key].record < n
      && Refreshes(l, r.plain[key].record, key)
      && r.plain[key].field == FirstWithKey(l.RecordAt(r.plain[key].record), key, 0)
      && (forall m :: r.plain[key].record < m < n ==> !Refreshes(l, m, key))
  {
    if Refreshes(l, n - 1, key) {
      RefreshStepEnters(l, idx, n, key);
    } else {
      RefreshWinner(l, idx, n - 1, i, key);
      RefreshStepKeeps(l, idx, n, key);
    }
  }

  /** Refreshing record n-1 enters a name it uses at its first field of
      that name. */
  lemma RefreshStepEnters(l: Layout, idx: FieldNameIndex, n: nat, key: string)
    requires l.Valid() && 0 < n <= l.recordCount && Refreshes(l, n - 1, key)
    ensures key in Refresh(l, idx, n).plain
    ensures Refresh(l, idx, n).plain[key] == FieldRef(n - 1, FirstWithKey(l.RecordAt(n - 1), key, 0))
  {
    RefreshFieldsEntry(l, Refresh(l, idx, n - 1), n - 1, 0, key);
  }

  /** Record n-1 leaves a name it does not refresh as it was. */
  lemma RefreshStepKeeps(l: Layout, idx: FieldNameIndex, n: nat, key: string)
    requires l.Valid() && 0 < n <= l.recordCount && !Refreshes(l, n - 1, key)
    ensures key in Refresh(l, idx, n).plain <==> key in Refresh(l, idx, n - 1).plain
    ensures key in Refresh(l, idx, n - 1).plain ==>
      Refresh(l, idx, n).plain[key] == Refresh(l, idx, n - 1).plain[key]
  {
    if l.RecordAt(n - 1).fieldsAdded > 0 {
      RefreshFieldsKeeps(l, Refresh(l, idx, n - 1), n - 1, 0, key);
    }
  }

  /** The first build: every field of every record is entered under a
      fresh key and each record's added-field counter is reset. */
  function FirstBuild(l: Layout): (l': Layout)
    requires l.Valid()
    ensures l'.Valid() && l'.index.Some? && l'.recordCount == l.recordCount
    ensures forall i :: 0 <= i < l.recordCount ==> l'.RecordAt(i) == l.RecordAt(i).(fieldsAdded := 0)
    ensures Built(l, l'.index.value, FieldRefs(l, l.recordCount))
  {
    BuildIndexBuilt(l, FieldRefs(l, l.recordCount));
    ResetCounters(l, false).(index := Some(BuildIndex(l, FieldRefs(l, l.recordCount))))
  }

  /** The refresh of a build layout's existing index. */
  function RefreshIndex(l: Layout): (l': Layout)
    requires l.Valid() && l.index.Some?
    ensures l'.Valid() && l'.index.Some? && l'.recordCount == l.recordCount
    ensures forall i :: 0 <= i < l.recordCount ==>
      l'.RecordAt(i).fieldsAdded == if l.RecordAt(i).fieldsAdded > 0 then 0 else l.RecordAt(i).fieldsAdded
    ensures l'.index.value.lookupNames == l.index.value.lookupNames
  {
    ResetCounters(l, true).(index := Some(Refresh(l, l.index.value, l.recordCount)))
  }

  /** buildFieldNameMap: build the index on first use; afterwards only
      build layouts refresh it. */
  function BuildFieldNameMap(codes: Codes, l: Layout): (l': Layout)
    requires l.Valid()
    ensures l'.Valid() && l'.index.Some?
    ensures l.index.None? ==> l' == FirstBuild(l)
    ensures l.index.Some? ==> l' == if IsBuildLayout(codes, l) then RefreshIndex(l) else l
  {
    if l.index.None? then FirstBuild(l)
    else if IsBuildLayout(codes, l) then RefreshIndex(l)
    else l
  }

  /** getFieldFromName: the field stored under the upper-cased name, or
      null; the index is built first. */
  function GetFieldFromName(codes: Codes, l: Layout, name: string): (r: (Option<FieldRef>, Layout))
    requires l.Valid()
    ensures r.1 == BuildFieldNameMap(codes, l)
    ensures r.0.Some? <==> ToUpper(name) in r.1.index.value.plain
    ensures r.0.Some? ==> r.0.value == r.1.index.value.plain[ToUpper(name)]
  {
    var l' := BuildFieldNameMap(codes, l);
    var idx := l'.index.value;
    var key := ToUpper(name);
    (if key in idx.plain then Some(idx.plain[key]) else None, l')
  }

  /** After the first build, every field is found under its lookup name, in
      any letter case. */
  lemma LookupNameRoundTrip(codes: Codes, l: Layout, f: FieldRef, asked: string)
    requires l.Valid() && l.index.None? && IsRef(l, f)
    ensures var idx := FirstBuild(l).index.value;
      f in idx.lookupNames
      && (EqualsIgnoreCase(asked, idx.lookupNames[f]) ==> GetFieldFromName(codes, l, asked).0 == Some(f))
  {
    var idx := FirstBuild(l).index.value;
    FieldRefsComplete(l, l.recordCount, f);
    if EqualsIgnoreCase(asked, idx.lookupNames[f]) {
      EqualsIgnoreCaseIsUpperEquality(asked, idx.lookupNames[f]);
    }
  }

  /** On a build layout whose index exists, a name used by a record with
      added fields is found in the last such record, at its first field of
      that name; the counters of refreshed records are reset. */
  lemma RefreshedNameFound(codes: Codes, l: Layout, i: nat, asked: string)
    requires l.Valid() && l.index.Some? && IsBuildLayout(codes, l)
    requires i < l.recordCount && Refreshes(l, i, ToUpper(asked))
    ensures var (f, l') := GetFieldFromName(codes, l, asked);
      && f.Some?
      && i <= f.value.record < l.recordCount
      && Refreshes(l, f.value.record, ToUpper(asked))
      && f.value.field == FirstWithKey(l.RecordAt(f.value.record), ToUpper(asked), 0)
      && (forall m :: f.value.record < m < l.recordCount ==> !Refreshes(l, m, ToUpper(asked)))
      && l'.RecordAt(i).fieldsAdded == 0
  {
    RefreshWinner(l, l.index.value, l.recordCount, i, ToUpper(asked));
  }

  /** On a build layout, a name no record with added fields uses resolves as
      it did before the refresh. */
  lemma RefreshKeepsOtherNames(codes: Codes, l: Layout, asked: string)
    requires l.Valid() && l.index.Some? && IsBuildLayout(codes, l)
    requires forall i :: 0 <= i < l.recordCount ==> !Refreshes(l, i, ToUpper(asked))
    ensures var key := ToUpper(asked);
      GetFieldFromName(codes, l, asked).0 ==
        if key in l.index.value.plain then Some(l.index.value.plain[key]) else None
  {
    RefreshKeepsUntouched(l, l.index.value, l.recordCount, ToUpper(asked));
  }

  /** The first build gives distinct fields keys that differ even ignoring case. */
  lemma LookupNamesDistinct(l: Layout, f: FieldRef, g: FieldRef)
    requires l.Valid() && IsRef(l, f) && IsRef(l, g) && f != g
    ensures var idx := FirstBuild(l).index.value;
      f in idx.lookupNames && g in idx.lookupNames
      && !EqualsIgnoreCase(idx.lookupNames[f], idx.lookupNames[g])
  {
    var idx := FirstBuild(l).index.value;
    FieldRefsComplete(l, l.recordCount, f);
    FieldRefsComplete(l, l.recordCount, g);
    EqualsIgnoreCaseIsUpperEquality(idx.lookupNames[f], idx.lookupNames[g]);
  }

  /** The index holds exactly one key per field. */
  lemma IndexSizeIsFieldCount(l: Layout)
    requires l.Valid()
    ensures |FirstBuild(l).index.value.plain| == |FieldRefs(l, l.recordCount)|
  {
  }
}

=== FILE: fujitsu_vb_byte_reader.dfy ===
/** Record reading of Fujitsu COBOL variable-length files: every record is
    framed by a 4-byte record descriptor word (RDW) in front and another
    behind. The RDW holds the payload length, low byte first, followed by
    two zero bytes. */
module FujitsuVbByteReader {
  import opened Wrappers

  /** A byte, seen unsigned: the reader only compares bytes with zero and
      combines them into an unsigned length. */
  newtype byte = b: int | 0 <= b < 256

  /** The reader: whether it was opened, the bytes still to come, the RDW
      buffer (kept between calls, as the Java field is) and the line count. */
  datatype Reader = Reader(open: bool, stream: seq<byte>, rdw: seq<byte>, lineNumber: int)
  {
    predicate Valid() {
      |rdw| == 4
    }
  }

  datatype ReadError =
    | NotOpen                  // read before open
    | InvalidRdw(line: int)    // "Invalid Record Descriptor word at line n"
    | MissingTrailer           // "Line missing End of line length"

  /** A new reader: not open, a zeroed RDW buffer, line 0. */
  function NewReader(): (r: Reader)
    ensures r.Valid() && !r.open && r.lineNumber == 0
  {
    Reader(false, [], [0, 0, 0, 0], 0)
  }

  /** open: the stream to read from; the RDW buffer and line count stay. */
  function Open(r: Reader, input: seq<byte>): (r': Reader)
    ensures r'.open && r'.stream == input && r'.rdw == r.rdw && r'.lineNumber == r.lineNumber
  {
    r.(open := true, stream := input)
  }

  function Zeros(n: nat): (z: seq<byte>)
    ensures |z| == n && forall i :: 0 <= i < n ==> z[i] == 0
  {
    seq(n, _ => 0)
  }

  /** readBuffer: as many bytes as the buffer holds or the stream has left,
      copied over the front of the buffer; returns the count, the buffer
      and the rest of the stream. */
  function ReadBuffer(stream: seq<byte>, buf: seq<byte>): (r: (nat, seq<byte>, seq<byte>))
    ensures r.0 == if |stream| < |buf| then |stream| else |buf|
    ensures |r.1| == |buf| && r.1[..r.0] == stream[..r.0] && r.1[r.0..] == buf[r.0..]
    ensures r.2 == stream[r.0..]
  {
    var k := if |stream| < |buf| then |stream| else |buf|;
    (k, stream[..k] + buf[k..], stream[k..])
  }

  /** The payload length an RDW announces: byte 1 high, byte 0 low. */
  function RecordLength(rdw: seq<byte>): (n: nat)
    requires |rdw| == 4
    ensures n < 65536
  {
    rdw[1] as int * 256 + rdw[0] as int
  }

  /** read: the next record, or None at the end of the data. */
  function Read(r: Reader): (res: (Result<Option<seq<byte>>, ReadError>, Reader))
    requires r.Valid()
    ensures !r.open ==> res == (Err(NotOpen), r)
    ensures r.open ==> res.1.Valid() && res.1.open && res.1.lineNumber == r.lineNumber + 1
    ensures r.open ==> |res.1.stream| <= |r.stream| && res.1.stream == r.stream[|r.stream| - |res.1.stream|..]
    ensures res.0.Err? && res.0.error.InvalidRdw? ==> res.0.error.line == r.lineNumber + 1
    ensures res.0.Ok? && res.0.value.Some? ==> |res.1.stream| < |r.stream|
  {
    if !r.open then (Err(NotOpen), r)
    else
      var lineNumber := r.lineNumber + 1;
      var (count, rdw, rest) := ReadBuffer(r.stream, r.rdw);
      var state := Reader(true, rest, rdw, lineNumber);
      if count == 0 then (Ok(None), state)
      else if rdw[2] != 0 || rdw[3] != 0 then (Err(InvalidRdw(lineNumber)), state)
      else
        var (got, record, afterRecord) := ReadBuffer(rest, Zeros(RecordLength(rdw)));
        if got == 0 then (Ok(None), state.(stream := afterRecord))
        else
          var (trailer, rdw', afterTrailer) := ReadBuffer(afterRecord, rdw);
          var state' := Reader(true, afterTrailer, rdw', lineNumber);
          if trailer < 4 then (Err(MissingTrailer), state')
          else (Ok(Some(record)), state')
  }

  /** A record is read only from a whole frame: a header with zero upper
      bytes announcing the record's length, the record, and four more bytes. */
  lemma ReadRecordIsFramed(r: Reader)
    requires r.Valid() && Read(r).0.Ok? && Read(r).0.value.Some?
    ensures var (res, r') := Read(r); var p := res.value.value;
      && |r.stream| >= 8 + |p| && |p| > 0
      && r.stream[2] == 0 && r.stream[3] == 0
      && |p| == RecordLength(r.stream[..4])
      && p == r.stream[4..4 + |p|]
      && r'.stream == r.stream[8 + |p|..]
  {
    var (count, rdw, rest) := ReadBuffer(r.stream, r.rdw);
    assert count == 4 && rdw == r.stream[..4];
    var n := RecordLength(rdw);
    var (got, record, afterRecord) := ReadBuffer(rest, Zeros(n));
    assert got == n && record == rest[..n] && afterRecord == rest[n..];
    assert rest[..n] == r.stream[4..4 + n];
    var (trailer, rdw', afterTrailer) := ReadBuffer(afterRecord, rdw);
    assert trailer == 4 && afterTrailer == afterRecord[4..];
    assert afterRecord[4..] == r.stream[8 + n..];
  }

  // ---------------------------------------------------------------------
  // Framing

  /** The RDW for a payload of n bytes. */
  function Header(n: nat): (h: seq<byte>)
    requires n < 65536
    ensures |h| == 4 && RecordLength(h) == n && h[2] == 0 && h[3] == 0
  {
    [(n % 256) as byte, (n / 256) as byte, 0, 0]
  }

  /** A record as the file holds it. */
  function Frame(p: seq<byte>): seq<byte>
    requires |p| < 65536
  {
    Header(|p|) + p + Header(|p|)
  }

  /** Reading a framed record gives it back and moves past the frame. */
  lemma ReadFrame(r: Reader, p: seq<byte>, rest: seq<byte>)
    requires r.Valid() && r.open && 0 < |p| < 65536 && r.stream == Frame(p) + rest
    ensures var (res, r') := Read(r);
      res == Ok(Some(p)) && r'.stream == rest && r'.lineNumber == r.lineNumber + 1
  {
    var h := Header(|p|);
    var s := r.stream;
    assert s == h + (p + h + rest);
    var (count, rdw, after) := ReadBuffer(s, r.rdw);
    assert count == 4 && rdw == h && after == p + h + rest;
    var (got, record, afterRecord) := ReadBuffer(after, Zeros(|p|));
    assert got == |p| && record == p && afterRecord == h + rest;
    var (trailer, rdw', afterTrailer) := ReadBuffer(afterRecord, rdw);
    assert trailer == 4 && afterTrailer == rest;
  }

  /** Every record the file holds, framed one after the other. */
  function Frames(ps: seq<seq<byte>>): seq<byte>
    requires forall i :: 0 <= i < |ps| ==> |ps[i]| < 65536
  {
    if ps == [] then [] else Frame(ps[0]) + Frames(ps[1..])
  }

  /** Reading until the end of the data: the records, or the first error. */
  function ReadAll(r: Reader): (res: Result<seq<seq<byte>>, ReadError>)
    requires r.Valid() && r.open
    decreases |r.stream|
  {
    var (one, r') := Read(r);
    if one.Err? then Err(one.error)
    else if one.value.None? then Ok([])
    else
      var more := ReadAll(r');
      if more.Err? then more else Ok([one.value.value] + more.value)
  }

  /** The partner of the framing: a file of framed non-empty records reads
      back as exactly those records. */
  lemma {:induction false} ReadAllFrames(r: Reader, ps: seq<seq<byte>>)
    requires r.Valid() && r.open
    requires forall i :: 0 <= i < |ps| ==> 0 < |ps[i]| < 65536
    requires r.stream == Frames(ps)
    ensures ReadAll(r) == Ok(ps)
    decreases |ps|
  {
    if ps == [] {
      assert Read(r).0 == Ok(None);
    } else {
      ReadFrame(r, ps[0], Frames(ps[1..]));
      var r' := Read(r).1;
      ReadAllFrames(r', ps[1..]);
      assert ps == [ps[0]] + ps[1..];
    }
  }

  // ---------------------------------------------------------------------
  // Edge cases

  /** An RDW whose upper two bytes are not zero is refused, naming the line. */
  lemma BadRdwRejected(r: Reader)
    requires r.Valid() && r.open && |r.stream| >= 4 && (r.stream[2] != 0 || r.stream[3] != 0)
    ensures Read(r).0 == Err(InvalidRdw(r.lineNumber + 1))
  {
    assert ReadBuffer(r.stream, r.rdw).1 == r.stream[..4];
  }

  /** A zero length ends the data: nothing more is read, the trailer included. */
  lemma ZeroLengthEndsData(r: Reader, rest: seq<byte>)
    requires r.Valid() && r.open && r.stream == Header(0) + rest
    ensures Read(r).0 == Ok(None) && Read(r).1.stream == rest
  {
    assert r.stream[..4] == Header(0) && r.stream[4..] == rest;
  }

  /** A payload cut short is not noticed by itself: the trailer is then
      missing. */
  lemma ShortPayloadMissesTrailer(r: Reader, n: nat, p: seq<byte>)
    requires r.Valid() && r.open && n < 65536 && 0 < |p| < n && r.stream == Header(n) + p
    ensures Read(r).0 == Err(MissingTrailer)
  {
    assert r.stream[..4] == Header(n) && r.stream[4..] == p;
  }

  /** The trailer is consumed but never inspected: any four bytes after a
      full payload complete the record. */
  lemma AnyTrailerAccepted(r: Reader, p: seq<byte>, t: seq<byte>, rest: seq<byte>)
    requires r.Valid() && r.open && 0 < |p| < 65536 && |t| == 4
    requires r.stream == Header(|p|) + p + t + rest
    ensures Read(r).0 == Ok(Some(p)) && Read(r).1.stream == rest
  {
    var h := Header(|p|);
    var s := r.stream;
    assert s == h + (p + t + rest);
    var (count, rdw, after) := ReadBuffer(s, r.rdw);
    assert count == 4 && rdw == h && after == p + t + rest;
    var (got, record, afterRecord) := ReadBuffer(after, Zeros(|p|));
    assert got == |p| && record == p && afterRecord == t + rest;
    var (trailer, rdw', afterTrailer) := ReadBuffer(afterRecord, rdw);
    assert trailer == 4 && afterTrailer == rest;
  }

  /** A full payload followed by fewer than four bytes is refused: the
      trailer is missing. */
  lemma ShortTrailerRefused(r: Reader, p: seq<byte>, t: seq<byte>)
    requires r.Valid() && r.open && 0 < |p| < 65536 && |t| < 4
    requires r.stream == Header(|p|) + p + t
    ensures Read(r).0 == Err(MissingTrailer)
  {
    var s := r.stream;
    assert s[..4] == Header(|p|) && s[4..] == p + t;
    assert (p + t)[..|p|] == p && (p + t)[|p|..] == t;
  }

  /** A header cut short is completed with the bytes the last RDW left in
      the buffer; it never yields a record, as the stream is then empty. */
  lemma PartialHeader(r: Reader)
    requires r.Valid() && r.open && 0 < |r.stream| < 4
    ensures var rdw := r.stream + r.rdw[|r.stream|..];
      Read(r).0 == if rdw[2] != 0 || rdw[3] != 0 then Err(InvalidRdw(r.lineNumber + 1)) else Ok(None)
  {
  }
}

=== FILE: java_strings.dfy ===
/** The few java.lang.String operations the core relies on, on `seq<char>`.
    Case mapping is the ASCII one: letters 'a'..'z' and 'A'..'Z' map onto each
    other and every other character is left alone. */
module JavaStrings {

  function UpperChar(c: char): char {
    if 'a' <= c <= 'z' then (c as int - 32) as char else c
  }

  function LowerChar(c: char): char {
    if 'A' <= c <= 'Z' then (c as int + 32) as char else c
  }

  /** String.toUpperCase (ASCII mapping). */
  function ToUpper(s: string): (r: string)
    ensures |r| == |s|
    ensures forall i :: 0 <= i < |s| ==> r[i] == UpperChar(s[i])
  {
    if |s| == 0 then "" else [UpperChar(s[0])] + ToUpper(s[1..])
  }

  /** String.toLowerCase (ASCII mapping). */
  function ToLower(s: string): (r: string)
    ensures |r| == |s|
    ensures forall i :: 0 <= i < |s| ==> r[i] == LowerChar(s[i])
  {
    if |s| == 0 then "" else [LowerChar(s[0])] + ToLower(s[1..])
  }

  /** Upper-casing distributes over concatenation. */
  lemma ToUpperAppend(a: string, b: string)
    ensures ToUpper(a + b) == ToUpper(a) + ToUpper(b)
  {
    assert forall i :: 0 <= i < |a + b| ==> ToUpper(a + b)[i] == (ToUpper(a) + ToUpper(b))[i];
  }

  /** String.equalsIgnoreCase: equal lengths and equal characters after case mapping. */
  predicate EqualsIgnoreCase(a: string, b: string) {
    |a| == |b| && forall i :: 0 <= i < |a| ==> UpperChar(a[i]) == UpperChar(b[i])
  }

  lemma EqualsIgnoreCaseIsUpperEquality(a: string, b: string)
    ensures EqualsIgnoreCase(a, b) <==> ToUpper(a) == ToUpper(b)
  {
    if ToUpper(a) == ToUpper(b) {
      assert forall i :: 0 <= i < |a| ==> UpperChar(a[i]) == ToUpper(a)[i];
    }
  }

  predicate StartsWith(s: string, p: string) {
    |p| <= |s| && s[..|p|] == p
  }

  predicate EndsWith(s: string, p: string) {
    |p| <= |s| && s[|s| - |p|..] == p
  }

  /** `p` occurs in `s` at position `k`. */
  predicate OccursAt(s: string, p: string, k: int) {
    0 <= k && k + |p| <= |s| && s[k..k + |p|] == p
  }

  /** String.indexOf(p, from): the first occurrence at or after `from`
      (a negative `from` counts as 0), or -1. */
  function IndexOf(s: string, p: string, from: int): (r: int)
    ensures r == -1 || (OccursAt(s, p, r) && (from <= r || r == 0))
    ensures r == -1 ==> forall k :: 0 <= k && from <= k ==> !OccursAt(s, p, k)
    ensures r >= 0 ==> forall k :: 0 <= k < r && from <= k ==> !OccursAt(s, p, k)
    decreases if from < 0 then |s| + 1 else |s| - from
  {
    if from < 0 then IndexOf(s, p, 0)
    else if from + |p| > |s| then -1
    else if s[from..from + |p|] == p then from
    else IndexOf(s, p, from + 1)
  }

  /** String.indexOf(p) >= 0. */
  predicate Contains(s: string, p: string) {
    IndexOf(s, p, 0) >= 0
  }

  lemma ContainsIff(s: string, p: string)
    ensures Contains(s, p) <==> exists k :: OccursAt(s, p, k)
  {
  }

  /** Searching from an occurrence finds that occurrence. */
  lemma IndexOfAtOccurrence(s: string, p: string, k: int)
    requires OccursAt(s, p, k)
    ensures IndexOf(s, p, k) == k
  {
  }

  lemma ContainsChar(s: string, c: char)
    ensures Contains(s, [c]) <==> c in s
  {
    if c in s {
      var k :| 0 <= k < |s| && s[k] == c;
      assert OccursAt(s, [c], k);
    }
    if Contains(s, [c]) {
      var k := IndexOf(s, [c], 0);
      assert s[k..k + 1] == [c];
      assert s[k] == c;
    }
  }

  /** Characters String.trim removes: everything up to and including ' '. */
  predicate IsTrimmable(c: char) {
    c <= ' '
  }

  function TrimLeft(s: string): (r: string)
    ensures |r| <= |s| && r == s[|s| - |r|..]
    ensures |r| > 0 ==> !IsTrimmable(r[0])
    ensures forall i :: 0 <= i < |s| - |r| ==> IsTrimmable(s[i])
  {
    if |s| > 0 && IsTrimmable(s[0]) then TrimLeft(s[1..]) else s
  }

  function TrimRight(s: string): (r: string)
    ensures |r| <= |s| && r == s[..|r|]
    ensures |r| > 0 ==> !IsTrimmable(r[|r| - 1])
    ensures forall i :: |r| <= i < |s| ==> IsTrimmable(s[i])
  {
    if |s| > 0 && IsTrimmable(s[|s| - 1]) then TrimRight(s[..|s| - 1]) else s
  }

  /** String.trim: drop the characters <= ' ' at both ends. */
  function Trim(s: string): string {
    TrimRight(TrimLeft(s))
  }

  lemma TrimOfUntrimmable(s: string)
    requires |s| > 0 ==> !IsTrimmable(s[0]) && !IsTrimmable(s[|s| - 1])
    ensures Trim(s) == s
  {
  }

  /** The character of a decimal digit. */
  function DigitChar(d: nat): (c: char)
    requires d < 10
    ensures '0' <= c <= '9'
  {
    (48 + d) as char
  }

  /** Integer.toString for non-negative values. */
  function Decimal(n: nat): (r: string)
    ensures |r| >= 1
    ensures (|r| == 1) == (n < 10)
    ensures forall i :: 0 <= i < |r| ==> '0' <= r[i] <= '9'
  {
    if n < 10 then [DigitChar(n)] else Decimal(n / 10) + [DigitChar(n % 10)]
  }

  lemma {:induction false} DecimalInjective(a: nat, b: nat)
    requires Decimal(a) == Decimal(b)
    ensures a == b
  {
    if a >= 10 && b >= 10 {
      var da, db := Decimal(a), Decimal(b);
      assert da[|da| - 1] == DigitChar(a % 10);
      assert db[|db| - 1] == DigitChar(b % 10);
      assert Decimal(a / 10) == da[..|da| - 1] == db[..|db| - 1] == Decimal(b / 10);
      DecimalInjective(a / 10, b / 10);
      assert a % 10 == b % 10;
    } else if a < 10 && b < 10 {
      assert Decimal(a)[0] == DigitChar(a);
    }
  }

  lemma ToUpperOfDigits(s: string)
    requires forall i :: 0 <= i < |s| ==> '0' <= s[i] <= '9'
    ensures ToUpper(s) == s
  {
  }

  function Pow10(e: nat): (r: nat)
    ensures r >= 1
  {
    if e == 0 then 1 else 10 * Pow10(e - 1)
  }

  lemma {:induction false} Pow10Monotone(a: nat, b: nat)
    requires a <= b
    ensures Pow10(a) <= Pow10(b)
    decreases b
  {
    if a < b {
      Pow10Monotone(a, b - 1);
    }
  }

  /** A number is below ten to the power of its digit count. */
  lemma {:induction false} DecimalBound(n: nat)
    ensures n < Pow10(|Decimal(n)|)
  {
    if n >= 10 {
      DecimalBound(n / 10);
      assert |Decimal(n)| == |Decimal(n / 10)| + 1;
    }
  }
}

=== FILE: layout_detail.dfy ===
/** LayoutDetail: the schema of a file, an ordered sequence of records with
    the flags derived from them at construction. */
module LayoutDetail {
  import opened Wrappers
  import opened NullableArrays
  import opened JavaStrings
  import opened Constants
  import opened RecordDetail

  /** A field, addressed by record index and field index (the lookup index
      holds these instead of object references). */
  datatype FieldRef = FieldRef(record: nat, field: nat)

  /** The lazily built lookup index: upper-cased unique name to field,
      "RecordName.UPPERNAME" to field, and the lookup name given to each field. */
  datatype FieldNameIndex = FieldNameIndex(
    plain: map<string, FieldRef>,
    qualified: map<string, FieldRef>,
    lookupNames: map<FieldRef, string>)

  /** The records array keeps its capacity: `slots` may hold nulls after
      `recordCount`. */
  datatype Layout = Layout(
    name: string,
    layoutType: int,
    fontName: string,
    multiByteCharset: bool,
    slots: seq<Option<Record>>,
    recordCount: nat,
    fileStructure: int,
    delimiter: string,
    binary: bool,
    treeStructure: bool,
    csvLayout: bool,
    index: Option<FieldNameIndex>)
  {
    predicate Valid() {
      && NonNullPrefix(slots, recordCount)
      && forall i :: 0 <= i < recordCount ==> slots[i].value.Valid()
    }

    function RecordAt(i: nat): Record
      requires Valid() && i < recordCount
    {
      slots[i].value
    }
  }

  datatype LayoutError =
    | NullRecord
    | DelimiterConflict(first: string, second: string)
    | IndexOutOfBounds

  /** Every non-null record in the input was built by the RecordDetail constructor. */
  predicate RecordsValid(recs: seq<Option<Record>>) {
    forall i :: 0 <= i < |recs| && recs[i].Some? ==> recs[i].value.Valid()
  }

  // ---------------------------------------------------------------------
  // The shared delimiter, CSV and tree flags

  /** The delimiters the constructor compares: those of delimited records
      that have at least one field, in record order. */
  function DelimiterList(codes: Codes, recs: seq<Option<Record>>, n: nat): (ds: seq<string>)
    requires NonNullPrefix(recs, n)
    ensures |ds| <= n
  {
    if n == 0 then []
    else
      var r := recs[n - 1].value;
      DelimiterList(codes, recs, n - 1) + (if codes.IsDelimitedType(r.recordType) && r.fieldCount > 0 then [r.delimiter] else [])
  }

  /** The first non-empty delimiter, or "". */
  function FirstNonEmpty(ds: seq<string>): string {
    if |ds| == 0 then ""
    else if ds[0] != "" then ds[0]
    else FirstNonEmpty(ds[1..])
  }

  /** Once a non-empty delimiter has been seen, every later one equals it. */
  predicate Consistent(ds: seq<string>) {
    forall i, j :: 0 <= i < j < |ds| && ds[i] != "" ==> ds[j] == ds[i]
  }

  lemma {:induction false} FirstNonEmptyAppend(ds: seq<string>, d: string)
    ensures FirstNonEmpty(ds + [d]) == if FirstNonEmpty(ds) == "" then d else FirstNonEmpty(ds)
  {
    if |ds| > 0 {
      assert (ds + [d])[1..] == ds[1..] + [d];
      FirstNonEmptyAppend(ds[1..], d);
    }
  }

  lemma {:induction false} FirstNonEmptyIsFirst(ds: seq<string>)
    ensures FirstNonEmpty(ds) == "" <==> forall i :: 0 <= i < |ds| ==> ds[i] == ""
    ensures FirstNonEmpty(ds) != "" ==> exists i :: 0 <= i < |ds| && ds[i] == FirstNonEmpty(ds)
  {
    if |ds| > 0 {
      FirstNonEmptyIsFirst(ds[1..]);
      if FirstNonEmpty(ds) != "" && ds[0] == "" {
        var i :| 0 <= i < |ds[1..]| && ds[1..][i] == FirstNonEmpty(ds[1..]);
        assert ds[i + 1] == FirstNonEmpty(ds);
      }
    }
  }

  lemma ConsistentAppend(ds: seq<string>, d: string)
    ensures Consistent(ds + [d]) <==> Consistent(ds) && (FirstNonEmpty(ds) == "" || d == FirstNonEmpty(ds))
  {
    FirstNonEmptyIsFirst(ds);
    var e := ds + [d];
    if Consistent(ds) && FirstNonEmpty(ds) != "" && d != FirstNonEmpty(ds) {
      var i :| 0 <= i < |ds| && ds[i] == FirstNonEmpty(ds);
      assert e[i] != "" && e[|ds|] != e[i];
    }
    if Consistent(ds) && (FirstNonEmpty(ds) == "" || d == FirstNonEmpty(ds)) {
      forall i, j | 0 <= i < j < |e| && e[i] != "" ensures e[j] == e[i] {
        if j == |ds| {
          var k :| 0 <= k < |ds| && ds[k] == FirstNonEmpty(ds);
          if k != i {
            assert ds[k] != "";
            if k < i { assert ds[i] == ds[k]; } else { assert ds[k] == ds[i]; }
          }
        }
      }
    }
    if Consistent(e) {
      assert forall i, j :: 0 <= i < j < |ds| ==> ds[i] == e[i] && ds[j] == e[j];
    }
  }

  datatype ScanState = ScanState(delimiter: string, csv: bool, tree: bool)

  /** One iteration of the constructor's second loop. */
  function ScanStep(codes: Codes, st: ScanState, slot: Option<Record>): Result<ScanState, LayoutError> {
    if slot.None? then Err(NullRecord)
    else
      var r := slot.value;
      var csv := st.csv || codes.IsDelimitedType(r.recordType);
      if r.fieldCount > 0 then
        var tree := st.tree || r.parentRecordIndex >= 0;
        if codes.IsDelimitedType(r.recordType) && st.delimiter != r.delimiter then
          if st.delimiter == "" then Ok(ScanState(r.delimiter, csv, tree))
          else Err(DelimiterConflict(st.delimiter, r.delimiter))
        else Ok(ScanState(st.delimiter, csv, tree))
      else Ok(ScanState(st.delimiter, csv, st.tree))
  }

  ghost predicate HasDelimitedRecord(codes: Codes, recs: seq<Option<Record>>, n: nat)
    requires NonNullPrefix(recs, n)
  {
    exists i :: 0 <= i < n && codes.IsDelimitedType(recs[i].value.recordType)
  }

  ghost predicate HasChildRecord(recs: seq<Option<Record>>, n: nat)
    requires NonNullPrefix(recs, n)
  {
    exists i :: 0 <= i < n && recs[i].value.fieldCount > 0 && recs[i].value.parentRecordIndex >= 0
  }

  /** The constructor's second loop over the first `n` records: it throws on
      a null record and on a second, different delimiter; otherwise it yields
      the first non-empty delimiter and the CSV and tree flags. */
  function ScanRecords(codes: Codes, recs: seq<Option<Record>>, n: nat): (r: Result<ScanState, LayoutError>)
    requires n <= |recs|
    ensures !NonNullPrefix(recs, n) ==> r.Err?
    ensures NonNullPrefix(recs, n) ==> (r.Ok? <==> Consistent(DelimiterList(codes, recs, n)))
    ensures NonNullPrefix(recs, n) && r.Err? ==> r.error.DelimiterConflict?
    ensures r.Ok? ==> r.value.delimiter == FirstNonEmpty(DelimiterList(codes, recs, n))
  {
    if n == 0 then Ok(ScanState("", false, false))
    else
      var prev := ScanRecords(codes, recs, n - 1);
      var res := if prev.Err? then prev else ScanStep(codes, prev.value, recs[n - 1]);
      if NonNullPrefix(recs, n) then
        var r := recs[n - 1].value;
        var ds := DelimiterList(codes, recs, n - 1);
        if codes.IsDelimitedType(r.recordType) && r.fieldCount > 0 then
          assert DelimiterList(codes, recs, n) == ds + [r.delimiter];
          ConsistentAppend(ds, r.delimiter);
          FirstNonEmptyAppend(ds, r.delimiter);
          res
        else
          assert DelimiterList(codes, recs, n) == ds;
          res
      else res
  }

  lemma HasRecordStep(codes: Codes, recs: seq<Option<Record>>, n: nat)
    requires 0 < n && NonNullPrefix(recs, n)
    ensures HasDelimitedRecord(codes, recs, n) <==>
      HasDelimitedRecord(codes, recs, n - 1) || codes.IsDelimitedType(recs[n - 1].value.recordType)
    ensures HasChildRecord(recs, n) <==>
      HasChildRecord(recs, n - 1) || (recs[n - 1].value.fieldCount > 0 && recs[n - 1].value.parentRecordIndex >= 0)
  {
  }

  /** On success the scan's CSV flag says whether some record is delimited. */
  lemma {:induction false} ScanRecordsCsvFlag(codes: Codes, recs: seq<Option<Record>>, n: nat)
    requires n <= |recs| && ScanRecords(codes, recs, n).Ok?
    ensures NonNullPrefix(recs, n)
    ensures ScanRecords(codes, recs, n).value.csv <==> HasDelimitedRecord(codes, recs, n)
  {
    if n > 0 {
      ScanRecordsCsvFlag(codes, recs, n - 1);
      HasRecordStep(codes, recs, n);
    }
  }

  /** On success the scan's tree flag says whether some record with fields
      has a parent record. */
  lemma {:induction false} ScanRecordsTreeFlag(codes: Codes, recs: seq<Option<Record>>, n: nat)
    requires n <= |recs| && ScanRecords(codes, recs, n).Ok?
    ensures NonNullPrefix(recs, n)
    ensures ScanRecords(codes, recs, n).value.tree <==> HasChildRecord(recs, n)
  {
    if n > 0 {
      ScanRecordsTreeFlag(codes, recs, n - 1);
      HasRecordStep(codes, recs, n);
    }
  }

  // ---------------------------------------------------------------------
  // The binary flag

  predicate HasBinaryField(r: Record, isBinaryType: int -> bool)
    requires r.Valid()
  {
    exists j :: 0 <= j < r.fieldCount && isBinaryType(r.FieldAt(j).typeId)
  }

  /** The constructor's first loop, for group and record layouts: stop at the
      first binary field; a null record reached before that throws. */
  function ScanBinary(recs: seq<Option<Record>>, j: nat, n: nat, isBinaryType: int -> bool): (r: Result<bool, LayoutError>)
    requires n <= |recs| && RecordsValid(recs)
    ensures NonNullPrefix(recs, n) ==> r == Ok(exists i :: j <= i < n && HasBinaryField(recs[i].value, isBinaryType))
    decreases n - j
  {
    if j >= n then Ok(false)
    else if recs[j].None? then Err(NullRecord)
    else if HasBinaryField(recs[j].value, isBinaryType) then Ok(true)
    else
      ScanBinary(recs, j + 1, n, isBinaryType)
  }

  predicate IsBinaryLayoutType(codes: Codes, layoutType: int) {
    layoutType == codes.rtGroupOfBinaryRecords || layoutType == codes.rtFixedLengthRecords
    || layoutType == codes.rtBinaryRecord
  }

  predicate IsGroupLayoutType(codes: Codes, layoutType: int) {
    layoutType == codes.rtGroupOfRecords || layoutType == codes.rtRecordLayout
  }

  function BinaryFlag(codes: Codes, layoutType: int, recs: seq<Option<Record>>, n: nat, isBinaryType: int -> bool): (r: Result<bool, LayoutError>)
    requires n <= |recs| && RecordsValid(recs)
    ensures NonNullPrefix(recs, n) ==> r.Ok?
    ensures r.Ok? && IsBinaryLayoutType(codes, layoutType) ==> r.value
    ensures r.Ok? && NonNullPrefix(recs, n) && !IsBinaryLayoutType(codes, layoutType) ==>
      (r.value <==> IsGroupLayoutType(codes, layoutType) && exists i :: 0 <= i < n && HasBinaryField(recs[i].value, isBinaryType))
  {
    if IsBinaryLayoutType(codes, layoutType) then Ok(true)
    else if IsGroupLayoutType(codes, layoutType) then
      (if n >= 1 then ScanBinary(recs, 0, n, isBinaryType) else Ok(false))
    else Ok(false)
  }

  // ---------------------------------------------------------------------
  // Construction

  /** The LayoutDetail constructor (record separator and end-of-line string
      left out). `isMultiByte` stands for Conversion.isMultiByte. */
  function NewLayout(codes: Codes, name: string, recs: seq<Option<Record>>, layoutType: int,
                     fontName: Option<string>, isMultiByte: string -> bool,
                     isBinaryType: int -> bool, fileStructure: int): (r: Result<Layout, LayoutError>)
    requires RecordsValid(recs)
    ensures var n := CountBeforeTrailingNulls(recs);
      r.Ok? <==> NonNullPrefix(recs, n) && Consistent(DelimiterList(codes, recs, n))
    ensures r.Ok? ==> var l := r.value; var n := CountBeforeTrailingNulls(recs);
      && l.Valid()
      && l.name == name && l.layoutType == layoutType
      && l.slots == recs
      // the count is the input length minus the trailing nulls
      && l.recordCount == n
      && (forall k :: n <= k < |recs| ==> recs[k].None?)
      && (n == 0 || recs[n - 1].Some?)
      && l.fontName == (if fontName.None? then "" else fontName.value)
      && l.multiByteCharset == isMultiByte(l.fontName)
      && l.fileStructure == fileStructure
      && l.delimiter == FirstNonEmpty(DelimiterList(codes, recs, n))
      && (l.binary <==> IsBinaryLayoutType(codes, layoutType)
                        || (IsGroupLayoutType(codes, layoutType) && exists i :: 0 <= i < n && HasBinaryField(recs[i].value, isBinaryType)))
      && (l.treeStructure <==> HasChildRecord(recs, n))
      && (l.csvLayout <==> HasDelimitedRecord(codes, recs, n))
      && l.index.None?
    ensures r.Err? && NonNullPrefix(recs, CountBeforeTrailingNulls(recs)) ==> r.error.DelimiterConflict?
  {
    var n := CountBeforeTrailingNulls(recs);
    var font := if fontName.None? then "" else fontName.value;
    var bin := BinaryFlag(codes, layoutType, recs, n, isBinaryType);
    if bin.Err? then
      Err(bin.error)
    else
      var scan := ScanRecords(codes, recs, n);
      if scan.Err? then Err(scan.error)
      else
        ScanRecordsCsvFlag(codes, recs, n);
        ScanRecordsTreeFlag(codes, recs, n);
        Ok(Layout(name, layoutType, font, isMultiByte(font), recs, n, fileStructure,
                  scan.value.delimiter, bin.value, scan.value.tree, scan.value.csv, None))
  }

  /** A fixed-length layout is binary whatever its field types. */
  lemma FixedLengthLayoutIsBinary(codes: Codes, name: string, recs: seq<Option<Record>>,
                                  fontName: Option<string>, isMultiByte: string -> bool,
                                  isBinaryType: int -> bool, fileStructure: int)
    requires RecordsValid(recs)
    requires NewLayout(codes, name, recs, codes.rtFixedLengthRecords, fontName, isMultiByte, isBinaryType, fileStructure).Ok?
    ensures NewLayout(codes, name, recs, codes.rtFixedLengthRecords, fontName, isMultiByte, isBinaryType, fileStructure).value.binary
  {
  }

  /** Giving a record with fields a parent index (0 or more) makes the
      layout built over it a tree. */
  lemma ParentMakesTree(codes: Codes, name: string, recs: seq<Option<Record>>, i: nat, parent: int,
                        layoutType: int, fontName: Option<string>, isMultiByte: string -> bool,
                        isBinaryType: int -> bool, fileStructure: int)
    requires i < |recs| && recs[i].Some? && recs[i].value.fieldCount > 0 && parent >= 0
    requires RecordsValid(recs[i := Some(SetParentRecordIndex(recs[i].value, parent))])
    requires NewLayout(codes, name, recs[i := Some(SetParentRecordIndex(recs[i].value, parent))], layoutType,
                       fontName, isMultiByte, isBinaryType, fileStructure).Ok?
    ensures NewLayout(codes, name, recs[i := Some(SetParentRecordIndex(recs[i].value, parent))], layoutType,
                      fontName, isMultiByte, isBinaryType, fileStructure).value.treeStructure
  {
    var recs' := recs[i := Some(SetParentRecordIndex(recs[i].value, parent))];
    var n := CountBeforeTrailingNulls(recs');
    assert recs'[i].Some?;
    assert i < n;
    assert recs'[i].value.fieldCount > 0 && recs'[i].value.parentRecordIndex >= 0;
  }

  /** Two delimited records with fields and different non-empty delimiters
      always make construction fail. */
  lemma ConflictingDelimitersFail(codes: Codes, recs: seq<Option<Record>>, i: nat, j: nat)
    requires RecordsValid(recs) && NonNullPrefix(recs, CountBeforeTrailingNulls(recs))
    requires i < j < CountBeforeTrailingNulls(recs)
    requires var a, b := recs[i].value, recs[j].value;
      && codes.IsDelimitedType(a.recordType) && a.fieldCount > 0 && a.delimiter != ""
      && codes.IsDelimitedType(b.recordType) && b.fieldCount > 0 && b.delimiter != a.delimiter
    ensures !Consistent(DelimiterList(codes, recs, CountBeforeTrailingNulls(recs)))
  {
    var n := CountBeforeTrailingNulls(recs);
    var pi := DelimiterListPosition(codes, recs, n, i);
    var pj := DelimiterListPosition(codes, recs, n, j);
    DelimiterListMonotone(codes, recs, n, i, j);
  }

  /** A delimited record with fields appears in the delimiter list. */
  lemma {:induction false} DelimiterListPosition(codes: Codes, recs: seq<Option<Record>>, n: nat, i: nat) returns (p: nat)
    requires NonNullPrefix(recs, n) && i < n
    requires codes.IsDelimitedType(recs[i].value.recordType) && recs[i].value.fieldCount > 0
    ensures p < |DelimiterList(codes, recs, n)| && DelimiterList(codes, recs, n)[p] == recs[i].value.delimiter
    ensures p == |DelimiterList(codes, recs, i)|
  {
    if i == n - 1 {
      p := |DelimiterList(codes, recs, n - 1)|;
    } else {
      p := DelimiterListPosition(codes, recs, n - 1, i);
    }
  }

  lemma {:induction false} DelimiterListMonotone(codes: Codes, recs: seq<Option<Record>>, n: nat, i: nat, j: nat)
    requires NonNullPrefix(recs, n) && i < j <= n
    requires codes.IsDelimitedType(recs[i].value.recordType) && recs[i].value.fieldCount > 0
    ensures |DelimiterList(codes, recs, i)| < |DelimiterList(codes, recs, j)|
    decreases j
  {
    if j > i + 1 {
      DelimiterListMonotone(codes, recs, n, i, j - 1);
    }
  }

  // ---------------------------------------------------------------------
  // Records

  /** addRecord: grow the array by 5 when full and store the record at
      `recordCount`. None of the construction-time flags is recomputed and
      the lookup index is left as it is. */
  function AddRecord(l: Layout, rec: Record): (l': Layout)
    requires l.Valid() && rec.Valid()
    ensures l'.Valid()
    ensures l'.recordCount == l.recordCount + 1
    ensures l'.RecordAt(l.recordCount) == rec
    ensures forall i :: 0 <= i < l.recordCount ==> l'.RecordAt(i) == l.RecordAt(i)
    ensures |l'.slots| == if l.recordCount < |l.slots| then |l.slots| else l.recordCount + 5
    ensures forall i :: l'.recordCount <= i < |l'.slots| ==> l'.slots[i] == if i < |l.slots| then l.slots[i] else None
    ensures l' == l.(slots := l'.slots, recordCount := l'.recordCount)
  {
    var slots := if l.recordCount >= |l.slots| then l.slots + Nulls(5) else l.slots;
    l.(slots := slots[l.recordCount := Some(rec)], recordCount := l.recordCount + 1)
  }

  /** getRecord: null for a negative index or an empty array, else the slot
      (which may be null past the record count). */
  function GetRecord(l: Layout, i: int): (r: Result<Option<Record>, LayoutError>)
    ensures i < 0 || |l.slots| == 0 ==> r == Ok(None)
    ensures 0 <= i && |l.slots| <= i && |l.slots| > 0 ==> r == Err(IndexOutOfBounds)
    ensures 0 <= i < |l.slots| ==> r == Ok(l.slots[i])
  {
    if i < 0 || |l.slots| == 0 then Ok(None)
    else if i >= |l.slots| then Err(IndexOutOfBounds)
    else Ok(l.slots[i])
  }

  function FirstRecordNamed(l: Layout, name: string, from: nat): (k: int)
    requires l.Valid() && from <= l.recordCount
    ensures k == -1 || (from <= k < l.recordCount && EqualsIgnoreCase(name, l.RecordAt(k).name))
    ensures forall i :: from <= i < l.recordCount && (k == -1 || i < k) ==> !EqualsIgnoreCase(name, l.RecordAt(i).name)
    decreases l.recordCount - from
  {
    if from == l.recordCount then -1
    else if EqualsIgnoreCase(name, l.RecordAt(from).name) then from
    else FirstRecordNamed(l, name, from + 1)
  }

  /** getRecordIndex: the first record whose name matches ignoring case, or
      NULL_INTEGER. */
  function GetRecordIndex(codes: Codes, l: Layout, name: Option<string>): (k: int)
    requires l.Valid()
    ensures k == codes.nullInteger || (0 <= k < l.recordCount && name.Some? && EqualsIgnoreCase(name.value, l.RecordAt(k).name))
    ensures name.Some? && 0 <= k < l.recordCount ==> forall i :: 0 <= i < k ==> !EqualsIgnoreCase(name.value, l.RecordAt(i).name)
    ensures name.Some? && (exists i :: 0 <= i < l.recordCount && EqualsIgnoreCase(name.value, l.RecordAt(i).name)) ==> 0 <= k < l.recordCount
    ensures name.None? ==> k == codes.nullInteger
  {
    if name.None? then codes.nullInteger
    else
      var k := FirstRecordNamed(l, name.value, 0);
      if k < 0 then codes.nullInteger else k
  }

  function MaxLengthOf(slots: seq<Option<Record>>, n: nat): (m: int)
    requires NonNullPrefix(slots, n)
    ensures m >= 0
    ensures forall i :: 0 <= i < n ==> slots[i].value.length <= m
    ensures m == 0 || exists i :: 0 <= i < n && slots[i].value.length == m
  {
    if n == 0 then 0
    else
      var m := MaxLengthOf(slots, n - 1);
      var len := slots[n - 1].value.length;
      if m >= len then m else len
  }

  /** getMaximumRecordLength: the largest record length among the first
      `recordCount` records, or 0. */
  function GetMaximumRecordLength(l: Layout): (m: int)
    requires l.Valid()
    ensures m >= 0
    ensures forall i :: 0 <= i < l.recordCount ==> l.RecordAt(i).length <= m
    ensures m == 0 || exists i :: 0 <= i < l.recordCount && l.slots[i].value.length == m
  {
    MaxLengthOf(l.slots, l.recordCount)
  }

  // ---------------------------------------------------------------------
  // File structure

  /** isBinCSV: a delimiter longer than 3 characters that starts with x'
      (either case) names a hex byte. */
  predicate IsBinCsvDelimiter(d: string)
    ensures IsBinCsvDelimiter(d) <==> |d| > 3 && (d[0] == 'x' || d[0] == 'X') && d[1] == '\''
  {
    |d| > 3 && StartsWith(ToLower(d), "x'")
  }

  predicate IsBinCSV(l: Layout) {
    IsBinCsvDelimiter(l.delimiter)
  }

  predicate HasFontName(l: Layout) {
    l.fontName != ""
  }

  /** checkTextType: bin-text for a hex delimiter, unicode-text for a
      multi-byte charset, text-line for a named charset, else bin-text. */
  function CheckTextType(codes: Codes, l: Layout): (r: int)
    ensures r == codes.ioBinText || r == codes.ioUnicodeText || r == codes.ioTextLine
    ensures IsBinCSV(l) ==> r == codes.ioBinText
    ensures !IsBinCSV(l) && l.multiByteCharset ==> r == codes.ioUnicodeText
    ensures !IsBinCSV(l) && !l.multiByteCharset && HasFontName(l) ==> r == codes.ioTextLine
    ensures !IsBinCSV(l) && !l.multiByteCharset && !HasFontName(l) ==> r == codes.ioBinText
  {
    if IsBinCSV(l) then codes.ioBinText
    else if l.multiByteCharset then codes.ioUnicodeText
    else if HasFontName(l) then codes.ioTextLine
    else codes.ioBinText
  }

  /** getFileStructure: the priority cascade over the declared structure.
      The comparison with IO_TEXT_LINE is on the codes' integer values. */
  function GetFileStructure(codes: Codes, l: Layout): (r: int)
    ensures r == l.fileStructure || r in {codes.ioBinName1stLine, codes.ioBinText, codes.ioUnicodeText,
                                          codes.ioTextLine, codes.ioBinary, codes.ioFixedLength}
  {
    if l.fileStructure == codes.ioName1stLine && IsBinCSV(l) then codes.ioBinName1stLine
    else if l.fileStructure > codes.ioTextLine then l.fileStructure
    else if l.fileStructure == codes.ioTextLine then CheckTextType(codes, l)
    else if l.layoutType == codes.rtGroupOfBinaryRecords && l.recordCount > 1 then codes.ioBinary
    else if l.binary then codes.ioFixedLength
    else if IsBinCSV(l) then codes.ioBinText
    else if HasFontName(l) then codes.ioTextLine
    else CheckTextType(codes, l)
  }

  /** The first step of the cascade wins whatever the codes' ordering: a
      name-in-first-line file with a hex delimiter reads as its binary variant. */
  lemma FileStructureOfBinName1stLine(codes: Codes, l: Layout)
    requires l.fileStructure == codes.ioName1stLine && IsBinCSV(l)
    ensures GetFileStructure(codes, l) == codes.ioBinName1stLine
  {
  }

  /** A declared structure above IO_TEXT_LINE is kept, except that a
      name-in-first-line file with a hex delimiter becomes binary. */
  lemma FileStructureKeepsHigherDeclared(codes: Codes, l: Layout)
    requires l.fileStructure > codes.ioTextLine
    ensures GetFileStructure(codes, l) ==
      if l.fileStructure == codes.ioName1stLine && IsBinCSV(l) then codes.ioBinName1stLine else l.fileStructure
  {
  }

  /** A declared IO_TEXT_LINE resolves through checkTextType. */
  lemma FileStructureOfTextLine(codes: Codes, l: Layout)
    requires codes.Valid() && l.fileStructure == codes.ioTextLine
    ensures GetFileStructure(codes, l) == CheckTextType(codes, l)
    ensures GetFileStructure(codes, l) in {codes.ioBinText, codes.ioUnicodeText, codes.ioTextLine}
  {
    assert codes.FileStructures()[0] != codes.FileStructures()[5];
  }

  /** Below IO_TEXT_LINE a binary layout reads as fixed length, unless it is a
      group of binary records with several records. */
  lemma FileStructureOfBinaryLayout(codes: Codes, l: Layout)
    requires l.fileStructure < codes.ioTextLine && l.fileStructure != codes.ioName1stLine && l.binary
    ensures GetFileStructure(codes, l) ==
      if l.layoutType == codes.rtGroupOfBinaryRecords && l.recordCount > 1 then codes.ioBinary else codes.ioFixedLength
  {
  }

  /** Below IO_TEXT_LINE a group of binary records with several records reads
      as IO_BINARY, whether or not the layout is binary. */
  lemma FileStructureOfBinaryGroup(codes: Codes, l: Layout)
    requires l.fileStructure < codes.ioTextLine && !(l.fileStructure == codes.ioName1stLine && IsBinCSV(l))
    requires l.layoutType == codes.rtGroupOfBinaryRecords && l.recordCount > 1
    ensures GetFileStructure(codes, l) == codes.ioBinary
  {
  }

  /** Below IO_TEXT_LINE, a layout that is neither binary nor a binary group
      reads as bin-text when its delimiter is a hex byte. */
  lemma FileStructureOfHexDelimited(codes: Codes, l: Layout)
    requires l.fileStructure < codes.ioTextLine && !(l.fileStructure == codes.ioName1stLine && IsBinCSV(l))
    requires !(l.layoutType == codes.rtGroupOfBinaryRecords && l.recordCount > 1) && !l.binary
    requires IsBinCSV(l)
    ensures GetFileStructure(codes, l) == codes.ioBinText
  {
  }

  /** Otherwise a named charset gives IO_TEXT_LINE, even a multi-byte one;
      only without a charset name does the multi-byte flag give unicode text. */
  lemma FileStructureOfTextLayout(codes: Codes, l: Layout)
    requires l.fileStructure < codes.ioTextLine && !(l.fileStructure == codes.ioName1stLine && IsBinCSV(l))
    requires !(l.layoutType == codes.rtGroupOfBinaryRecords && l.recordCount > 1) && !l.binary
    requires !IsBinCSV(l)
    ensures GetFileStructure(codes, l) ==
      if HasFontName(l) then codes.ioTextLine
      else if l.multiByteCharset then codes.ioUnicodeText
      else codes.ioBinText
  {
  }

  /** With IO_XML_BUILD_LAYOUT above IO_TEXT_LINE, the resolved structure is
      the XML-build one exactly when that is the declared one. */
  lemma FileStructureIsXmlBuildIff(codes: Codes, l: Layout)
    requires codes.Valid() && codes.ioXmlBuildLayout > codes.ioTextLine
    ensures GetFileStructure(codes, l) == codes.ioXmlBuildLayout <==> l.fileStructure == codes.ioXmlBuildLayout
  {
    var fs := codes.FileStructures();
    assert fs[8] != fs[5] && fs[8] != fs[6] && fs[8] != fs[3] && fs[8] != fs[4];
    assert fs[8] != fs[0] && fs[8] != fs[2] && fs[8] != fs[1];
  }

  // ---------------------------------------------------------------------
  // Column adjustment for XML-build layouts

  predicate IsXmlBuild(codes: Codes, l: Layout) {
    GetFileStructure(codes, l) == codes.ioXmlBuildLayout
  }

  /** The field count of record `i`, as `getRecord(i).getFieldCount()`. */
  function FieldCountOf(l: Layout, i: int): Result<nat, LayoutError> {
    var r := GetRecord(l, i);
    if r.Err? then Err(r.error)
    else if r.value.None? then Err(NullRecord)
    else Ok(r.value.value.fieldCount)
  }

  /** getAdjFieldNumber: in an XML-build layout, columns 1 and 2 move to the
      end and the rest shift down by two; column 0 and other layouts are left alone. */
  function GetAdjFieldNumber(codes: Codes, l: Layout, recordIndex: int, col: int): (r: Result<int, LayoutError>)
    ensures r.Err? <==> col > 0 && IsXmlBuild(codes, l) && FieldCountOf(l, recordIndex).Err?
    ensures r.Err? ==> r.error == FieldCountOf(l, recordIndex).error
    ensures !(col > 0 && IsXmlBuild(codes, l)) ==> r == Ok(col)
    ensures col > 0 && IsXmlBuild(codes, l) && FieldCountOf(l, recordIndex).Ok?
            && 3 <= FieldCountOf(l, recordIndex).value && col < FieldCountOf(l, recordIndex).value
            ==> 0 < r.value < FieldCountOf(l, recordIndex).value
  {
    if col > 0 && IsXmlBuild(codes, l) then
      var n := FieldCountOf(l, recordIndex);
      if n.Err? then Err(n.error)
      else Ok(if col > n.value - 3 then col - (n.value - 3) else col + 2)
    else Ok(col)
  }

  /** getUnAdjFieldNumber: the inverse mapping. */
  function GetUnAdjFieldNumber(codes: Codes, l: Layout, recordIndex: int, col: int): (r: Result<int, LayoutError>)
    ensures r.Err? <==> col > 0 && IsXmlBuild(codes, l) && FieldCountOf(l, recordIndex).Err?
    ensures r.Err? ==> r.error == FieldCountOf(l, recordIndex).error
    ensures !(col > 0 && IsXmlBuild(codes, l)) ==> r == Ok(col)
    ensures col > 0 && IsXmlBuild(codes, l) && FieldCountOf(l, recordIndex).Ok?
            && 3 <= FieldCountOf(l, recordIndex).value && col < FieldCountOf(l, recordIndex).value
            ==> 0 < r.value < FieldCountOf(l, recordIndex).value
  {
    if col > 0 && IsXmlBuild(codes, l) then
      var n := FieldCountOf(l, recordIndex);
      if n.Err? then Err(n.error)
      else Ok(if col < 3 then col + (n.value - 3) else col - 2)
    else Ok(col)
  }

  /** Outside XML-build layouts both adjusters are the identity, and column 0
      is never moved. */
  lemma AdjustersIdentity(codes: Codes, l: Layout, recordIndex: int, col: int)
    requires !IsXmlBuild(codes, l) || col <= 0
    ensures GetAdjFieldNumber(codes, l, recordIndex, col) == Ok(col)
    ensures GetUnAdjFieldNumber(codes, l, recordIndex, col) == Ok(col)
  {
  }

  /** In an XML-build layout, for a record with n >= 3 fields the two
      adjusters are inverse permutations of the columns 0 .. n-1. */
  lemma AdjustersRoundTrip(codes: Codes, l: Layout, recordIndex: nat, col: int)
    requires l.Valid() && recordIndex < l.recordCount && IsXmlBuild(codes, l)
    requires 3 <= l.RecordAt(recordIndex).fieldCount && 0 <= col < l.RecordAt(recordIndex).fieldCount
    ensures var a := GetAdjFieldNumber(codes, l, recordIndex, col);
      a.Ok? && 0 <= a.value < l.RecordAt(recordIndex).fieldCount
      && GetUnAdjFieldNumber(codes, l, recordIndex, a.value) == Ok(col)
    ensures var u := GetUnAdjFieldNumber(codes, l, recordIndex, col);
      u.Ok? && 0 <= u.value < l.RecordAt(recordIndex).fieldCount
      && GetAdjFieldNumber(codes, l, recordIndex, u.value) == Ok(col)
  {
  }
}

=== FILE: record_detail.dfy ===
/** RecordDetail: one record of a layout, an ordered sequence of fields plus
    its delimiter, quote and derived length. */
module RecordDetail {
  import opened Wrappers
  import opened NullableArrays
  import opened JavaStrings
  import opened Constants

  /** A FieldDetail, reduced to what the core reads: its name, 1-based
      position, length, type id and group path. `owner` stands for the
      back-reference `setRecord` installs: the name of the owning record. */
  datatype Field = Field(
    name: string,
    pos: int,
    len: int,
    typeId: int,
    groupName: string,
    owner: Option<string>)
  {
    /** Last byte position the field covers. */
    function End(): int {
      pos + len - 1
    }
  }

  /** The fields array keeps its capacity: `slots` may hold nulls after
      `fieldCount`. */
  datatype Record = Record(
    name: string,
    recordType: int,
    delimiter: string,
    quote: string,
    fontName: string,
    recordStyle: int,
    slots: seq<Option<Field>>,
    fieldCount: nat,
    length: int,
    parentRecordIndex: int,
    fieldsAdded: int)
  {
    /** Every constructed record has non-null fields below `fieldCount`. */
    predicate Valid() {
      NonNullPrefix(slots, fieldCount)
    }

    function FieldAt(j: nat): Field
      requires Valid() && j < fieldCount
    {
      slots[j].value
    }
  }

  datatype RecordError =
    | NullPointer
    | NoFieldFound
    | TooManyFields(count: nat)

  // ---------------------------------------------------------------------
  // Record length

  /** The derived length: 0, or the largest end position over the fields
      whose length is non-negative. */
  ghost predicate IsDerivedLength(slots: seq<Option<Field>>, n: nat, length: int)
    requires NonNullPrefix(slots, n)
  {
    && length >= 0
    && (forall j :: 0 <= j < n && slots[j].value.len >= 0 ==> slots[j].value.End() <= length)
    && (length == 0 || exists j :: 0 <= j < n && slots[j].value.len >= 0 && slots[j].value.End() == length)
  }

  /** The constructor's loop: `if (len >= 0 && length < pos + len - 1) length = pos + len - 1`. */
  function LengthOfFields(slots: seq<Option<Field>>, n: nat): (length: int)
    requires NonNullPrefix(slots, n)
    ensures IsDerivedLength(slots, n, length)
  {
    if n == 0 then 0
    else
      var l := LengthOfFields(slots, n - 1);
      var f := slots[n - 1].value;
      if f.len >= 0 && l < f.End() then f.End() else l
  }

  // ---------------------------------------------------------------------
  // Construction

  /** convertFieldDelim: null or `<tab>` become a tab, `<space>` a space
      (after trimming, ignoring case); anything else is kept. */
  function ConvertFieldDelim(d: Option<string>): (r: string)
    ensures d.None? || EqualsIgnoreCase(Trim(d.value), "<tab>") ==> r == "\t"
    ensures d.Some? && !EqualsIgnoreCase(Trim(d.value), "<tab>") && EqualsIgnoreCase(Trim(d.value), "<space>") ==> r == " "
    ensures d.Some? && !EqualsIgnoreCase(Trim(d.value), "<tab>") && !EqualsIgnoreCase(Trim(d.value), "<space>") ==> r == d.value
    ensures d.Some? && r != d.value ==> EqualsIgnoreCase(Trim(d.value), "<tab>") || EqualsIgnoreCase(Trim(d.value), "<space>")
  {
    if d.None? || EqualsIgnoreCase(Trim(d.value), "<tab>") then "\t"
    else if EqualsIgnoreCase(Trim(d.value), "<space>") then " "
    else d.value
  }

  lemma ConvertFieldDelimIdempotent(d: Option<string>)
    ensures ConvertFieldDelim(Some(ConvertFieldDelim(d))) == ConvertFieldDelim(d)
  {
    var r := ConvertFieldDelim(d);
    if r == "\t" || r == " " {
      assert Trim(r) == "";
    }
  }

  function WithOwner(slots: seq<Option<Field>>, n: nat, owner: string): (r: seq<Option<Field>>)
    requires NonNullPrefix(slots, n)
    ensures |r| == |slots| && NonNullPrefix(r, n)
    ensures forall j :: 0 <= j < n ==> r[j] == Some(slots[j].value.(owner := Some(owner)))
    ensures forall j :: n <= j < |slots| ==> r[j] == slots[j]
  {
    seq(|slots|, j requires 0 <= j < |slots| => if j < n then Some(slots[j].value.(owner := Some(owner))) else slots[j])
  }

  /** The RecordDetail constructor. The field count drops trailing nulls; a
      null before that throws a NullPointerException (from `setRecord`). */
  function NewRecord(codes: Codes, name: string, recordType: int, delim: Option<string>,
                     quote: string, fontName: string, fields: seq<Option<Field>>,
                     recordStyle: int): (r: Result<Record, RecordError>)
    ensures r.Ok? <==> NonNullPrefix(fields, CountBeforeTrailingNulls(fields))
    ensures r.Err? ==> r.error == NullPointer
    ensures r.Ok? ==> var rec := r.value;
      && rec.Valid()
      && rec.name == name && rec.recordType == recordType && rec.quote == quote
      && rec.fontName == fontName && rec.recordStyle == recordStyle
      && rec.delimiter == ConvertFieldDelim(delim)
      // the field count is the input length minus the trailing nulls
      && rec.fieldCount <= |fields|
      && (forall k :: rec.fieldCount <= k < |fields| ==> fields[k].None?)
      && (rec.fieldCount == 0 || fields[rec.fieldCount - 1].Some?)
      // each counted field now belongs to this record; nothing else changed
      && |rec.slots| == |fields|
      && (forall j :: 0 <= j < rec.fieldCount ==> rec.slots[j] == Some(fields[j].value.(owner := Some(name))))
      // the trailing nulls stay in the array
      && (forall j :: rec.fieldCount <= j < |fields| ==> rec.slots[j].None?)
      && IsDerivedLength(rec.slots, rec.fieldCount, rec.length)
      && rec.parentRecordIndex == codes.nullInteger
      && rec.fieldsAdded == 0
  {
    var n := CountBeforeTrailingNulls(fields);
    if !NonNullPrefix(fields, n) then Err(NullPointer)
    else
      var slots := WithOwner(fields, n, name);
      Ok(Record(name, recordType, ConvertFieldDelim(delim), quote, fontName, recordStyle,
                slots, n, LengthOfFields(slots, n), codes.nullInteger, 0))
  }

  /** setParentRecordIndex: only the parent index changes, so a valid record
      stays valid with the same fields. */
  function SetParentRecordIndex(r: Record, parent: int): (r': Record)
    ensures r'.parentRecordIndex == parent
    ensures r.Valid() ==> r'.Valid() && r'.fieldCount == r.fieldCount
                          && forall j :: 0 <= j < r.fieldCount ==> r'.FieldAt(j) == r.FieldAt(j)
    ensures r' == r.(parentRecordIndex := parent)
  {
    r.(parentRecordIndex := parent)
  }

  // ---------------------------------------------------------------------
  // Appending

  /** addField: grow the array by 5 when full, store the field at
      `fieldCount`, bump the count and the added-fields counter. The length is
      NOT recomputed. */
  function AddField(r: Record, f: Field): (r': Record)
    requires r.Valid()
    ensures r'.Valid()
    ensures r'.fieldCount == r.fieldCount + 1
    ensures r'.FieldAt(r.fieldCount) == f.(owner := Some(r.name))
    ensures forall j :: 0 <= j < r.fieldCount ==> r'.FieldAt(j) == r.FieldAt(j)
    ensures r'.fieldsAdded == r.fieldsAdded + 1
    ensures r'.length == r.length
    ensures |r'.slots| == if r.fieldCount < |r.slots| then |r.slots| else r.fieldCount + 5
    // the slots after the new field: as before, or null when the array grew
    ensures forall j :: r'.fieldCount <= j < |r'.slots| ==> r'.slots[j] == if j < |r.slots| then r.slots[j] else None
    ensures r' == r.(slots := r'.slots, fieldCount := r'.fieldCount, fieldsAdded := r'.fieldsAdded)
  {
    var slots := if r.fieldCount >= |r.slots| then r.slots + Nulls(5) else r.slots;
    r.(slots := slots[r.fieldCount := Some(f.(owner := Some(r.name)))],
       fieldCount := r.fieldCount + 1,
       fieldsAdded := r.fieldsAdded + 1)
  }

  /** The stored length is not a derived value once fields have been added:
      adding a field that ends past the record leaves the length unchanged. */
  lemma AddFieldLeavesLengthStale(r: Record, f: Field)
    requires r.Valid() && IsDerivedLength(r.slots, r.fieldCount, r.length)
    requires f.len >= 0 && f.End() > r.length
    ensures var r' := AddField(r, f); !IsDerivedLength(r'.slots, r'.fieldCount, r'.length)
  {
    var r' := AddField(r, f);
    assert r'.slots[r.fieldCount].value.End() > r'.length;
  }

  // ---------------------------------------------------------------------
  // Lookups by name

  /** The first field at or after `from` whose name matches, ignoring case. */
  function FirstNamed(r: Record, name: string, from: nat): (k: int)
    requires r.Valid() && from <= r.fieldCount
    ensures k == -1 || (from <= k < r.fieldCount && EqualsIgnoreCase(name, r.FieldAt(k).name))
    ensures forall j :: from <= j < r.fieldCount && (k == -1 || j < k) ==> !EqualsIgnoreCase(name, r.FieldAt(j).name)
    decreases r.fieldCount - from
  {
    if from == r.fieldCount then -1
    else if EqualsIgnoreCase(name, r.FieldAt(from).name) then from
    else FirstNamed(r, name, from + 1)
  }

  /** getFieldIndex: the first field whose name equals `name` ignoring case,
      or NULL_INTEGER for a null name or no match. */
  function GetFieldIndex(codes: Codes, r: Record, name: Option<string>): (k: int)
    requires r.Valid()
    ensures k == codes.nullInteger || (0 <= k < r.fieldCount && name.Some? && EqualsIgnoreCase(name.value, r.FieldAt(k).name))
    ensures name.Some? && 0 <= k < r.fieldCount ==> forall j :: 0 <= j < k ==> !EqualsIgnoreCase(name.value, r.FieldAt(j).name)
    ensures name.None? ==> k == codes.nullInteger
    ensures name.Some? && (exists j :: 0 <= j < r.fieldCount && EqualsIgnoreCase(name.value, r.FieldAt(j).name)) ==> 0 <= k < r.fieldCount
  {
    if name.None? then codes.nullInteger
    else
      var k := FirstNamed(r, name.value, 0);
      if k < 0 then codes.nullInteger else k
  }

  /** getField(String): the field getFieldIndex finds, or null. */
  function GetFieldByName(codes: Codes, r: Record, name: Option<string>): (f: Option<Field>)
    requires codes.Valid() && r.Valid()
    ensures f.Some? <==> name.Some? && exists j :: 0 <= j < r.fieldCount && EqualsIgnoreCase(name.value, r.FieldAt(j).name)
    ensures f.Some? ==> f.value == r.FieldAt(GetFieldIndex(codes, r, name))
  {
    var k := GetFieldIndex(codes, r, name);
    if k >= 0 then Some(r.FieldAt(k)) else None
  }

  // ---------------------------------------------------------------------
  // Lookups by name and group

  /** The level name of group name `g`: ".G." with G upper-cased. */
  function LevelName(g: string): string {
    "." + ToUpper(g) + "."
  }

  /** The level names getFields searches for: ".G." for every non-null,
      non-empty group name G, upper-cased. */
  function LevelNames(groups: seq<Option<string>>): (ln: seq<string>)
    ensures |ln| <= |groups|
  {
    if |groups| == 0 then []
    else
      var rest := LevelNames(groups[1..]);
      if groups[0].Some? && groups[0].value != "" then [LevelName(groups[0].value)] + rest
      else rest
  }

  /** The level names keep the order of the group names, one for each
      non-null non-empty name and no other: `pos` gives, for each level
      name, the position of the group name it comes from. */
  lemma LevelNamesInOrder(groups: seq<Option<string>>) returns (pos: seq<int>)
    ensures |pos| == |LevelNames(groups)|
    ensures forall k :: 0 <= k < |pos| ==>
      && 0 <= pos[k] < |groups| && groups[pos[k]].Some? && groups[pos[k]].value != ""
      && LevelNames(groups)[k] == LevelName(groups[pos[k]].value)
    ensures forall k :: 0 < k < |pos| ==> pos[k - 1] < pos[k]
    ensures forall i :: 0 <= i < |groups| && groups[i].Some? && groups[i].value != "" ==> i in pos
  {
    assert groups[0..] == groups;
    pos := LevelPositions(groups, 0);
    LevelPositionsAreLevels(groups, 0);
    LevelPositionsNamed(groups, 0);
    LevelPositionsIncreasing(groups, 0);
    LevelPositionsComplete(groups, 0);
  }

  /** As sets: the level names are exactly the LevelName of the non-null non-empty group names. */
  lemma LevelNamesMembers(groups: seq<Option<string>>)
    ensures forall n :: n in LevelNames(groups) ==>
      exists g :: g in groups && g.Some? && g.value != "" && n == LevelName(g.value)
    ensures forall g :: g in groups && g.Some? && g.value != "" ==> LevelName(g.value) in LevelNames(groups)
  {
    var pos := LevelNamesInOrder(groups);
    var ln := LevelNames(groups);
    forall n | n in ln ensures exists g :: g in groups && g.Some? && g.value != "" && n == LevelName(g.value) {
      var k :| 0 <= k < |ln| && ln[k] == n;
      assert groups[pos[k]] in groups;
    }
    forall g | g in groups && g.Some? && g.value != "" ensures LevelName(g.value) in ln {
      var i :| 0 <= i < |groups| && groups[i] == g;
      var k :| 0 <= k < |pos| && pos[k] == i;
      assert ln[k] == LevelName(g.value);
    }
  }

  /** Positions, from `i` on, of the group names that give a level name. */
  function LevelPositions(groups: seq<Option<string>>, i: nat): (pos: seq<int>)
    requires i <= |groups|
    ensures |pos| == |LevelNames(groups[i..])|
    ensures forall k :: 0 <= k < |pos| ==> i <= pos[k] < |groups|
    decreases |groups| - i
  {
    if i == |groups| then []
    else
      assert groups[i..][1..] == groups[i + 1..];
      (if groups[i].Some? && groups[i].value != "" then [i] else []) + LevelPositions(groups, i + 1)
  }

  lemma {:induction false} LevelPositionsAreLevels(groups: seq<Option<string>>, i: nat)
    requires i <= |groups|
    ensures forall k :: 0 <= k < |LevelPositions(groups, i)| ==>
      groups[LevelPositions(groups, i)[k]].Some? && groups[LevelPositions(groups, i)[k]].value != ""
    decreases |groups| - i
  {
    if i < |groups| {
      LevelPositionsAreLevels(groups, i + 1);
    }
  }

  lemma {:induction false} LevelPositionsNamed(groups: seq<Option<string>>, i: nat)
    requires i <= |groups|
    ensures forall k :: 0 <= k < |LevelPositions(groups, i)| && groups[LevelPositions(groups, i)[k]].Some? ==>
      LevelNames(groups[i..])[k] == LevelName(groups[LevelPositions(groups, i)[k]].value)
    decreases |groups| - i
  {
    if i < |groups| {
      LevelPositionsNamed(groups, i + 1);
      LevelNamesStep(groups, i);
      var pos := LevelPositions(groups, i);
      var rest := LevelPositions(groups, i + 1);
      if groups[i].Some? && groups[i].value != "" {
        assert pos == [i] + rest;
        forall k | 1 <= k < |pos| && groups[pos[k]].Some?
          ensures LevelNames(groups[i..])[k] == LevelName(groups[pos[k]].value)
        {
          assert pos[k] == rest[k - 1];
          assert LevelNames(groups[i..])[k] == LevelNames(groups[i + 1..])[k - 1];
        }
      } else {
        assert pos == rest;
      }
    }
  }

  lemma {:induction false} LevelPositionsIncreasing(groups: seq<Option<string>>, i: nat)
    requires i <= |groups|
    ensures forall k :: 0 < k < |LevelPositions(groups, i)| ==>
      LevelPositions(groups, i)[k - 1] < LevelPositions(groups, i)[k]
    decreases |groups| - i
  {
    if i < |groups| {
      LevelPositionsIncreasing(groups, i + 1);
      var pos := LevelPositions(groups, i);
      var rest := LevelPositions(groups, i + 1);
      if groups[i].Some? && groups[i].value != "" {
        assert pos == [i] + rest;
        forall k | 1 < k < |pos| ensures pos[k - 1] < pos[k] {
          var j := k - 1;
          assert pos[j] == rest[j - 1] && pos[k] == rest[j] && rest[j - 1] < rest[j];
        }
      }
    }
  }

  lemma {:induction false} LevelPositionsComplete(groups: seq<Option<string>>, i: nat)
    requires i <= |groups|
    ensures forall j :: i <= j < |groups| && groups[j].Some? && groups[j].value != "" ==> j in LevelPositions(groups, i)
    decreases |groups| - i
  {
    if i < |groups| {
      LevelPositionsComplete(groups, i + 1);
    }
  }

  /** One step of LevelNames over the suffix from `i`, element by element. */
  lemma LevelNamesStep(groups: seq<Option<string>>, i: nat)
    requires i < |groups|
    ensures var d := if groups[i].Some? && groups[i].value != "" then 1 else 0;
      && |LevelNames(groups[i..])| == d + |LevelNames(groups[i + 1..])|
      && (d == 1 ==> LevelNames(groups[i..])[0] == LevelName(groups[i].value))
      && forall k :: d <= k < |LevelNames(groups[i..])| ==> LevelNames(groups[i..])[k] == LevelNames(groups[i + 1..])[k - d]
  {
    assert groups[i..][1..] == groups[i + 1..];
  }

  /** Every level name occurs somewhere in the upper-cased group path. */
  predicate InAllGroups(groupPath: string, ln: seq<string>) {
    forall n :: n in ln ==> Contains(ToUpper(groupPath), n)
  }

  /** The level names occur in order: each search starts where the previous
      level name was found (so one occurrence may serve twice). */
  predicate InGroupsInSequence(upperPath: string, ln: seq<string>, from: int) {
    |ln| == 0 ||
    var p := IndexOf(upperPath, ln[0], from);
    p >= 0 && InGroupsInSequence(upperPath, ln[1..], p)
  }

  lemma {:induction false} InSequenceImpliesInAll(upperPath: string, ln: seq<string>, from: int)
    requires InGroupsInSequence(upperPath, ln, from)
    ensures forall n :: n in ln ==> Contains(upperPath, n)
  {
    if |ln| > 0 {
      var p := IndexOf(upperPath, ln[0], from);
      assert OccursAt(upperPath, ln[0], p);
      InSequenceImpliesInAll(upperPath, ln[1..], p);
      forall n | n in ln ensures Contains(upperPath, n) {
        if n != ln[0] {
          assert n in ln[1..];
        }
      }
    }
  }

  predicate NameEquals(f: Field, name: Option<string>) {
    name.Some? && f.name == name.value
  }

  predicate MatchesAll(f: Field, name: Option<string>, ln: seq<string>) {
    NameEquals(f, name) && InAllGroups(f.groupName, ln)
  }

  predicate MatchesInSequence(f: Field, name: Option<string>, ln: seq<string>) {
    NameEquals(f, name) && InGroupsInSequence(ToUpper(f.groupName), ln, 0)
  }

  /** `a` is `b` with some elements left out, order kept. */
  predicate IsSubsequence<T(==)>(a: seq<T>, b: seq<T>)
    decreases |b|
  {
    |a| == 0 ||
    (|b| > 0 && ((a[0] == b[0] && IsSubsequence(a[1..], b[1..])) || IsSubsequence(a, b[1..])))
  }

  function AllFields(slots: seq<Option<Field>>): (fs: seq<Field>)
    requires NonNullPrefix(slots, |slots|)
    ensures |fs| == |slots| && forall j :: 0 <= j < |slots| ==> fs[j] == slots[j].value
  {
    seq(|slots|, j requires 0 <= j < |slots| => slots[j].value)
  }

  function SelectAll(fs: seq<Field>, name: Option<string>, ln: seq<string>): (r: seq<Field>)
    ensures IsSubsequence(r, fs)
    ensures forall f :: f in r <==> f in fs && MatchesAll(f, name, ln)
    ensures forall f :: multiset(r)[f] == if MatchesAll(f, name, ln) then multiset(fs)[f] else 0
  {
    if |fs| == 0 then []
    else
      var rest := SelectAll(fs[1..], name, ln);
      assert forall f :: f in fs <==> f == fs[0] || f in fs[1..];
      assert fs == [fs[0]] + fs[1..];
      if MatchesAll(fs[0], name, ln) then [fs[0]] + rest else rest
  }

  function SelectInSequence(fs: seq<Field>, name: Option<string>, ln: seq<string>): (r: seq<Field>)
    ensures IsSubsequence(r, fs)
    ensures forall f :: f in r <==> f in fs && MatchesInSequence(f, name, ln)
    ensures forall f :: multiset(r)[f] == if MatchesInSequence(f, name, ln) then multiset(fs)[f] else 0
  {
    if |fs| == 0 then []
    else
      var rest := SelectInSequence(fs[1..], name, ln);
      assert forall f :: f in fs <==> f == fs[0] || f in fs[1..];
      assert fs == [fs[0]] + fs[1..];
      if MatchesInSequence(fs[0], name, ln) then [fs[0]] + rest else rest
  }

  /** getFields: the fields, in order, whose name equals `name` exactly and
      whose group path holds every level name. The Java loop runs over the
      whole array, capacity included, so a null slot throws. */
  function GetFields(r: Record, name: Option<string>, groups: seq<Option<string>>): (res: Result<seq<Field>, RecordError>)
    ensures res.Err? <==> !NonNullPrefix(r.slots, |r.slots|)
    ensures res.Err? ==> res.error == NullPointer
    ensures res.Ok? ==> IsSubsequence(res.value, AllFields(r.slots))
    ensures res.Ok? ==> forall f :: f in res.value <==> f in AllFields(r.slots) && MatchesAll(f, name, LevelNames(groups))
    // every occurrence of a matching field is kept, so equal fields are not merged
    ensures res.Ok? ==> forall f :: multiset(res.value)[f] ==
                                     if MatchesAll(f, name, LevelNames(groups)) then multiset(AllFields(r.slots))[f] else 0
  {
    if !NonNullPrefix(r.slots, |r.slots|) then Err(NullPointer)
    else Ok(SelectAll(AllFields(r.slots), name, LevelNames(groups)))
  }

  /** getFieldsGroupsInSequence: as getFields, but the level names must be
      found in the order given. */
  function GetFieldsGroupsInSequence(r: Record, name: Option<string>, groups: seq<Option<string>>): (res: Result<seq<Field>, RecordError>)
    ensures res.Err? <==> !NonNullPrefix(r.slots, |r.slots|)
    ensures res.Err? ==> res.error == NullPointer
    ensures res.Ok? ==> IsSubsequence(res.value, AllFields(r.slots))
    ensures res.Ok? ==> forall f :: f in res.value <==> f in AllFields(r.slots) && MatchesInSequence(f, name, LevelNames(groups))
    ensures res.Ok? ==> forall f :: multiset(res.value)[f] ==
                                     if MatchesInSequence(f, name, LevelNames(groups)) then multiset(AllFields(r.slots))[f] else 0
  {
    if !NonNullPrefix(r.slots, |r.slots|) then Err(NullPointer)
    else Ok(SelectInSequence(AllFields(r.slots), name, LevelNames(groups)))
  }

  lemma {:induction false} SelectInSequenceIsSubsequenceOfSelectAll(fs: seq<Field>, name: Option<string>, ln: seq<string>)
    ensures IsSubsequence(SelectInSequence(fs, name, ln), SelectAll(fs, name, ln))
  {
    if |fs| > 0 {
      SelectInSequenceIsSubsequenceOfSelectAll(fs[1..], name, ln);
      var a, b := SelectInSequence(fs[1..], name, ln), SelectAll(fs[1..], name, ln);
      if MatchesInSequence(fs[0], name, ln) {
        InSequenceImpliesInAll(ToUpper(fs[0].groupName), ln, 0);
        assert MatchesAll(fs[0], name, ln);
        assert SelectInSequence(fs, name, ln) == [fs[0]] + a;
        assert SelectAll(fs, name, ln) == [fs[0]] + b;
      } else if MatchesAll(fs[0], name, ln) {
        SubsequenceOfTail(a, b, fs[0]);
      }
    }
  }

  lemma {:induction false} SubsequenceOfTail<T>(a: seq<T>, b: seq<T>, x: T)
    requires IsSubsequence(a, b)
    ensures IsSubsequence(a, [x] + b)
  {
    assert ([x] + b)[1..] == b;
  }

  /** getFieldsGroupsInSequence returns an order-preserving subsequence of
      what getFields returns for the same arguments. */
  lemma GroupsInSequenceRefinesGetFields(r: Record, name: Option<string>, groups: seq<Option<string>>)
    ensures GetFieldsGroupsInSequence(r, name, groups).Ok? == GetFields(r, name, groups).Ok?
    ensures GetFields(r, name, groups).Ok? ==>
      IsSubsequence(GetFieldsGroupsInSequence(r, name, groups).value, GetFields(r, name, groups).value)
  {
    if NonNullPrefix(r.slots, |r.slots|) {
      SelectInSequenceIsSubsequenceOfSelectAll(AllFields(r.slots), name, LevelNames(groups));
    }
  }

  /** getUniqueField / getUniqueFieldGroupsInSequence: exactly one match is
      returned; none or several throw, with the count in the message. */
  function Unique(found: Result<seq<Field>, RecordError>): (res: Result<Field, RecordError>)
    ensures found.Err? ==> res == Err(found.error)
    ensures found.Ok? && |found.value| == 0 ==> res == Err(NoFieldFound)
    ensures found.Ok? && |found.value| == 1 ==> res == Ok(found.value[0])
    ensures found.Ok? && |found.value| > 1 ==> res == Err(TooManyFields(|found.value|))
  {
    match found
    case Err(e) => Err(e)
    case Ok(fs) =>
      if |fs| == 0 then Err(NoFieldFound)
      else if |fs| == 1 then Ok(fs[0])
      else Err(TooManyFields(|fs|))
  }

  function GetUniqueField(r: Record, name: Option<string>, groups: seq<Option<string>>): (res: Result<Field, RecordError>)
    ensures res == Err(NullPointer) <==> !NonNullPrefix(r.slots, |r.slots|)
    ensures res == Err(NoFieldFound) <==>
      NonNullPrefix(r.slots, |r.slots|) && forall f :: f in AllFields(r.slots) ==> !MatchesAll(f, name, LevelNames(groups))
    ensures res.Ok? ==> NonNullPrefix(r.slots, |r.slots|) && res.value in AllFields(r.slots) && MatchesAll(res.value, name, LevelNames(groups))
    ensures res.Ok? <==> GetFields(r, name, groups).Ok? && |GetFields(r, name, groups).value| == 1
    ensures res.Err? && res.error.TooManyFields? <==> GetFields(r, name, groups).Ok? && |GetFields(r, name, groups).value| > 1
    ensures res.Err? && res.error.TooManyFields? ==> res.error.count == |GetFields(r, name, groups).value| >= 2
  {
    Unique(GetFields(r, name, groups))
  }

  function GetUniqueFieldGroupsInSequence(r: Record, name: Option<string>, groups: seq<Option<string>>): (res: Result<Field, RecordError>)
    ensures res == Err(NullPointer) <==> !NonNullPrefix(r.slots, |r.slots|)
    ensures res == Err(NoFieldFound) <==>
      NonNullPrefix(r.slots, |r.slots|) && forall f :: f in AllFields(r.slots) ==> !MatchesInSequence(f, name, LevelNames(groups))
    ensures res.Ok? ==> NonNullPrefix(r.slots, |r.slots|) && res.value in AllFields(r.slots) && MatchesInSequence(res.value, name, LevelNames(groups))
    ensures res.Ok? <==> GetFieldsGroupsInSequence(r, name, groups).Ok? && |GetFieldsGroupsInSequence(r, name, groups).value| == 1
    ensures res.Err? && res.error.TooManyFields? <==>
      GetFieldsGroupsInSequence(r, name, groups).Ok? && |GetFieldsGroupsInSequence(r, name, groups).value| > 1
    ensures res.Err? && res.error.TooManyFields? ==> res.error.count == |GetFieldsGroupsInSequence(r, name, groups).value| >= 2
  {
    Unique(GetFieldsGroupsInSequence(r, name, groups))
  }

  /** The unique lookup succeeds exactly when one field matches. */
  lemma UniqueFieldIff(r: Record, name: Option<string>, groups: seq<Option<string>>, f: Field)
    ensures GetUniqueField(r, name, groups) == Ok(f) <==> GetFields(r, name, groups) == Ok([f])
  {
    if GetUniqueField(r, name, groups) == Ok(f) {
      var found := GetFields(r, name, groups).value;
      assert found == [found[0]];
    }
  }

  /** A level name repeated in getFieldsGroupsInSequence can be satisfied by a
      single occurrence, because each search restarts at the previous match. */
  lemma InSequenceReusesOccurrence(upperPath: string, n: string)
    requires Contains(upperPath, n)
    ensures InGroupsInSequence(upperPath, [n, n], 0)
  {
    var p := IndexOf(upperPath, n, 0);
    IndexOfAtOccurrence(upperPath, n, p);
    assert [n, n][1..] == [n] && [n][1..] == [];
  }
}

=== FILE: type_sign_separate.dfy ===
/** Sign-separate display numerics (COBOL SIGN SEPARATE): the digits of a
    number with its sign as a character of its own, before the digits
    (leading) or after them (trailing). */
module TypeSignSeparate {
  import opened Wrappers
  import opened JavaStrings

  /** The type object: only the sign position matters here. */
  datatype SignSeparate = SignSeparate(leadingSign: bool)

  /** The constructor: the sign leads exactly for the leading-sign type
      code; every other code gets a trailing sign. */
  function NewSignSeparate(typeId: int, ftSignSeparateLead: int): (t: SignSeparate)
    ensures t.leadingSign <==> typeId == ftSignSeparateLead
  {
    SignSeparate(typeId == ftSignSeparateLead)
  }

  /** The field attributes the conversion reads. */
  datatype FieldSize = FieldSize(len: int, fixedFormat: bool)

  /** RecordException "Value: ... is too large to fit field". */
  datatype SignError = TooLarge(value: string)

  function Max(a: int, b: int): int {
    if a < b then b else a
  }

  function Fill(c: char, k: nat): (r: string)
    ensures |r| == k && forall i :: 0 <= i < k ==> r[i] == c
  {
    seq(k, _ => c)
  }

  /** paddingString: when n is positive and longer than `s`, `s` padded
      with `c` on the left or the right to length n; otherwise `s`. */
  function PadTo(s: string, n: int, c: char, left: bool): (r: string)
    ensures |r| == if n > 0 && n > |s| then n else |s|
    ensures left ==> r[|r| - |s|..] == s && forall i :: 0 <= i < |r| - |s| ==> r[i] == c
    ensures !left ==> r[..|s|] == s && forall i :: |s| <= i < |r| ==> r[i] == c
  {
    if n > 0 && n > |s| then
      if left then Fill(c, n - |s|) + s else s + Fill(c, n - |s|)
    else s
  }

  function Min(a: int, b: int): int {
    if a < b then a else b
  }

  /** paddingString as the source writes it: a loop over i = 0 .. n that
      inserts in front while i < n - |s|, or appends once i > |s|. */
  method PaddingString(s: string, n: int, c: char, paddingLeft: bool) returns (r: string)
    ensures r == PadTo(s, n, c, paddingLeft)
  {
    r := s;
    var strLength := |s|;
    if n > 0 && n > strLength {
      var i := 0;
      while i <= n
        invariant 0 <= i <= n + 1
        invariant paddingLeft ==> r == Fill(c, Min(i, n - strLength)) + s
        invariant !paddingLeft ==> r == s + Fill(c, Max(i - strLength - 1, 0))
      {
        if paddingLeft {
          if i < n - strLength {
            r := [c] + r;
            assert [c] + Fill(c, i) == Fill(c, i + 1);
          }
        } else {
          if i > strLength {
            r := r + [c];
            assert Fill(c, i - strLength - 1) + [c] == Fill(c, i - strLength);
          }
        }
        i := i + 1;
      }
    }
  }

  /** The inputs encoded as a bare '+': null, "", "-" and "+". */
  predicate IsBlank(num: Option<string>) {
    num.None? || num.value == "" || num.value == "-" || num.value == "+"
  }

  /** The sign the encoding carries: it looks at the value before trimming. */
  function SignOf(num: string): char {
    if StartsWith(num, "-") then '-' else '+'
  }

  lemma TrimKeepsFirst(s: string)
    requires |s| > 0 && !IsTrimmable(s[0])
    ensures |Trim(s)| > 0 && Trim(s)[0] == s[0]
  {
    assert TrimLeft(s) == s;
  }

  /** The trimmed value without the sign the encoding takes from it. */
  function Unsigned(num: string): (u: string)
    ensures |u| <= |Trim(num)|
  {
    var ret := Trim(num);
    if StartsWith(num, "-") || StartsWith(num, "+") then
      TrimKeepsFirst(num);
      ret[1..]
    else ret
  }

  /** toSignSeparate: the unsigned digits zero-padded to len-1 with the sign
      in front or behind; a fixed-format field refuses a value of len or
      more digits. */
  function ToSignSeparate(t: SignSeparate, num: Option<string>, field: FieldSize): (r: Result<string, SignError>)
    ensures IsBlank(num) ==> r == Ok(PadTo("+", field.len, '0', !t.leadingSign))
    ensures r.Err? <==> !IsBlank(num) && field.fixedFormat && |Unsigned(num.value)| >= field.len
    ensures r.Ok? && !IsBlank(num) ==>
      var e, u := r.value, Unsigned(num.value);
      && |e| == Max(|u|, field.len - 1) + 1
      && (if t.leadingSign then e[0] else e[|e| - 1]) == SignOf(num.value)
      && (if t.leadingSign then e[1..] else e[..|e| - 1]) == PadTo(u, field.len - 1, '0', true)
    ensures r.Ok? && field.fixedFormat ==> |r.value| == Max(field.len, 1)
  {
    if IsBlank(num) then Ok(PadTo("+", field.len, '0', !t.leadingSign))
    else
      var ret := Unsigned(num.value);
      if |ret| >= field.len && field.fixedFormat then Err(TooLarge(ret))
      else
        var padded := PadTo(ret, field.len - 1, '0', true);
        var sign := [SignOf(num.value)];
        if t.leadingSign then Ok(sign + padded) else Ok(padded + sign)
  }

  /** fromSignSeparate: the trimmed text with a leading '+' dropped, or with
      a trailing sign moved to the front ('-') or dropped ('+'). */
  function FromSignSeparate(t: SignSeparate, s: Option<string>): (r: string)
    ensures s.None? || s.value == "" || s.value == "-" ==> r == ""
    ensures s.Some? ==> |r| <= |Trim(s.value)|
    ensures s.Some? && s.value != "" && s.value != "-" && t.leadingSign ==>
      var ret := Trim(s.value);
      if |ret| > 0 && ret[0] == '+' then "+" + r == ret else r == ret
    ensures s.Some? && s.value != "" && s.value != "-" && !t.leadingSign ==>
      var ret := Trim(s.value);
      if |ret| > 0 && ret[|ret| - 1] == '-' then |r| > 0 && r[0] == '-' && r[1..] + "-" == ret
      else if |ret| > 0 && ret[|ret| - 1] == '+' then r + "+" == ret
      else r == ret
  {
    if s.None? || s.value == "" || s.value == "-" then ""
    else
      var ret := Trim(s.value);
      if t.leadingSign then
        if |ret| > 0 && ret[0] == '+' then ret[1..] else ret
      else
        var last := |ret| - 1;
        if |ret| > 0 && (ret[last] == '+' || ret[last] == '-') then
          if ret[last] == '-' then "-" + ret[..last] else ret[..last]
        else ret
  }

  // ---------------------------------------------------------------------
  // Round trips

  predicate IsDigits(ds: string) {
    forall i :: 0 <= i < |ds| ==> '0' <= ds[i] <= '9'
  }

  lemma PadDigits(ds: string, n: int)
    requires IsDigits(ds)
    ensures IsDigits(PadTo(ds, n, '0', true))
  {
    var p := PadTo(ds, n, '0', true);
    forall i | 0 <= i < |p|
      ensures '0' <= p[i] <= '9'
    {
      if i >= |p| - |ds| {
        assert p[i] == p[|p| - |ds|..][i - (|p| - |ds|)];
      }
    }
  }

  lemma StartsWithChar(s: string, c: char)
    ensures StartsWith(s, [c]) <==> |s| > 0 && s[0] == c
  {
    if |s| > 0 && s[0] == c {
      assert s[..1] == [c];
    }
  }

  /** A signed digit string has nothing to trim. */
  lemma TrimSignedDigits(sgn: string, ds: string)
    requires sgn == "" || sgn == "+" || sgn == "-"
    requires IsDigits(ds) && sgn + ds != ""
    ensures Trim(sgn + ds) == sgn + ds
  {
    var num := sgn + ds;
    assert !IsTrimmable(num[0]) by {
      if sgn == "" {
        assert num[0] == ds[0];
      }
    }
    assert !IsTrimmable(num[|num| - 1]) by {
      if ds != "" {
        assert num[|num| - 1] == ds[|ds| - 1];
      }
    }
    TrimOfUntrimmable(num);
  }

  lemma UnsignedOfDigits(sgn: string, ds: string)
    requires sgn == "" || sgn == "+" || sgn == "-"
    requires IsDigits(ds) && sgn + ds != ""
    ensures Unsigned(sgn + ds) == ds
    ensures SignOf(sgn + ds) == if sgn == "-" then '-' else '+'
  {
    var num := sgn + ds;
    TrimSignedDigits(sgn, ds);
    StartsWithChar(num, '-');
    StartsWithChar(num, '+');
    if sgn == "" {
      assert num == ds && '0' <= num[0] <= '9';
    } else {
      assert num[0] == sgn[0] && num[1..] == ds;
    }
  }

  /** Digits with the sign in its place. */
  function Signed(t: SignSeparate, sign: char, p: string): string {
    if t.leadingSign then [sign] + p else p + [sign]
  }

  /** How a blank value is encoded. */
  lemma BlankShape(t: SignSeparate, len: int)
    ensures PadTo("+", len, '0', !t.leadingSign) == Signed(t, '+', PadTo("", len - 1, '0', true))
  {
    if len > 1 {
      PadZeros(len - 1);
      PadPlus(len, t.leadingSign);
    } else {
      assert PadTo("", len - 1, '0', true) == "";
      assert Signed(t, '+', "") == "+";
    }
  }

  lemma PadZeros(n: int)
    requires n > 0
    ensures PadTo("", n, '0', true) == Fill('0', n)
  {
    assert Fill('0', n) + "" == Fill('0', n);
  }

  lemma PadPlus(len: int, leading: bool)
    requires len > 1
    ensures PadTo("+", len, '0', !leading) == if leading then "+" + Fill('0', len - 1) else Fill('0', len - 1) + "+"
  {
  }

  /** How a signed digit string that fits is encoded. */
  lemma EncodeShape(t: SignSeparate, sgn: string, ds: string, field: FieldSize)
    requires sgn == "" || sgn == "+" || sgn == "-"
    requires IsDigits(ds)
    requires !(field.fixedFormat && |ds| >= field.len)
    ensures ToSignSeparate(t, Some(sgn + ds), field)
      == Ok(Signed(t, if sgn == "-" && ds != "" then '-' else '+', PadTo(ds, field.len - 1, '0', true)))
  {
    if ds == "" {
      assert sgn + ds == sgn;
      BlankShape(t, field.len);
    } else {
      EncodeDigits(t, sgn, ds, field);
    }
  }

  lemma EncodeDigits(t: SignSeparate, sgn: string, ds: string, field: FieldSize)
    requires sgn == "" || sgn == "+" || sgn == "-"
    requires IsDigits(ds) && ds != ""
    requires !(field.fixedFormat && |ds| >= field.len)
    ensures ToSignSeparate(t, Some(sgn + ds), field)
      == Ok(Signed(t, if sgn == "-" then '-' else '+', PadTo(ds, field.len - 1, '0', true)))
  {
    var num := sgn + ds;
    assert !IsBlank(Some(num)) by {
      assert |num| >= 1 && num[|num| - 1] == ds[|ds| - 1];
    }
    UnsignedOfDigits(sgn, ds);
    EncodeNonBlank(t, num, field);
  }

  lemma EncodeNonBlank(t: SignSeparate, num: string, field: FieldSize)
    requires !IsBlank(Some(num)) && !(field.fixedFormat && |Unsigned(num)| >= field.len)
    ensures ToSignSeparate(t, Some(num), field)
      == Ok(Signed(t, SignOf(num), PadTo(Unsigned(num), field.len - 1, '0', true)))
  {
  }

  /** How an encoding with a sign and digits is decoded. */
  lemma DecodeShape(t: SignSeparate, sign: char, p: string)
    requires sign == '+' || sign == '-'
    requires IsDigits(p) && (p != "" || sign == '+')
    ensures FromSignSeparate(t, Some(Signed(t, sign, p))) == (if sign == '-' then "-" else "") + p
  {
    var e := Signed(t, sign, p);
    assert e != "-";
    assert !IsTrimmable(e[0]) by {
      if !t.leadingSign && p != "" {
        assert e[0] == p[0];
      }
    }
    assert !IsTrimmable(e[|e| - 1]) by {
      if t.leadingSign && p != "" {
        assert e[|e| - 1] == p[|p| - 1];
      }
    }
    TrimOfUntrimmable(e);
    if t.leadingSign {
      assert e[1..] == p;
    } else {
      assert e[..|e| - 1] == p;
    }
  }

  /** Encoding then decoding a signed digit string gives "-" for a negative
      value followed by the digits zero-padded to len-1. */
  lemma EncodeThenDecode(t: SignSeparate, sgn: string, ds: string, field: FieldSize)
    requires sgn == "" || sgn == "+" || sgn == "-"
    requires IsDigits(ds)
    requires !(field.fixedFormat && |ds| >= field.len)
    ensures ToSignSeparate(t, Some(sgn + ds), field).Ok?
    ensures FromSignSeparate(t, Some(ToSignSeparate(t, Some(sgn + ds), field).value))
      == (if sgn == "-" && ds != "" then "-" else "") + PadTo(ds, field.len - 1, '0', true)
  {
    EncodeShape(t, sgn, ds, field);
    PadDigits(ds, field.len - 1);
    DecodeShape(t, if sgn == "-" && ds != "" then '-' else '+', PadTo(ds, field.len - 1, '0', true));
  }

  /** A well-formed encoding: the sign in its place and len-1 digits. */
  predicate IsEncoding(t: SignSeparate, e: string) {
    |e| >= 2
    && (if t.leadingSign then e[0] else e[|e| - 1]) in "+-"
    && IsDigits(if t.leadingSign then e[1..] else e[..|e| - 1])
  }

  /** Decoding then encoding a well-formed encoding that fills its field
      gives it back. */
  lemma DecodeThenEncode(t: SignSeparate, e: string, field: FieldSize)
    requires IsEncoding(t, e) && field.len == |e|
    ensures ToSignSeparate(t, Some(FromSignSeparate(t, Some(e))), field) == Ok(e)
  {
    var sign := if t.leadingSign then e[0] else e[|e| - 1];
    var ds := if t.leadingSign then e[1..] else e[..|e| - 1];
    assert e == Signed(t, sign, ds);
    DecodeShape(t, sign, ds);
    var sgn := if sign == '-' then "-" else "";
    EncodeShape(t, sgn, ds, field);
    assert PadTo(ds, field.len - 1, '0', true) == ds;
  }

  /** A blank value encodes as zeros with a '+' sign. */
  lemma BlankIsPositiveZero(t: SignSeparate, num: Option<string>, field: FieldSize)
    requires IsBlank(num) && field.len >= 2
    ensures var e := ToSignSeparate(t, num, field).value;
      |e| == field.len
      && (if t.leadingSign then e[0] else e[|e| - 1]) == '+'
      && forall i :: 0 <= i < |e| && i != (if t.leadingSign then 0 else |e| - 1) ==> e[i] == '0'
  {
  }
}

=== FILE: wrappers.dfy ===
/** Optional values (Java's nullable references) and results that carry either a
    value or the exception the Java code would throw. */
module Wrappers {

  /** A Java reference that may be null. */
  datatype Option<+T> = None | Some(value: T)

  /** The outcome of a Java call that either returns a value or throws. */
  datatype Result<+T, +E> = Ok(value: T) | Err(error: E)
}

/** Arrays that may end in null entries (the schema's growable record and field
    arrays), viewed as sequences of optional values. */
module NullableArrays {
  import opened Wrappers

  /** The length of `s` once its trailing nulls are dropped: the constructors'
      `while (count > 0 && a[count - 1] == null) count -= 1`. */
  function CountBeforeTrailingNulls<T>(s: seq<Option<T>>): (n: nat)
    ensures n <= |s|
    ensures forall k :: n <= k < |s| ==> s[k].None?
    ensures n == 0 || s[n - 1].Some?
  {
    if |s| == 0 then 0
    else if s[|s| - 1].None? then CountBeforeTrailingNulls(s[..|s| - 1])
    else |s|
  }

  /** No null entry before position `n`. */
  predicate NonNullPrefix<T>(s: seq<Option<T>>, n: nat) {
    n <= |s| && forall k :: 0 <= k < n ==> s[k].Some?
  }

  function Nulls<T>(n: nat): (r: seq<Option<T>>)
    ensures |r| == n && forall k :: 0 <= k < n ==> r[k].None?
  {
    seq(n, _ => None)
  }
}
